=== FILE: README.md ===
# transcriptor-qa backend core, in Dafny

This project models the part of the transcriptor-qa backend that turns
spoken-language text into browser automation and runs it:

- the **command interpreter** (`NLPCommandParser`). After the language model
  replies, it does the following:
  - validates each raw command against the closed vocabulary of eight actions;
  - fills in defaults per action;
  - normalises navigation targets;
  - drops what does not validate;
  - adjusts the reported confidence.
- the **automation runner** (`AutomationRunner`). It does the following:
  - opens a browser session on demand;
  - dispatches each command to one browser operation;
  - runs a batch strictly in order, optionally stopping at the first failure;
  - reports every outcome.
- the **transcription confidence heuristic** (`calculateConfidence`): a
  baseline of 0.5 plus five additive terms, clamped to [0, 1].
- the **upload validator** (`FileValidator`): existence, size, extension and
  first-bytes checks, with the first failure reported.
- the **two HTTP controllers** in front of them. They contain the request
  guards, the option defaults, and the mapping from an error message to an
  HTTP status.

The modules follow the source files:

| module | models |
|---|---|
| `NlpCommandParser` | `backend/src/services/nlp/nlpCommandParser.js` |
| `AutomationRunner` | `backend/src/services/automation/automationRunner.js` |
| `ConfidenceCalculator` | `backend/src/services/utils/confidenceCalculator.js` |
| `FileValidator` | `backend/src/services/file/fileValidator.js` |
| `AutomationController` | `backend/src/controllers/automationController.js` |
| `NlpController` | `backend/src/controllers/nlpController.js` |

Five support modules hold the JavaScript semantics the source relies on:

- `JsValues`: JSON values, truthiness, `||`, `String(v)`, `parseInt`, and rounding to hundredths.
- `JsText`: `trim`, `toLowerCase`, `startsWith`/`includes`, `split` on separator runs, and decimal rendering.
- `Commands`: the action vocabulary and the command object.
- `Http`: a status code with a body.
- `Wrappers`: `Option` and `Result`.

A `throw` is an `Err` of a `Result` carrying the error's message. A `null`
return is `None`.

The outside world is a parameter of the model. This covers:

- the completion service together with `JSON.parse` (`NlpCommandParser.Completion`);
- the browser, as a `Driver` record of functions over an opaque world state;
- the file system, as the `FileValidator.FileFacts` a path would report;
- the environment variables `OPENAI_API_KEY`, `PUPPETEER_HEADLESS` and `NODE_ENV`.

Every theorem about the runner therefore holds for every browser and network
behaviour. The controllers are modelled as functions from the request (and
the runner's session) to a status, a body and the new session.

In these places the code behaves otherwise than its own structure, messages
or names suggest; the model follows what the code does:

- **Length bonus.** A text over 200 characters earns +0.1, not +0.2: the
  `> 50` test comes first (`ConfidenceCalculator.LongTextBranchUnreachable`).
- **Empty batch.** An empty batch on a stopped session starts the browser
  before it is refused, so it is not free of side effects
  (`AutomationRunner.EmptyBatchStillStartsBrowser`).
- **Unsupported action.** An unsupported action in a batch is a per-command
  failure, not a precondition error (`AutomationRunner.SearchIsNotExecutable`).
  The single-command endpoint reports it with status 200
  (`AutomationController.UnsupportedSingleCommandStillAnswers200`).
- **Failed start.** A failed start from a stopped session, or after the old
  browser closed, leaves the session not running
  (`AutomationRunner.FailedStartIsNotRunning`). When closing the old browser
  fails, `close` swallows the error and the running flag stays as it was, so
  a failed start can leave the session marked running. A failed start keeps
  any browser handle it obtained before the failure
  (`AutomationRunner.Initialize`).
- **Missing API key.** A missing API key is answered with 500, not as an
  authentication error (`NlpController.MissingKeyIsInternalError`).
- **Confidence keywords.** The keywords that raise confidence are the
  Portuguese `abrir`, `clicar`, `digitar`, `buscar`, `navegar` and `ir para`.

## Model

| member | source | states |
|---|---|---|
| Commands.ActionOf | backend/src/services/nlp/nlpCommandParser.js:9-11 | a raw `action` names a supported action exactly when it is a string in the vocabulary, and then it is that action's own name |
| Commands.NamesRoundTrip | backend/src/services/nlp/nlpCommandParser.js:9-11 | every action is recognised under its own name, and that name is in the vocabulary |
| JsValues.Or | backend/src/services/nlp/nlpCommandParser.js:194-195 | `a \|\| b` is `a` when `a` is truthy and `b` otherwise, so a truthy default always yields a truthy field |
| JsValues.Hundredths | backend/src/services/nlp/nlpCommandParser.js:279 | `Math.round(x * 100)` is the integer nearest to `100x`, with halves rounded up |
| JsValues.RoundHundredths | backend/src/services/nlp/nlpCommandParser.js:279 | the rounded confidence is within half a hundredth of the unrounded one and is a whole number of hundredths |
| JsValues.RoundHundredthsInUnit | backend/src/services/nlp/nlpCommandParser.js:279 | rounding keeps a value in [0, 1] inside [0, 1] |
| JsValues.RoundHundredthsMonotone | backend/src/services/nlp/nlpCommandParser.js:279 | rounding never reverses the order of two values |
| JsValues.Fixed2 | backend/src/services/file/fileValidator.js:50 | `toFixed(2)` of a non-negative number prints digits, a point and exactly two decimals |
| JsValues.ParseIntStringTrimsStart | backend/src/services/nlp/nlpCommandParser.js:230 | `parseInt` skips all leading white space before reading a sign and digits |
| JsValues.ParseIntReadsString | backend/src/services/nlp/nlpCommandParser.js:230 | `parseInt(v)` reads the text `String(v)` |
| JsValues.ParseIntRoundTrip | backend/src/services/nlp/nlpCommandParser.js:230 | reading back the decimal rendering of any integer gives that integer |
| JsValues.ParseIntOfNumber | backend/src/services/nlp/nlpCommandParser.js:230 | `parseInt` of a whole number is that number |
| JsValues.ParseIntUndefined | backend/src/services/nlp/nlpCommandParser.js:230 | `parseInt(undefined)` is `NaN`, so a missing duration falls back to 2000 |
| JsValues.ParseIntOfWord | backend/src/services/automation/automationRunner.js:316 | text that begins with a lower-case letter, such as `large`, reads as `NaN` |
| JsText.Trim | backend/src/services/utils/confidenceCalculator.js:3-7 | the trimmed text is the text with its leading white space dropped (`TrimStart`, whose contract keeps an all-white-space prefix out) and then its trailing white space (`TrimEnd`, likewise for the suffix); it is empty exactly when the text is all white space, and otherwise starts and ends with a non-white-space character |
| JsText.TrimIsInnerSlice | backend/src/services/utils/confidenceCalculator.js:3-7 | the trimmed text is a slice `s[i..j]` of the text with only white space before `i` and from `j` on |
| JsText.TrimIdempotent | backend/src/services/utils/confidenceCalculator.js:3-7 | trimming an already trimmed text changes nothing |
| JsText.Prefixed | backend/src/services/nlp/nlpCommandParser.js:60 | a rethrown message starts with its prefix, and what follows the prefix is the original message |
| JsText.WordCountBounds | backend/src/services/utils/confidenceCalculator.js:118-123 | a text has words exactly when it is not blank, and never more words than characters |
| JsText.TrimmedWords | backend/src/services/utils/confidenceCalculator.js:41-44 | splitting a trimmed non-empty text on white space yields at least one word and no empty piece |
| JsText.ScanCountsPieces | backend/src/services/utils/confidenceCalculator.js:118-120 | a one-pass scan that opens a piece after each separator run and counts it at its first marked character counts exactly the split pieces holding a marked character |
| JsText.ScanAcrossPiece | backend/src/services/utils/confidenceCalculator.js:118-120 | the scan counts a stretch without separators at most once and carries whether it did |
| JsText.ScanAcrossSeparators | backend/src/services/utils/confidenceCalculator.js:118-120 | a run of separators closes the current piece for the scan |
| JsText.SplitRunsJoin | backend/src/services/utils/confidenceCalculator.js:118-120 | laid end to end, the split pieces are exactly the non-separator characters in order, so the split loses nothing but separators |
| JsText.NonEmptyCountsMarked | backend/src/services/utils/confidenceCalculator.js:118 | dropping empty pieces keeps every piece holding a character and does not change the pieces laid end to end |
| JsText.WordsCharacterised | backend/src/services/utils/confidenceCalculator.js:118 | the words are the text's non-white-space characters in order, and there are as many as places where a non-white-space character follows white space or the start |
| JsText.KeepWhereConcat | backend/src/services/utils/confidenceCalculator.js:123 | keeping the characters of a class distributes over concatenation |
| JsText.NatToStringInjective | backend/src/services/nlp/nlpCommandParser.js:192 | distinct numbers have distinct decimal renderings |
| NlpCommandParser.ValidateUrl | backend/src/services/nlp/nlpCommandParser.js:248-264 | a falsy target becomes `about:blank`; a truthy non-string target is rejected (the `TypeError` the source catches); any non-empty string becomes an `http(s)` URL; a string already beginning with `http://` or `https://` is kept as it is; a name that lower-cases to one of the five aliases becomes that alias's address; any other non-alias string, `ftp://x` included, gets `https://` in front (`example.org` gives `https://example.org`, `ftp://x` gives `https://ftp://x`) |
| NlpCommandParser.AliasLookupIgnoresCase | backend/src/services/nlp/nlpCommandParser.js:252-260 | names that lower-case to the same alias resolve to the same canonical URL |
| NlpCommandParser.ValidateUrlAsWritten | backend/src/services/nlp/nlpCommandParser.js:248-264 | the lookup as written agrees with `ValidateUrl` on every string that does not lower-case to an inherited member name |
| NlpCommandParser.ConstructorReachesPrototype | backend/src/services/nlp/nlpCommandParser.js:260 | the target `Constructor` yields the inherited `Object` constructor, where the intended result is `https://Constructor` |
| NlpCommandParser.CommandIdInjective | backend/src/services/nlp/nlpCommandParser.js:192 | two raw positions give the same id only when they are the same position |
| NlpCommandParser.WaitDuration | backend/src/services/nlp/nlpCommandParser.js:230 | a wait duration is always a non-zero number: the integer read from the raw value, or 2000 when nothing non-zero can be read |
| NlpCommandParser.ValidateCommand | backend/src/services/nlp/nlpCommandParser.js:184-245 | a command is kept exactly when its action is supported and it is not a navigation to a truthy non-string target; a kept command keeps its action, gets the id of its position, its own description or `Comando <action>`, and its own priority or its position plus one; each payload field is the first truthy of its candidates: navigate, the validated URL; click, the target or `button` and the text or `null`; type, the target or `input` and the value, text or `''`; search, the query, value, text or `''`; wait, the parsed duration or 2000 and the target or `null`; scroll, the direction or `down` and the amount or `page`; extract, the target or `body` and the attribute or `text` |
| NlpCommandParser.WithFieldsShape | backend/src/services/nlp/nlpCommandParser.js:207-246 | each action sets exactly its own payload keys, each to a defined value, and no other key changes |
| NlpCommandParser.ValidatedShape | backend/src/services/nlp/nlpCommandParser.js:184-246 | a validated command carries exactly the id, action, description and priority keys plus its action's payload keys; its description and priority are never falsy |
| NlpCommandParser.FilledShape | backend/src/services/nlp/nlpCommandParser.js:191-246 | the key set and the truthy description and priority, for each known action |
| NlpCommandParser.HeaderShape | backend/src/services/nlp/nlpCommandParser.js:191-195 | the common part defines exactly id, action, description and priority, with description and priority defaulted to truthy values |
| NlpCommandParser.WithFieldsKeys | backend/src/services/nlp/nlpCommandParser.js:207-246 | spreading the payload adds its action's keys and leaves description and priority as they were |
| NlpCommandParser.DefaultsForBareAction | backend/src/services/nlp/nlpCommandParser.js:191-246 | a command with nothing but a supported action is accepted and receives every default of the source, listed independently |
| NlpCommandParser.RevalidationIsStable | backend/src/services/nlp/nlpCommandParser.js:184-264 | validating an already validated command again at the same position changes nothing, except for a navigation whose raw target was falsy |
| NlpCommandParser.NavigationTargetStable | backend/src/services/nlp/nlpCommandParser.js:248-264 | a normalised non-empty target normalises to itself |
| NlpCommandParser.RevalidationRewritesBlankNavigation | backend/src/services/nlp/nlpCommandParser.js:249-260 | the `about:blank` placeholder has no scheme, so a second validation turns it into `https://about:blank` |
| NlpCommandParser.KeepValid | backend/src/services/nlp/nlpCommandParser.js:143-145 | filtering never lengthens the list |
| NlpCommandParser.ValidateAll | backend/src/services/nlp/nlpCommandParser.js:143-145 | the interpreter returns at most as many commands as the reply held |
| NlpCommandParser.ValidateAllKeepsExactlyTheValid | backend/src/services/nlp/nlpCommandParser.js:143-145 | the result is exactly the validations of the raw commands that validate, in raw order: a raw position is kept if and only if its command validates |
| NlpCommandParser.KeptMatchResults | backend/src/services/nlp/nlpCommandParser.js:143-145 | for any check, the j-th kept command is the check's result for an increasing raw position |
| NlpCommandParser.KeptAreTheValid | backend/src/services/nlp/nlpCommandParser.js:143-145 | for any check, a raw position is kept if and only if the check accepts it |
| NlpCommandParser.ValidatedActionsSupported | backend/src/services/nlp/nlpCommandParser.js:143-145 | every returned command names a supported action |
| NlpCommandParser.ValidatedIdsDistinct | backend/src/services/nlp/nlpCommandParser.js:143-145 | the ids within one result are pairwise distinct |
| NlpCommandParser.BaseConfidence | backend/src/services/nlp/nlpCommandParser.js:146 | the base confidence is never 0 (a missing or zero confidence falls back to 0.5), any other reported value is kept, and a value in [0, 1] stays there |
| NlpCommandParser.AdjustedConfidence | backend/src/services/nlp/nlpCommandParser.js:265-280 | a base confidence in [0, 1] gives an adjusted confidence in [0, 1], and the result is a whole number of hundredths |
| NlpCommandParser.AdjustedConfidenceMonotone | backend/src/services/nlp/nlpCommandParser.js:265-280 | for the same command count and text, a higher reported confidence never gives a lower adjusted one |
| NlpCommandParser.EmptyResultDistrusted | backend/src/services/nlp/nlpCommandParser.js:265-280 | with no commands, a text of ten characters or more and no keyword, the result is the rounded 30% of the base |
| NlpCommandParser.ProcessReply | backend/src/services/nlp/nlpCommandParser.js:135-182 | success exactly when the reply parsed and has a commands array; a failure has confidence 0.1, no commands and an error note; a success carries exactly the validated commands of the reply, its intent or `Comando não especificado`, and the confidence adjusted from the reported one (0.5 when absent) for that many commands and the text, and counts its commands; the original text is always kept |
| NlpCommandParser.ProcessedReplyWellFormed | backend/src/services/nlp/nlpCommandParser.js:135-165 | on success every command is supported, the ids are distinct, and a reported confidence in [0, 1] (or none) keeps the result in [0, 1] |
| NlpCommandParser.ParseCommands | backend/src/services/nlp/nlpCommandParser.js:14-62 | without a client and without an API key the call fails with the missing-key message; once a key is available the client stays ready and the service is asked with the context defaulted to `automação web geral` and the domain to `qualquer site`; its reply is processed by `ProcessReply`, and its error comes back behind the interpretation prefix; every error carries that prefix |
| AutomationRunner.Default | backend/src/services/automation/automationRunner.js:207 | a default parameter applies only to `undefined` |
| AutomationRunner.NavigationTarget | backend/src/services/automation/automationRunner.js:182 | the opened address always begins with `http`; an address that already does is kept, and any other gets `https://` in front |
| AutomationRunner.NavigationTargetIdempotent | backend/src/services/automation/automationRunner.js:182 | normalising an address twice is normalising it once |
| AutomationRunner.HostStartingWithHttpIsNotPrefixed | backend/src/services/automation/automationRunner.js:182 | the test is on the letters `http`, so `httpbin.org` is opened without a scheme |
| AutomationRunner.NavigateTo | backend/src/services/automation/automationRunner.js:174-205 | an empty or `about:blank` address fails before any browser call, and so does a truthy non-string one; otherwise the browser is sent to the normalised address, the world is the one that call leaves, and the step succeeds exactly when the load does, reporting the address and the page's current URL, or failing with the load's message behind the navigation prefix |
| AutomationRunner.NavigationReportsHttpTarget | backend/src/services/automation/automationRunner.js:174-205 | whatever the browser does, a navigation that succeeds had a real string address and reports an `http` address |
| AutomationRunner.LocateBySelector | backend/src/services/automation/automationRunner.js:221-227 | if the selector never becomes visible, the lookup fails |
| AutomationRunner.ClickOn | backend/src/services/automation/automationRunner.js:207-249 | a click that succeeds reports its selector and text; every failure carries the click prefix |
| AutomationRunner.ClickPrefersTextMatch | backend/src/services/automation/automationRunner.js:213-227 | when the text search finds an element, the outcome does not depend on how the selector would be waited for or queried |
| AutomationRunner.ClickWithoutTextUsesSelector | backend/src/services/automation/automationRunner.js:221-231 | without a text, when the selector lookup finds no element, the click fails with a message naming the selector |
| AutomationRunner.TypeInto | backend/src/services/automation/automationRunner.js:251-283 | typing that succeeds reports its selector and value; every failure carries the typing prefix |
| AutomationRunner.WaitFor | backend/src/services/automation/automationRunner.js:285-308 | a wait that succeeds reports its duration and selector; every failure carries the wait prefix |
| AutomationRunner.TimedWaitAlwaysSucceeds | backend/src/services/automation/automationRunner.js:287-302 | a wait without a selector never fails and does not touch the page |
| AutomationRunner.FixedScrollAmount | backend/src/services/automation/automationRunner.js:314-316 | a numeric scroll distance is never zero: the integer read when it is non-zero, and 500 when nothing can be read or the integer read is 0 |
| AutomationRunner.ScrollOffset | backend/src/services/automation/automationRunner.js:318 | the offset is the amount for `down` and its negation for any other direction |
| AutomationRunner.ScrollPage | backend/src/services/automation/automationRunner.js:310-339 | `page` measures the viewport height first and fails behind the scroll prefix if that fails; any other amount is read as a number (500 when it is not one); the page is then scrolled by that distance, negated unless the direction is `down`, and the step reports the direction and distance when the scroll succeeds, or the scroll's message behind the scroll prefix |
| AutomationRunner.ScrollDirectionDecidesSign | backend/src/services/automation/automationRunner.js:314-318 | a numeric scroll moves down exactly when "direction is down" agrees with "amount is positive" |
| AutomationRunner.WordAmountScrollsDefault | backend/src/services/automation/automationRunner.js:316-318 | a word such as `up` given as the amount reads as `NaN`, so it scrolls by 500 pixels, down only for `down` |
| AutomationRunner.ScreenshotName | backend/src/services/automation/automationRunner.js:343 | the file name is the given one when truthy, and is never empty |
| AutomationRunner.TakeScreenshot | backend/src/services/automation/automationRunner.js:341-366 | a successful capture reports its name, and its path is `uploads/` followed by that name; every failure carries the screenshot prefix |
| AutomationRunner.ReadKindFor | backend/src/services/automation/automationRunner.js:378-387 | `text` reads the text content, `html` the inner HTML, and anything else the named attribute |
| AutomationRunner.ReadAll | backend/src/services/automation/automationRunner.js:375-388 | no elements read nothing; a failing first read ends the extraction with its error; when every read succeeds there is one value per element, the first being the first element's value |
| AutomationRunner.KeepTrimmed | backend/src/services/automation/automationRunner.js:389-391 | never more results than values read |
| AutomationRunner.KeepTrimmedAreTrimmed | backend/src/services/automation/automationRunner.js:389-391 | every kept result is non-empty and has no white space at either end |
| AutomationRunner.KeepTrimmedKeepsMeaningful | backend/src/services/automation/automationRunner.js:389-391 | when every value is non-blank, the results are all of them, trimmed, in order |
| AutomationRunner.KeepTrimmedDropsBlank | backend/src/services/automation/automationRunner.js:389-391 | missing and blank values leave no result |
| AutomationRunner.KeepTrimmedConcat | backend/src/services/automation/automationRunner.js:375-392 | the results for two runs of elements are the results for each, concatenated |
| AutomationRunner.ExtractFrom | backend/src/services/automation/automationRunner.js:368-409 | a failed `$$` query or a failed read fails the extraction with the driver's message behind the extraction prefix; otherwise the results are the values read from the matched elements, in element order, trimmed with null and blank values dropped (`KeepTrimmed`), and the count is their number |
| AutomationRunner.ExtractBoundedByMatches | backend/src/services/automation/automationRunner.js:372-401 | never more results than matched elements |
| AutomationRunner.ExecuteCommand | backend/src/services/automation/automationRunner.js:144-172 | each supported action name runs its own operation with the runner's defaults: navigate the target, click the target and text, type the value, wait `duration` (2000 when falsy), scroll `direction` (`down` when falsy) by `amount` (`page` when falsy), screenshot, extract the attribute (`text` when absent); an unknown action or `search` fails with the unsupported-action message and leaves the world untouched |
| AutomationRunner.Perform | backend/src/services/automation/automationRunner.js:147-171 | the same per-action operations and defaults, for the dispatch on an already recognised action |
| AutomationRunner.ReportsNavigate | backend/src/services/automation/automationRunner.js:194-199 | a navigation that succeeds reports the `navigate` action |
| AutomationRunner.ReportsClick | backend/src/services/automation/automationRunner.js:238-243 | a click that succeeds reports the `click` action |
| AutomationRunner.ReportsType | backend/src/services/automation/automationRunner.js:272-277 | typing that succeeds reports the `type` action |
| AutomationRunner.ReportsWait | backend/src/services/automation/automationRunner.js:297-302 | a wait that succeeds reports the `wait` action |
| AutomationRunner.ReportsScroll | backend/src/services/automation/automationRunner.js:328-333 | a scroll that succeeds reports the `scroll` action |
| AutomationRunner.ReportsScreenshot | backend/src/services/automation/automationRunner.js:355-360 | a capture that succeeds reports the `screenshot` action |
| AutomationRunner.ReportsExtract | backend/src/services/automation/automationRunner.js:396-403 | an extraction that succeeds reports the `extract` action |
| AutomationRunner.ExecutionReportsItsAction | backend/src/services/automation/automationRunner.js:144-172 | a command that succeeds reports exactly the action it was asked for |
| AutomationRunner.SearchIsNotExecutable | backend/src/services/automation/automationRunner.js:169-171 | `search`, which the interpreter emits, has no operation in the runner and fails without touching the browser |
| AutomationRunner.BareScrollScrollsOnePageDown | backend/src/services/automation/automationRunner.js:160-161 | a scroll with neither direction nor amount scrolls one page down |
| AutomationRunner.BareWaitWaitsTwoSeconds | backend/src/services/automation/automationRunner.js:157-158 | a wait with neither target nor duration waits 2000 ms and succeeds |
| AutomationRunner.RunAll | backend/src/services/automation/automationRunner.js:87-118 | a run reports at most one entry per command, and at least one when there are commands |
| AutomationRunner.RunAllNumbersInOrder | backend/src/services/automation/automationRunner.js:87-112 | entry j reports command j under its position |
| AutomationRunner.RunAllRunsEverything | backend/src/services/automation/automationRunner.js:87-118 | without `stopOnError`, every command runs |
| AutomationRunner.RunAllStopsAtFirstFailure | backend/src/services/automation/automationRunner.js:105-117 | with `stopOnError`, only the last entry can be a failure, and a run that ends early ends on one |
| AutomationRunner.RunAllFirstEntry | backend/src/services/automation/automationRunner.js:87-99 | the first entry is the first command's own outcome in the starting world |
| AutomationRunner.RunCommands | backend/src/services/automation/automationRunner.js:84-118 | the loop as written computes the same world and entries as the recursive run, numbered 0, 1, 2, … |
| AutomationRunner.CountSuccesses | backend/src/services/automation/automationRunner.js:121 | the success count is at most the number of entries, equal to it exactly when every entry succeeded, and zero exactly when every entry failed |
| AutomationRunner.CountSuccessesOne | backend/src/services/automation/automationRunner.js:121 | a single entry counts one exactly when it succeeded |
| AutomationRunner.CountSuccessesConcat | backend/src/services/automation/automationRunner.js:121 | the count of a concatenation is the sum of the counts, so with the one-entry case it is the number of successful entries |
| AutomationRunner.Close | backend/src/services/automation/automationRunner.js:411-424 | without a browser nothing happens; otherwise a successful close clears the session and a failed one leaves it as it was |
| AutomationRunner.Headless | backend/src/services/automation/automationRunner.js:22-38 | a `headless` option the caller sent wins; otherwise the browser is headless unless `PUPPETEER_HEADLESS` is `false` |
| AutomationRunner.Initialize | backend/src/services/automation/automationRunner.js:14-65 | success means a running session with browser and page and the ready message; a failure carries the initialisation prefix and leaves the running flag as closing left it |
| AutomationRunner.ReinitializeIsCloseThenInitialize | backend/src/services/automation/automationRunner.js:16-18 | initialising an open session is closing it and then initialising a closed one |
| AutomationRunner.FailedStartIsNotRunning | backend/src/services/automation/automationRunner.js:53-64 | a failed start from a closed session leaves it not running |
| AutomationRunner.GetBrowserInfo | backend/src/services/automation/automationRunner.js:426-443 | there is no information exactly when there is no page |
| AutomationRunner.Start | backend/src/services/automation/automationRunner.js:70-73 | a fully running session is used as it is; a successful start leaves one fully running |
| AutomationRunner.ExecuteCommands | backend/src/services/automation/automationRunner.js:68-142 | a missing or empty list fails; on a valid list only a failed start can fail the batch; a report has one to n entries, its success count is the number of successful entries, successes plus failures equal the entries, and it carries page information; its entries and final world are those of `RunAll` running every command through `ExecuteCommand` on the started session's page, from the world the start left |
| AutomationRunner.EmptyBatchStillStartsBrowser | backend/src/services/automation/automationRunner.js:70-77 | the browser is started before the list is checked, so an empty batch on a stopped session leaves a running browser |
| AutomationRunner.BatchReportsEveryCommandInOrder | backend/src/services/automation/automationRunner.js:68-142 | the report's entries are the commands in order, numbered by position: all of them without `stopOnError`; with it, only the last can fail, and an early end has a failure |
| AutomationController.Sent | backend/src/controllers/automationController.js:6 | absent options read as an object without keys |
| AutomationController.DefaultTrue | backend/src/controllers/automationController.js:29-31 | an option is truthy unless the caller sent a falsy value for it |
| AutomationController.BatchOptions | backend/src/controllers/automationController.js:28-32 | a batch stops on error, and runs headless, unless the caller sent a falsy value for that option |
| AutomationController.BatchIgnoresHeadlessEnvironment | backend/src/controllers/automationController.js:28-32 | a batch always sets `headless`, so `PUPPETEER_HEADLESS` never matters for it |
| AutomationController.ExecutionFailureStatus | backend/src/controllers/automationController.js:56-65 | an initialisation failure is 503, otherwise a message with `timeout` is 408, and anything else is 500 |
| AutomationController.ExecuteBatch | backend/src/controllers/automationController.js:4-75 | a missing or empty list, or one of more than 20, is refused with 400 and changes nothing; 200 exactly when the list is valid, the options are not `null` and the runner succeeds; a 200 carries the runner's report unchanged and a summary of its executed, successful and failed counts, the successful count being the number of successful entries |
| AutomationController.InitFailureIsMarked | backend/src/controllers/automationController.js:59 | a message whose tail begins with the initialisation prefix contains the initialisation marker |
| AutomationController.RunnerFailuresAreUnavailable | backend/src/controllers/automationController.js:53-65 | a valid batch the runner fails on is always answered 503, never 408 |
| AutomationController.SingleCommand | backend/src/controllers/automationController.js:89-95 | the single command has the id `single_cmd`, the request's action, target and value, and a description naming the action |
| AutomationController.ExecuteSingle | backend/src/controllers/automationController.js:77-118 | without an action the answer is 400; with an action the answer is 200 exactly when the runner's batch of that one command succeeds, and then it carries the command and the runner's entry 0; every other answer is a 500 `Erro na execução` carrying the runner's error message |
| AutomationController.UnsupportedSingleCommandStillAnswers200 | backend/src/controllers/automationController.js:99-108 | a single `search` is answered 200 although its one entry is a failure |
| AutomationController.InitializeBrowser | backend/src/controllers/automationController.js:120-145 | `null` options fail as reading `headless` from `null` does; 200 exactly when the runner starts, and then the session runs; every failure is 500 with the initialisation marker |
| AutomationController.StartOptions | backend/src/controllers/automationController.js:126-129 | the start is headless unless the caller sent a falsy `headless`; other options pass through |
| AutomationController.CloseBrowser | backend/src/controllers/automationController.js:147-166 | closing always answers 200, and the session ends up closed or unchanged |
| AutomationController.GetStatus | backend/src/controllers/automationController.js:167-190 | the three flags are the session's running flag and whether it has a browser and a page |
| AutomationController.StatusFollowsLifecycle | backend/src/controllers/automationController.js:167-174 | after a successful start every flag is up; after a successful close every flag is down |
| Http.Shown | backend/src/controllers/nlpController.js:63-65 | the error's own message is shown in development, and a fixed text otherwise |
| NlpController.ParseFailureStatus | backend/src/controllers/nlpController.js:49-58 | a message with `API Key` is 401, otherwise one with `rate` is 429, and anything else is 500 |
| NlpController.ParseTextCommands | backend/src/controllers/nlpController.js:4-68 | a missing, non-string or blank text, and one over 1000 characters, are refused with 400; otherwise the answer is what `ParseCommands` gives for the text with the caller's context and domain: 200 with that interpretation, the text and the defaulted context and domain exactly when it succeeds, and otherwise the status and kind its message selects |
| NlpController.DefaultsAgreeWithInterpreter | backend/src/controllers/nlpController.js:29-33 | defaulting context and domain in the controller and again in the interpreter gives the service the same values |
| NlpController.InterpretationPrefixIsNeutral | backend/src/services/nlp/nlpCommandParser.js:60 | the interpretation prefix contains neither `API Key` nor `rate` |
| NlpController.StatusIgnoresInterpretationPrefix | backend/src/controllers/nlpController.js:52-58 | the prefix never changes the status chosen for a message |
| NlpController.MissingKeyMessageIsNeutral | backend/src/services/nlp/nlpCommandParser.js:17 | the missing-key message contains neither `API Key` nor `rate` |
| NlpController.FailureStatusFollowsMessage | backend/src/controllers/nlpController.js:47-66 | when the interpreter fails, status, error kind and message are chosen from its error message alone |
| NlpController.MissingKeyIsInternalError | backend/src/controllers/nlpController.js:47-66 | a missing API key is answered 500, not 401 |
| NlpController.TranscribeAndParse | backend/src/controllers/nlpController.js:71-86 | the combined endpoint always answers 501 with a pending message |
| NlpController.GetExamples | backend/src/controllers/nlpController.js:88-117 | the examples answer is 200, advertises the supported actions, and every example command names one of them |
| NlpController.AdvertisedActionsAreTheVocabulary | backend/src/controllers/nlpController.js:97-100 | the advertised list names exactly the actions the interpreter accepts |
| ConfidenceCalculator.Clamp | backend/src/services/utils/confidenceCalculator.js:16 | the clamped score lies in [0, 1] and equals the score when that already does |
| ConfidenceCalculator.CalculateConfidence | backend/src/services/utils/confidenceCalculator.js:2-17 | the confidence lies in [0, 1] and is 0 for anything but a string with non-white-space content |
| ConfidenceCalculator.Score | backend/src/services/utils/confidenceCalculator.js:8-16 | the score of a trimmed text lies in [0, 1] |
| ConfidenceCalculator.ConfidenceIgnoresSurroundingSpace | backend/src/services/utils/confidenceCalculator.js:3-7 | surrounding white space does not change the confidence |
| ConfidenceCalculator.UnclampedScoreRange | backend/src/services/utils/confidenceCalculator.js:8-16 | before clamping the score lies in [-1.6, 1.55], so both ends of the clamp can be reached |
| ConfidenceCalculator.LengthTerm | backend/src/services/utils/confidenceCalculator.js:19-28 | the length term is one of -0.3, -0.1, 0 and 0.1 |
| ConfidenceCalculator.LongTextBranchUnreachable | backend/src/services/utils/confidenceCalculator.js:22-27 | no text earns 0.2; every text over 200 characters earns 0.1, and exactly lengths 30 to 50 earn nothing |
| ConfidenceCalculator.PunctuationTerm | backend/src/services/utils/confidenceCalculator.js:30-39 | the punctuation term lies in [0, 0.3] |
| ConfidenceCalculator.CleanWord | backend/src/services/utils/confidenceCalculator.js:59 | a cleaned word holds only `\w` characters |
| ConfidenceCalculator.MaxOccurrences | backend/src/services/utils/confidenceCalculator.js:57-63 | the maximum count bounds every word's count and is the count of one of them |
| ConfidenceCalculator.RepetitionPenalty | backend/src/services/utils/confidenceCalculator.js:57-64 | no words never take the penalty, and a penalty means some cleaned word fills more than half of the positions |
| ConfidenceCalculator.RepetitionPenaltyMeansMajority | backend/src/services/utils/confidenceCalculator.js:57-64 | the repetition penalty applies exactly when one cleaned word fills more than half of the positions |
| ConfidenceCalculator.RepetitionPenaltyAsWritten | backend/src/services/utils/confidenceCalculator.js:57-64 | the count as written only ever misses a penalty: when it applies it, the intended rule applies it too |
| ConfidenceCalculator.WithoutProto | backend/src/services/utils/confidenceCalculator.js:57-64 | dropping `__proto__` keeps a sub-multiset of the words, and changes nothing when the word is absent |
| ConfidenceCalculator.MaxOccurrencesOfPart | backend/src/services/utils/confidenceCalculator.js:62 | counting part of the words never finds a larger repetition |
| ConfidenceCalculator.SingleWordIsRepetitive | backend/src/services/utils/confidenceCalculator.js:57-64 | a one-word text always takes the repetition penalty |
| ConfidenceCalculator.RepetitionAsWrittenAgreesElsewhere | backend/src/services/utils/confidenceCalculator.js:57-64 | the count as written agrees with the intended one on texts without the words `constructor` and `__proto__` |
| ConfidenceCalculator.PrototypeWordsEscapePenalty | backend/src/services/utils/confidenceCalculator.js:57-64 | the one-word texts `constructor` and `__proto__` should take the penalty but do not as written |
| ConfidenceCalculator.WordScore | backend/src/services/utils/confidenceCalculator.js:46-66 | the word-quality term of a non-empty word list lies in [-0.8, 0.25] |
| ConfidenceCalculator.WordQuality | backend/src/services/utils/confidenceCalculator.js:41-67 | the word-quality term lies in [-0.8, 0.25] |
| ConfidenceCalculator.EmptyWordsBranchUnreachable | backend/src/services/utils/confidenceCalculator.js:42-44 | a text the score sees is never without words, so the -0.5 branch is dead |
| ConfidenceCalculator.OneWordTextPenalised | backend/src/services/utils/confidenceCalculator.js:57-64 | a text of exactly one word takes the repetition penalty |
| ConfidenceCalculator.CharacterDistribution | backend/src/services/utils/confidenceCalculator.js:69-87 | the character-distribution term lies in [-1, 0.1] |
| ConfidenceCalculator.LanguageConsistency | backend/src/services/utils/confidenceCalculator.js:89-105 | the language term lies in [0, 0.3] |
| ConfidenceCalculator.Sentences | backend/src/services/utils/confidenceCalculator.js:120 | every counted sentence has non-white-space content |
| ConfidenceCalculator.NonBlankConcat | backend/src/services/utils/confidenceCalculator.js:120 | the non-blank filter distributes over concatenation |
| ConfidenceCalculator.NonBlankCountsMarked | backend/src/services/utils/confidenceCalculator.js:120 | the filter keeps exactly the pieces that hold a non-white-space character |
| ConfidenceCalculator.SentencesCounted | backend/src/services/utils/confidenceCalculator.js:120 | the sentence count equals a one-pass scan that counts each stretch between runs of `.`, `!` and `?` holding a non-white-space character |
| ConfidenceCalculator.GetTextStatistics | backend/src/services/utils/confidenceCalculator.js:107-130 | a non-string or falsy input gives zero counts and no confidence; otherwise it counts the trimmed characters, at most as many words (none exactly for blank text), the words and the sentences as the one-pass scans count them, and the text's confidence |
| FileValidator.CheckSize | backend/src/services/file/fileValidator.js:44-59 | a size is accepted exactly from 1049 bytes to 25 MiB, and then reported in megabytes within [0.001, 25] |
| FileValidator.ExtName | backend/src/services/file/fileValidator.js:62 | an extension is empty or a dot followed by no slash |
| FileValidator.ExtNameOfFileName | backend/src/services/file/fileValidator.js:62 | a file name with a non-empty stem and a dotted suffix has that suffix as its extension, in any directory |
| FileValidator.DotFileHasNoExtension | backend/src/services/file/fileValidator.js:62 | a dot-file such as `.mp3` has no extension |
| FileValidator.CheckExtension | backend/src/services/file/fileValidator.js:61-71 | accepted exactly when the lower-cased extension is allowed, and then reported lower-cased |
| FileValidator.ExtensionCheckIgnoresCase | backend/src/services/file/fileValidator.js:61-71 | extensions that lower-case alike get the same verdict |
| FileValidator.HeaderBuffer | backend/src/services/file/fileValidator.js:76-77 | the ten-byte buffer holds what was read, then zeros |
| FileValidator.CheckIntegrity | backend/src/services/file/fileValidator.js:73-90 | a file passes exactly when it could be read and one of its first ten bytes is non-zero |
| FileValidator.ParseFixed2RoundTrip | backend/src/services/file/fileValidator.js:104 | `parseFloat(x.toFixed(2))` is `x` rounded to the nearest hundredth |
| FileValidator.SuccessResult | backend/src/services/file/fileValidator.js:99-109 | a success result is valid and keeps the path and extension, with the size rounded to the nearest hundredth of a megabyte |
| FileValidator.Validate | backend/src/services/file/fileValidator.js:19-42 | valid exactly when the file exists, its size and extension are accepted and its head is not all zeros; the result keeps the path, the lower-cased extension and the rounded size |
| FileValidator.FirstFailureReported | backend/src/services/file/fileValidator.js:24-35 | the checks run in order and the first failure is the one reported |
| FileValidator.RejectionsExplained | backend/src/services/file/fileValidator.js:19-42 | every rejection carries a non-empty message |
| FileValidator.IsValidMimeType | backend/src/services/file/fileValidator.js:111-113 | an accepted MIME type is a lower-case `audio/` type |
| FileValidator.MimeTypeMatchIsExact | backend/src/services/file/fileValidator.js:111-113 | MIME types are matched exactly, so case and parameters matter |

## Left out

- **Text length and characters.** Text lengths count characters, not UTF-16
  code units: a character outside the Basic Multilingual Plane counts once
  here and twice in the source.
- **Number representation.** JSON numbers in command fields are integers
  (`JsValues.Num`), and confidences and sizes are exact reals. Floating-point
  rounding, and `toFixed` on values whose binary representation lies just
  below a half, are not modelled.
- **Case and character classes.** `toLowerCase`, `\p{P}` and `\p{M}` are
  modelled for Basic Latin, Latin-1, General Punctuation and the Combining
  Diacritical Marks. Other scripts are outside the model.
- **Objects and arrays as field values.** Arrays and objects appearing as
  field values are one opaque value, `JsValues.Obj`. A raw command that is
  not an object (`null`, a number) is not modelled, so neither is the
  `TypeError` that makes the source drop it.
- **Statistics averages.** The two `toFixed(1)` averages of
  `getTextStatistics` are text renderings of floating-point quotients and are
  not modelled.
- **Time.** Timestamps (`parsedAt`, `executedAt`, `validatedAt`,
  `processedAt`, `timestamp`), `executionTimeMs`, `processingTime` and every
  `delay` are left out: they do not affect any outcome. The clock appears
  only as `Driver.now`, which names a screenshot.
- **The completion service.** Prompt texts (`_buildSystemPrompt`,
  `_buildUserPrompt`), the OpenAI client, and the model name and parameters
  are replaced by the `Completion` oracle.
- **Reply metadata.** The reply's own `metadata`, which the source spreads
  into the result, is not modelled.
- **Browser specifics.** Puppeteer's own behaviour, timeouts and launch
  arguments (viewport, sandbox flags) are left to the `Driver` oracle, and
  extra caller options are not passed to the launch. `waitForLoadState`,
  which Puppeteer pages do not define, is called with optional chaining and
  does nothing.
- **Logging.** Logging (`logInfo`, `logError`, `logSuccess`) is not
  modelled.
- **Limits.** `FileValidator.getLimits` only returns the constants above and
  is not modelled as a member.
- **`undefined` versus an absent key.** An option or field that is
  `undefined` is treated as a missing key. JSON bodies cannot carry
  `undefined`.
- **Missing request body.** A request body that is not an object
  (`req.body` undefined) is not modelled.
- AutomationController.ExecuteSingle: takes the caller's options as a
  `RunOptions`, so it does not model a `null` `options` on the
  single-command endpoint, which the batch endpoint does model.
- **Out of scope.** The transcription controller, the Whisper client, the
  routers and the error middleware are not part of this model.
- **Runner singleton.** The runner's shared singleton instance is explicit
  session state passed in and returned. Concurrent requests against it are
  not modelled.
- NlpCommandParser.ProcessReply: a reported confidence is a number or
  absent. A string, boolean or object `confidence` in the reply, which the
  source would concatenate with or turn into `NaN` in the adjustment, is not
  modelled. It also validates with the corrected alias lookup.
- NlpCommandParser.ValidateCommand: resolves navigation targets with the
  corrected alias lookup (`ValidateUrl`), so it does not reproduce the
  inherited-member lookup listed under Findings.
- NlpCommandParser.ValidateAll: built on `ValidateCommand`, so it uses the
  corrected alias lookup as well.
- NlpCommandParser.ParseCommands: validates with the corrected alias lookup.
- NlpController.ParseTextCommands: validates with the corrected alias lookup.
- ConfidenceCalculator.WordQuality: applies the corrected repetition rule
  (`RepetitionPenalty`), so it does not reproduce the missed penalty for
  `constructor` and `__proto__` listed under Findings.
- ConfidenceCalculator.WordScore: uses the corrected repetition rule.
- ConfidenceCalculator.Score: uses the corrected repetition rule.
- ConfidenceCalculator.CalculateConfidence: uses the corrected repetition
  rule.
- ConfidenceCalculator.GetTextStatistics: its confidence uses the corrected
  repetition rule. It also omits the two `toFixed(1)` averages, although the
  non-white-space character count behind `avgCharsPerWord` is characterised
  by `JsText.WordsCharacterised`.

## Findings

| source | as written | input that shows it | evidently intended | confidence | as-written member | corrected member |
|---|---|---|---|---|---|---|
| backend/src/services/nlp/nlpCommandParser.js:252-260 | the alias table is a plain object literal, so `commonSites[url.toLowerCase()]` also finds members inherited from `Object.prototype` | a navigation target `Constructor` (or `__proto__`): the lookup returns the `Object` constructor (or the prototype) and no `https://` is prefixed | only the five listed aliases resolve; any other bare name becomes `https://` + name | high, not executed | NlpCommandParser.ValidateUrlAsWritten | NlpCommandParser.ValidateUrl |
| backend/src/services/utils/confidenceCalculator.js:57-64 | word counts are kept in a plain object, so the cleaned words `constructor` and `__proto__` read and write inherited members | the one-word text `constructor`: its count becomes the string `"function Object() { [native code] }1"`, `Math.max` gives `NaN`, and the penalty is skipped; for `__proto__` the assignment of the string `"[object Object]1"` is ignored, so no count is kept and `Math.max()` of nothing is `-Infinity` | every cleaned word is counted, so a one-word text always takes the repetition penalty | high, not executed | ConfidenceCalculator.RepetitionPenaltyAsWritten | ConfidenceCalculator.RepetitionPenalty |

=== FILE: automation_controller.dfy ===
/** The automation endpoints: request guards, the options handed to the
    runner, the summary of a batch, and the mapping from a runner error to an
    HTTP status. */
module AutomationController {
  import opened Wrappers
  import opened JsText
  import opened JsValues
  import opened Commands
  import opened AutomationRunner
  import opened Http

  /** The body's `options`: absent (defaulted to `{}`), `null`, or an object.
      A key the caller did not send is `Undefined`; a non-object value reads
      like an object without keys. */
  datatype RequestOptions = NoOptions | NullOptions | Given(stopOnError: JsValue, headless: JsValue)

  /** The keys a non-null `options` carries, as the runner sees them. */
  function Sent(o: RequestOptions): (r: RunOptions)
    requires !o.NullOptions?
    ensures o.NoOptions? ==> r == RunOptions(Undefined, Undefined)
    ensures o.Given? ==> r == RunOptions(o.stopOnError, o.headless)
  {
    match o
    case NoOptions => RunOptions(Undefined, Undefined)
    case Given(s, h) => RunOptions(s, h)
  }

  /** `{k: v !== false, ...options}`: the caller's own value when it sent
      one, `true` otherwise. */
  function DefaultTrue(v: JsValue): (r: JsValue)
    ensures r != Undefined
    ensures Truthy(r) <==> v == Undefined || Truthy(v)
  {
    if v == Undefined then Bool(true) else v
  }

  /** The options a batch runs with. */
  function BatchOptions(sent: RunOptions): (r: RunOptions)
    ensures Truthy(r.stopOnError) <==> sent.stopOnError == Undefined || Truthy(sent.stopOnError)
    ensures !Truthy(r.headless) <==> sent.headless != Undefined && !Truthy(sent.headless)
  {
    RunOptions(DefaultTrue(sent.stopOnError), DefaultTrue(sent.headless))
  }

  /** Because the controller always sets `headless`, the runner's environment
      default is never consulted for a batch. */
  lemma BatchIgnoresHeadlessEnvironment(sent: RunOptions, env1: Option<string>, env2: Option<string>)
    ensures Headless(BatchOptions(sent), env1) == Headless(BatchOptions(sent), env2)
  {
  }

  datatype Summary = Summary(totalCommands: nat, successful: nat, failed: nat)

  /** The response bodies. `Failure` is every `success: false` body. */
  datatype Reply =
    | Failure(error: string, message: string)
    | BatchDone(message: string, execution: ExecutionReport, summary: Summary)
    | SingleDone(command: CommandObject, result: CommandResult)
    | Started(message: string)
    | Stopped
    | StatusReport(running: bool, browserActive: bool, pageActive: bool)

  /** The runner's state and the world after a request, and the response. */
  datatype Exchange<S> = Exchange(session: Session, world: S, response: Response<Reply>)

  const MaxCommands := 20
  const MissingCommands := Failure("Comandos obrigatórios", "Por favor, forneça uma lista de comandos para executar")
  const TooManyCommands := Failure("Muitos comandos", "Máximo de 20 comandos por execução")
  const InitFailureMarker := "Falha na inicialização"
  const GenericExecutionMessage := "Erro ao executar automação"

  /** The status and error kind for a batch that threw: the first rule that
      matches wins. */
  function ExecutionFailureStatus(message: string): (r: (nat, string))
    ensures Contains(message, InitFailureMarker) ==> r == (503, "Serviço indisponível")
    ensures !Contains(message, InitFailureMarker) && Contains(message, "timeout") ==> r == (408, "Timeout")
    ensures !Contains(message, InitFailureMarker) && !Contains(message, "timeout") ==> r == (500, "Erro interno")
  {
    if Contains(message, InitFailureMarker) then (503, "Serviço indisponível")
    else if Contains(message, "timeout") then (408, "Timeout")
    else (500, "Erro interno")
  }

  /** The headline of a finished batch. */
  function BatchMessage(rep: ExecutionReport): string {
    "Automação executada: " + NatToString(rep.successfulCommands) + "/" + NatToString(rep.executedCommands)
      + " comandos bem-sucedidos"
  }

  /** Reading `stopOnError` from a `null` options object. */
  const NullStopOnError := "Cannot read properties of null (reading 'stopOnError')"

  /** `POST` of a batch: a missing, non-array (`None`) or empty list and a
      list of more than twenty are refused before the runner is called. */
  function ExecuteBatch<S>(d: Driver<S>, s: Session, w: S, commands: Option<seq<CommandObject>>,
                           options: RequestOptions, env: Option<string>, development: bool): (r: Exchange<S>)
    ensures commands.None? || commands == Some([]) ==> r == Exchange(s, w, Response(400, MissingCommands))
    ensures commands.Some? && |commands.value| > MaxCommands ==> r == Exchange(s, w, Response(400, TooManyCommands))
    ensures r.response.status == 200 <==>
      && commands.Some? && 1 <= |commands.value| <= MaxCommands && !options.NullOptions?
      && ExecuteCommands(d, s, w, commands, BatchOptions(Sent(options)), env).outcome.Ok?
    ensures r.response.status == 200 ==>
      && r.response.body.BatchDone?
      && var b := r.response.body;
         b.summary.totalCommands == |b.execution.results| <= |commands.value|
         && b.summary.successful + b.summary.failed == b.summary.totalCommands
    ensures r.response.status == 200 ==>
      var rep := ExecuteCommands(d, s, w, commands, BatchOptions(Sent(options)), env).outcome.value;
      && r.response.body.execution == rep
      && r.response.body.summary == Summary(rep.executedCommands, rep.successfulCommands, rep.failedCommands)
      && r.response.body.summary.successful == CountSuccesses(rep.results)
    ensures r.response.status != 200 ==> r.response.body.Failure?
  {
    if commands.None? || |commands.value| == 0 then Exchange(s, w, Response(400, MissingCommands))
    else if |commands.value| > MaxCommands then Exchange(s, w, Response(400, TooManyCommands))
    else if options.NullOptions? then
      var (code, kind) := ExecutionFailureStatus(NullStopOnError);
      Exchange(s, w, Response(code, Failure(kind, Shown(development, NullStopOnError, GenericExecutionMessage))))
    else
      var run := ExecuteCommands(d, s, w, commands, BatchOptions(Sent(options)), env);
      match run.outcome
      case Err(m) =>
        var (code, kind) := ExecutionFailureStatus(m);
        Exchange(run.session, run.world, Response(code, Failure(kind, Shown(development, m, GenericExecutionMessage))))
      case Ok(rep) =>
        var summary := Summary(rep.executedCommands, rep.successfulCommands, rep.failedCommands);
        Exchange(run.session, run.world, Response(200, BatchDone(BatchMessage(rep), rep, summary)))
  }

  /** An error message that begins, after `prefix`, with the initialisation
      prefix contains the initialisation marker. */
  lemma InitFailureIsMarked(message: string, prefix: string)
    requires |prefix| <= |message| && StartsWith(message[|prefix|..], InitPrefix)
    ensures Contains(message, InitFailureMarker)
  {
    var t := message[|prefix|..];
    var n := |InitFailureMarker|;
    assert InitPrefix[..n] == InitFailureMarker;
    assert t[..|InitPrefix|] == InitPrefix;
    assert message[|prefix|..|prefix| + n] == t[..n];
    assert OccursAt(message, InitFailureMarker, |prefix|);
  }

  /** The runner only throws on a well-formed batch when it cannot start the
      browser, so a batch that reaches the runner and fails is always
      reported as 503, never as a timeout. */
  lemma RunnerFailuresAreUnavailable<S>(d: Driver<S>, s: Session, w: S, commands: seq<CommandObject>,
                                        options: RequestOptions, env: Option<string>, development: bool)
    requires 1 <= |commands| <= MaxCommands && !options.NullOptions?
    requires ExecuteCommands(d, s, w, Some(commands), BatchOptions(Sent(options)), env).outcome.Err?
    ensures ExecuteBatch(d, s, w, Some(commands), options, env, development).response.status == 503
  {
    var m := ExecuteCommands(d, s, w, Some(commands), BatchOptions(Sent(options)), env).outcome.error;
    InitFailureIsMarked(m, ExecutionPrefix);
  }

  const MissingAction := Failure("Ação obrigatória", "Por favor, especifique uma ação")

  /** The command a single-command request becomes. */
  function SingleCommand(action: JsValue, target: JsValue, value: JsValue): (c: CommandObject)
    ensures Keys(c) <= {IdKey, ActionKey, TargetKey, ValueKey, DescriptionKey}
    ensures c.id == Str("single_cmd") && c.action == action && c.target == target && c.value == value
    ensures c.description.Str? && StartsWith(c.description.s, "Comando único: ")
    ensures c.description.s[|"Comando único: "|..] == ToStr(action)
  {
    EmptyObject.(id := Str("single_cmd"), action := action, target := target, value := value,
                 description := Str(Prefixed("Comando único: ", ToStr(action))))
  }

  /** `POST` of one command: refused without an action; otherwise run as a
      batch of one with the caller's options as they are, reporting the one
      entry. */
  function ExecuteSingle<S>(d: Driver<S>, s: Session, w: S, action: JsValue, target: JsValue, value: JsValue,
                            options: RunOptions, env: Option<string>): (r: Exchange<S>)
    ensures !Truthy(action) ==> r == Exchange(s, w, Response(400, MissingAction))
    ensures r.response.status == 200 ==>
      && r.response.body.SingleDone?
      && r.response.body.command == SingleCommand(action, target, value)
      && r.response.body.result.commandIndex == 0
      && r.response.body.result.command == r.response.body.command
    ensures r.response.status == 400 || r.response.status == 500 || r.response.status == 200
    ensures Truthy(action) && r.response.status != 200 ==>
      && r.response.status == 500
      && ExecuteCommands(d, s, w, Some([SingleCommand(action, target, value)]), options, env).outcome.Err?
      && r.response.body
           == Failure("Erro na execução",
                      ExecuteCommands(d, s, w, Some([SingleCommand(action, target, value)]), options, env).outcome.error)
    ensures Truthy(action) ==>
      (r.response.status == 200 <==>
         ExecuteCommands(d, s, w, Some([SingleCommand(action, target, value)]), options, env).outcome.Ok?)
    ensures r.response.status == 200 ==>
      && ExecuteCommands(d, s, w, Some([SingleCommand(action, target, value)]), options, env).outcome.Ok?
      && r.response.body.result
           == ExecuteCommands(d, s, w, Some([SingleCommand(action, target, value)]), options, env).outcome.value.results[0]
  {
    if !Truthy(action) then Exchange(s, w, Response(400, MissingAction))
    else
      var c := SingleCommand(action, target, value);
      var run := ExecuteCommands(d, s, w, Some([c]), options, env);
      match run.outcome
      case Err(m) => Exchange(run.session, run.world, Response(500, Failure("Erro na execução", m)))
      case Ok(rep) =>
        BatchReportsEveryCommandInOrder(d, s, w, [c], options, env);
        Exchange(run.session, run.world, Response(200, SingleDone(c, rep.results[0])))
  }

  /** The endpoint answers 200 "executed successfully" even when the command
      itself failed: a `search` sent on its own is reported with status 200
      and a failed entry. */
  lemma UnsupportedSingleCommandStillAnswers200<S>(d: Driver<S>, s: Session, w: S, target: JsValue, value: JsValue,
                                                   options: RunOptions, env: Option<string>)
    requires ExecuteCommands(d, s, w, Some([SingleCommand(Str("search"), target, value)]), options, env).outcome.Ok?
    ensures ExecuteSingle(d, s, w, Str("search"), target, value, options, env).response.status == 200
    ensures ExecuteSingle(d, s, w, Str("search"), target, value, options, env).response.body.result.outcome
         == Err("Ação não suportada: search")
  {
    var c := SingleCommand(Str("search"), target, value);
    var started := Start(d, s, w, options, env);
    var page := started.session.page.value;
    RunAllFirstEntry(Executing(d, page), started.world, [c], 0, Truthy(options.stopOnError));
    SearchIsNotExecutable(d, started.world, page, c);
  }

  /** `POST` to start the browser: `headless` is true unless the caller sent
      a value for it. */
  function InitializeBrowser<S>(d: Driver<S>, s: Session, w: S, options: RequestOptions, env: Option<string>)
    : (r: Exchange<S>)
    ensures options.NullOptions? ==>
      r == Exchange(s, w, Response(500, Failure(InitFailureMarker, "Cannot read properties of null (reading 'headless')")))
    ensures r.response.status == 200 <==>
      !options.NullOptions? && Initialize(d, s, w, StartOptions(Sent(options)), env).outcome.Ok?
    ensures r.response.status == 200 ==> r.response.body == Started(ReadyMessage) && r.session.isRunning
    ensures r.response.status != 200 ==>
      r.response.status == 500 && r.response.body.Failure? && r.response.body.error == InitFailureMarker
  {
    match options
    case NullOptions =>
      Exchange(s, w, Response(500, Failure(InitFailureMarker, "Cannot read properties of null (reading 'headless')")))
    case _ =>
      var run := Initialize(d, s, w, StartOptions(Sent(options)), env);
      match run.outcome
      case Err(m) => Exchange(run.session, run.world, Response(500, Failure(InitFailureMarker, m)))
      case Ok(message) => Exchange(run.session, run.world, Response(200, Started(message)))
  }

  /** `{headless: options.headless !== false, ...options}`. */
  function StartOptions(sent: RunOptions): (r: RunOptions)
    ensures r.stopOnError == sent.stopOnError
    ensures !Truthy(r.headless) <==> sent.headless != Undefined && !Truthy(sent.headless)
  {
    sent.(headless := DefaultTrue(sent.headless))
  }

  /** `POST` to close the browser always answers 200: the runner swallows
      teardown errors. */
  function CloseBrowser<S>(d: Driver<S>, s: Session, w: S): (r: Exchange<S>)
    ensures r.response == Response(200, Stopped)
    ensures r.session == s || r.session == Closed
  {
    var (s1, w1) := Close(d, s, w);
    Exchange(s1, w1, Response(200, Stopped))
  }

  /** `GET` of the runner's state. */
  function GetStatus(s: Session): (r: Response<Reply>)
    ensures r.status == 200 && r.body.StatusReport?
    ensures r.body.running == s.isRunning
    ensures r.body.browserActive <==> s.browser.Some?
    ensures r.body.pageActive <==> s.page.Some?
  {
    Response(200, StatusReport(s.isRunning, s.browser.Some?, s.page.Some?))
  }

  /** After a successful start every flag is up; after a successful close
      every flag is down. */
  lemma StatusFollowsLifecycle<S>(d: Driver<S>, s: Session, w: S, options: RequestOptions, env: Option<string>)
    ensures var r := InitializeBrowser(d, s, w, options, env);
      r.response.status == 200 ==> GetStatus(r.session).body == StatusReport(true, true, true)
    ensures s.browser.Some? && d.closeBrowser(w, s.browser.value).1.Ok? ==>
      GetStatus(CloseBrowser(d, s, w).session).body == StatusReport(false, false, false)
  {
  }
}

=== FILE: automation_runner.dfy ===
/** The automation runner: a browser session that is opened on demand, a
    dispatcher from a command's action to one browser operation, and a batch
    loop that runs commands in order and reports each outcome.

    The browser itself is not modelled. Every call the runner makes into it is
    a field of a `Driver` over an opaque world `S`: the call takes the world as
    it is and returns the world after it together with the call's outcome, a
    value or an error message. Each theorem below therefore holds for every
    browser, page and network behaviour. Delays (`setTimeout`) have no effect
    on the outcome and are not modelled; the clock appears only through
    `now`, which names a screenshot. */
module AutomationRunner {
  import opened Wrappers
  import opened JsText
  import opened JsValues
  import opened Commands
  import opened Sequences

  /** The runner's own state: the launched browser, its page, and whether the
      session finished initialising. Handles are opaque numbers. */
  datatype Session = Session(browser: Option<nat>, page: Option<nat>, isRunning: bool)

  /** The state of a runner that has no browser (the constructor's state, and
      the state after a successful `close`). */
  const Closed := Session(None, None, false)

  /** How `waitForSelector` is asked to wait. */
  datatype WaitOptions =
    | VisibleFor(timeout: nat)        // `{visible: true, timeout}`
    | StateVisibleFor(timeout: nat)   // `{state: 'visible', timeout}`
    | TimeoutOf(duration: JsValue)    // `{timeout: duration}`

  /** Operations on one element handle. */
  datatype ElementAction = ClickOnce | TripleClick | PressBackspace | TypeText(text: JsValue)

  /** What `extract` reads from each element. */
  datatype ReadKind = TextContent | InnerHtml | AttributeNamed(name: JsValue)

  datatype PageFacts = PageFacts(userAgent: string, url: string, title: string)

  /** The browser, as the runner sees it. */
  datatype Driver<!S> = Driver(
    launch: (S, JsValue) -> (S, Result<nat>),                  // headless flag -> browser
    newPage: (S, nat) -> (S, Result<nat>),                    // browser -> page
    setUserAgent: (S, nat, string) -> (S, Result<()>),
    goto: (S, nat, string) -> (S, Result<()>),
    currentUrl: (S, nat) -> string,
    closeBrowser: (S, nat) -> (S, Result<()>),
    findByXPath: (S, nat, string) -> (S, Result<Option<nat>>),  // first match, if any
    waitForSelector: (S, nat, JsValue, WaitOptions) -> (S, Result<()>),
    query: (S, nat, JsValue) -> (S, Result<Option<nat>>),       // `$`
    queryAll: (S, nat, JsValue) -> (S, Result<seq<nat>>),       // `$$`
    act: (S, nat, ElementAction) -> (S, Result<()>),
    innerHeight: (S, nat) -> (S, Result<int>),
    scrollBy: (S, nat, int) -> (S, Result<()>),
    screenshot: (S, nat, string) -> (S, Result<()>),            // page, path
    read: (S, nat, ReadKind) -> (S, Result<Option<string>>),    // `null` is `None`
    pageFacts: (S, nat) -> Result<PageFacts>,
    now: S -> nat)

  /** The world after an operation, and what the operation returned. */
  datatype Step<S, T> = Step(world: S, outcome: Result<T>)

  /** What a successful browser operation reports. */
  datatype ActionResult =
    | Navigated(targetUrl: string, result: string)
    | Clicked(target: JsValue, text: JsValue)
    | Typed(target: JsValue, value: JsValue)
    | Waited(duration: JsValue, target: JsValue)
    | Scrolled(direction: JsValue, amount: int)
    | Captured(filename: JsValue, path: string)
    | Extracted(target: JsValue, attribute: JsValue, results: seq<string>, count: nat)

  /** The `action` field of a report. */
  function Kind(a: ActionResult): Action {
    match a
    case Navigated(_, _) => Navigate
    case Clicked(_, _) => Click
    case Typed(_, _) => Type
    case Waited(_, _) => Wait
    case Scrolled(_, _) => Scroll
    case Captured(_, _) => Screenshot
    case Extracted(_, _, _, _) => Extract
  }

  /** A JavaScript default parameter: it applies only when the argument is
      `undefined`. */
  function Default(v: JsValue, d: JsValue): (r: JsValue)
    ensures v != Undefined ==> r == v
    ensures v == Undefined ==> r == d
  {
    if v == Undefined then d else v
  }

  // ---------------------------------------------------------------- navigate

  const NavigatePrefix := "Navegação falhou: "

  /** The address `navigate` opens: anything that does not begin with `http`
      gets `https://` in front. */
  function NavigationTarget(url: string): (r: string)
    ensures StartsWith(r, "http")
    ensures StartsWith(url, "http") ==> r == url
    ensures !StartsWith(url, "http") ==> r == Prefixed("https://", url)
  {
    if StartsWith(url, "http") then url
    else
      assert StartsWith(Prefixed("https://", url), "https://");
      assert "https://"[..4] == "http";
      Prefixed("https://", url)
  }

  /** Normalising an address twice is normalising it once. */
  lemma NavigationTargetIdempotent(url: string)
    ensures NavigationTarget(NavigationTarget(url)) == NavigationTarget(url)
  {
  }

  /** The test is on the four letters `http`, not on a scheme: a host name
      that begins with them is opened as written. */
  lemma HostStartingWithHttpIsNotPrefixed()
    ensures NavigationTarget("httpbin.org") == "httpbin.org"
  {
    assert "httpbin.org"[..4] == "http";
  }

  function NavigateTo<S>(d: Driver<S>, w: S, page: nat, url: JsValue): (r: Step<S, ActionResult>)
    ensures !Truthy(url) || url == Str("about:blank") ==>
      r == Step(w, Err(Prefixed(NavigatePrefix, "URL inválida ou vazia")))
    ensures r.outcome.Ok? ==>
      url.Str? && r.outcome.value == Navigated(NavigationTarget(url.s), d.currentUrl(r.world, page))
    ensures r.outcome.Err? ==> StartsWith(r.outcome.error, NavigatePrefix)
    ensures Truthy(url) && url != Str("about:blank") && url.Str? ==>
      var (w1, loaded) := d.goto(w, page, NavigationTarget(url.s));
      r.world == w1 && (r.outcome.Ok? <==> loaded.Ok?) &&
      (loaded.Err? ==> r.outcome == Err(Prefixed(NavigatePrefix, loaded.error)))
    ensures Truthy(url) && url != Str("about:blank") && !url.Str? ==> r.world == w && r.outcome.Err?
  {
    if !Truthy(url) || url == Str("about:blank") then
      Step(w, Err(Prefixed(NavigatePrefix, "URL inválida ou vazia")))
    else if !url.Str? then
      // `url.startsWith` is not a function on a number, boolean or object.
      Step(w, Err(Prefixed(NavigatePrefix, "url.startsWith is not a function")))
    else
      var target := NavigationTarget(url.s);
      var (w1, loaded) := d.goto(w, page, target);
      match loaded
      case Err(m) => Step(w1, Err(Prefixed(NavigatePrefix, m)))
      case Ok(_) => Step(w1, Ok(Navigated(target, d.currentUrl(w1, page))))
  }

  /** Only a string address reaches the browser, and it reaches it
      normalised: whatever the browser does, a navigation that succeeds
      reports an address beginning with `http`. */
  lemma NavigationReportsHttpTarget<S>(d: Driver<S>, w: S, page: nat, url: JsValue)
    requires NavigateTo(d, w, page, url).outcome.Ok?
    ensures StartsWith(NavigateTo(d, w, page, url).outcome.value.targetUrl, "http")
    ensures url.Str? && url.s != "" && url.s != "about:blank"
  {
  }

  // ------------------------------------------------------------------- click

  const ClickPrefix := "Clique falhou: "

  /** The XPath that finds elements containing `text`. */
  function TextXPath(text: JsValue): string {
    "//*[contains(text(), \"" + ToStr(text) + "\")]"
  }

  /** The tail of the not-found message when a text was given. */
  function TextSuffix(text: JsValue): string {
    if Truthy(text) then " com texto \"" + ToStr(text) + "\"" else ""
  }

  /** Waits for `selector` to be visible, then looks it up. */
  function LocateBySelector<S>(d: Driver<S>, w: S, page: nat, selector: JsValue): (r: Step<S, Option<nat>>)
    ensures d.waitForSelector(w, page, selector, VisibleFor(10000)).1.Err? ==> r.outcome.Err?
  {
    var (w1, waited) := d.waitForSelector(w, page, selector, VisibleFor(10000));
    match waited
    case Err(m) => Step(w1, Err(m))
    case Ok(_) =>
      var (w2, found) := d.query(w1, page, selector);
      Step(w2, found)
  }

  /** Clicks the first element containing `text` when a text is given and
      such an element exists, and otherwise the element `selector` names. */
  function ClickOn<S>(d: Driver<S>, w: S, page: nat, selector: JsValue, text: JsValue): (r: Step<S, ActionResult>)
    ensures r.outcome.Ok? ==> r.outcome.value == Clicked(selector, text)
    ensures r.outcome.Err? ==> StartsWith(r.outcome.error, ClickPrefix)
  {
    var (w1, byText) := if Truthy(text) then d.findByXPath(w, page, TextXPath(text)) else (w, Ok(None));
    match byText
    case Err(m) => Step(w1, Err(Prefixed(ClickPrefix, m)))
    case Ok(first) =>
      var located: Step<S, Option<nat>> := if first.Some? then Step(w1, Ok(first)) else LocateBySelector(d, w1, page, selector);
      match located.outcome
      case Err(m) => Step(located.world, Err(Prefixed(ClickPrefix, m)))
      case Ok(None) =>
        Step(located.world,
             Err(Prefixed(ClickPrefix, "Elemento não encontrado: " + ToStr(selector) + TextSuffix(text))))
      case Ok(Some(e)) =>
        var (w3, clicked) := d.act(located.world, e, ClickOnce);
        match clicked
        case Err(m) => Step(w3, Err(Prefixed(ClickPrefix, m)))
        case Ok(_) => Step(w3, Ok(Clicked(selector, text)))
  }

  /** When the text search finds an element, the selector is never consulted:
      the outcome is the same whatever waiting for and querying the selector
      would do. */
  lemma ClickPrefersTextMatch<S>(d: Driver<S>, w: S, page: nat, selector: JsValue, text: JsValue,
                                 wait': (S, nat, JsValue, WaitOptions) -> (S, Result<()>),
                                 query': (S, nat, JsValue) -> (S, Result<Option<nat>>))
    requires Truthy(text)
    requires d.findByXPath(w, page, TextXPath(text)).1.Ok?
    requires d.findByXPath(w, page, TextXPath(text)).1.value.Some?
    ensures ClickOn(d, w, page, selector, text) == ClickOn(d.(waitForSelector := wait', query := query'), w, page, selector, text)
  {
  }

  /** Without a text, the element is the one the selector names, and when the
      page has none the message names the selector. */
  lemma ClickWithoutTextUsesSelector<S>(d: Driver<S>, w: S, page: nat, selector: JsValue)
    requires LocateBySelector(d, w, page, selector).outcome == Ok(None)
    ensures ClickOn(d, w, page, selector, Null).outcome
         == Err(Prefixed(ClickPrefix, "Elemento não encontrado: " + ToStr(selector)))
  {
  }

  // -------------------------------------------------------------------- type

  const TypePrefix := "Digitação falhou: "

  /** Selects everything in the field, deletes it and types `value`. */
  function TypeInto<S>(d: Driver<S>, w: S, page: nat, selector: JsValue, value: JsValue): (r: Step<S, ActionResult>)
    ensures r.outcome.Ok? ==> r.outcome.value == Typed(selector, value)
    ensures r.outcome.Err? ==> StartsWith(r.outcome.error, TypePrefix)
  {
    var (w1, waited) := d.waitForSelector(w, page, selector, StateVisibleFor(10000));
    if waited.Err? then Step(w1, Err(Prefixed(TypePrefix, waited.error)))
    else
      var (w2, found) := d.query(w1, page, selector);
      match found
      case Err(m) => Step(w2, Err(Prefixed(TypePrefix, m)))
      case Ok(None) => Step(w2, Err(Prefixed(TypePrefix, "Campo não encontrado: " + ToStr(selector))))
      case Ok(Some(e)) =>
        var (w3, selected) := d.act(w2, e, TripleClick);
        if selected.Err? then Step(w3, Err(Prefixed(TypePrefix, selected.error)))
        else
          var (w4, cleared) := d.act(w3, e, PressBackspace);
          if cleared.Err? then Step(w4, Err(Prefixed(TypePrefix, cleared.error)))
          else
            var (w5, typed) := d.act(w4, e, TypeText(value));
            if typed.Err? then Step(w5, Err(Prefixed(TypePrefix, typed.error)))
            else Step(w5, Ok(Typed(selector, value)))
  }

  // -------------------------------------------------------------------- wait

  const WaitPrefix := "Aguardo falhou: "

  /** Waits for `selector` with `duration` as the timeout when a selector is
      given, and otherwise just lets `duration` pass. */
  function WaitFor<S>(d: Driver<S>, w: S, page: nat, duration: JsValue, selector: JsValue): (r: Step<S, ActionResult>)
    ensures r.outcome.Ok? ==> r.outcome.value == Waited(duration, selector)
    ensures r.outcome.Err? ==> StartsWith(r.outcome.error, WaitPrefix)
  {
    if Truthy(selector) then
      var (w1, waited) := d.waitForSelector(w, page, selector, TimeoutOf(duration));
      if waited.Err? then Step(w1, Err(Prefixed(WaitPrefix, waited.error)))
      else Step(w1, Ok(Waited(duration, selector)))
    else Step(w, Ok(Waited(duration, selector)))
  }

  /** A plain timed wait cannot fail and does not touch the page. */
  lemma TimedWaitAlwaysSucceeds<S>(d: Driver<S>, w: S, page: nat, duration: JsValue, selector: JsValue)
    requires !Truthy(selector)
    ensures WaitFor(d, w, page, duration, selector) == Step(w, Ok(Waited(duration, selector)))
  {
  }

  // ------------------------------------------------------------------ scroll

  const ScrollPrefix := "Rolagem falhou: "

  /** `parseInt(amount) || 500`: a scroll distance is never zero. */
  function FixedScrollAmount(amount: JsValue): (r: int)
    ensures r != 0
    ensures ParseInt(amount).Some? && ParseInt(amount).value != 0 ==> r == ParseInt(amount).value
    ensures ParseInt(amount).None? || ParseInt(amount).value == 0 ==> r == 500
  {
    match ParseInt(amount)
    case Some(n) => if n != 0 then n else 500
    case None => 500
  }

  /** The vertical offset handed to `window.scrollBy`. */
  function ScrollOffset(direction: JsValue, amount: int): (y: int)
    ensures y == amount || y == -amount
    ensures direction == Str("down") ==> y == amount
    ensures direction != Str("down") ==> y == -amount
  {
    if direction == Str("down") then amount else -amount
  }

  /** Scrolls by one viewport height when `amount` is `"page"`, and otherwise
      by `amount` read as an integer. */
  function ScrollPage<S>(d: Driver<S>, w: S, page: nat, direction: JsValue, amount: JsValue): (r: Step<S, ActionResult>)
    ensures amount != Str("page") && r.outcome.Ok? ==>
      r.outcome.value == Scrolled(direction, FixedScrollAmount(amount))
    ensures r.outcome.Ok? ==> r.outcome.value.Scrolled?
    ensures r.outcome.Err? ==> StartsWith(r.outcome.error, ScrollPrefix)
    ensures amount != Str("page") ==>
      var (w2, scrolled) := d.scrollBy(w, page, ScrollOffset(direction, FixedScrollAmount(amount)));
      r.world == w2 &&
      r.outcome == (if scrolled.Ok? then Ok(Scrolled(direction, FixedScrollAmount(amount)))
                    else Err(Prefixed(ScrollPrefix, scrolled.error)))
    ensures amount == Str("page") ==>
      var (w1, height) := d.innerHeight(w, page);
      if height.Err? then r == Step(w1, Err(Prefixed(ScrollPrefix, height.error)))
      else
        var (w2, scrolled) := d.scrollBy(w1, page, ScrollOffset(direction, height.value));
        r.world == w2 &&
        r.outcome == (if scrolled.Ok? then Ok(Scrolled(direction, height.value))
                      else Err(Prefixed(ScrollPrefix, scrolled.error)))
  {
    var (w1, measured) := if amount == Str("page") then d.innerHeight(w, page) else (w, Ok(FixedScrollAmount(amount)));
    match measured
    case Err(m) => Step(w1, Err(Prefixed(ScrollPrefix, m)))
    case Ok(n) =>
      var (w2, scrolled) := d.scrollBy(w1, page, ScrollOffset(direction, n));
      if scrolled.Err? then Step(w2, Err(Prefixed(ScrollPrefix, scrolled.error)))
      else Step(w2, Ok(Scrolled(direction, n)))
  }

  /** A numeric scroll moves the page downwards exactly when the direction is
      `"down"` and the amount is positive, or the direction is anything else
      and the amount is negative. */
  lemma ScrollDirectionDecidesSign(direction: JsValue, amount: JsValue)
    requires amount != Str("page")
    ensures ScrollOffset(direction, FixedScrollAmount(amount)) > 0
       <==> (direction == Str("down")) == (FixedScrollAmount(amount) > 0)
  {
  }

  /** Text that is not a number scrolls by the 500-pixel default. */
  lemma WordAmountScrollsDefault(direction: JsValue)
    ensures ScrollOffset(direction, FixedScrollAmount(Str("up"))) == (if direction == Str("down") then 500 else -500)
  {
    ParseIntReadsString(Str("up"));
    ParseIntOfWord("up");
  }

  // -------------------------------------------------------------- screenshot

  const ScreenshotPrefix := "Screenshot falhou: "
  const ScreenshotDir := "uploads/"

  /** The file name: the one given, or one made from the clock. */
  function ScreenshotName<S>(d: Driver<S>, w: S, filename: JsValue): (r: JsValue)
    ensures Truthy(r)
    ensures Truthy(filename) ==> r == filename
  {
    Or(filename, Str("screenshot-" + NatToString(d.now(w)) + ".png"))
  }

  function TakeScreenshot<S>(d: Driver<S>, w: S, page: nat, filename: JsValue): (r: Step<S, ActionResult>)
    ensures r.outcome.Ok? ==>
      && r.outcome.value.Captured?
      && r.outcome.value.filename == ScreenshotName(d, w, filename)
      && StartsWith(r.outcome.value.path, ScreenshotDir)
      && r.outcome.value.path[|ScreenshotDir|..] == ToStr(r.outcome.value.filename)
    ensures r.outcome.Err? ==> StartsWith(r.outcome.error, ScreenshotPrefix)
  {
    var name := ScreenshotName(d, w, filename);
    var path := Prefixed(ScreenshotDir, ToStr(name));
    var (w1, saved) := d.screenshot(w, page, path);
    if saved.Err? then Step(w1, Err(Prefixed(ScreenshotPrefix, saved.error)))
    else Step(w1, Ok(Captured(name, path)))
  }

  // ----------------------------------------------------------------- extract

  const ExtractPrefix := "Extração falhou: "

  /** `attribute` selects the text content, the inner HTML, or a named
      attribute. */
  function ReadKindFor(attribute: JsValue): (k: ReadKind)
    ensures k == TextContent <==> attribute == Str("text")
    ensures k == InnerHtml <==> attribute == Str("html")
    ensures attribute != Str("text") && attribute != Str("html") ==> k == AttributeNamed(attribute)
  {
    if attribute == Str("text") then TextContent
    else if attribute == Str("html") then InnerHtml
    else AttributeNamed(attribute)
  }

  /** Reads every element in order; the first failing read ends the
      extraction. */
  function ReadAll<S>(d: Driver<S>, w: S, elements: seq<nat>, kind: ReadKind): (r: Step<S, seq<Option<string>>>)
    ensures r.outcome.Ok? ==> |r.outcome.value| == |elements|
    ensures elements == [] ==> r == Step(w, Ok([]))
    ensures elements != [] ==>
      var (w1, first) := d.read(w, elements[0], kind);
      && (first.Err? ==> r == Step(w1, Err(first.error)))
      && (first.Ok? && r.outcome.Ok? ==> r.outcome.value[0] == first.value)
    decreases |elements|
  {
    if |elements| == 0 then Step(w, Ok([]))
    else
      var (w1, first) := d.read(w, elements[0], kind);
      match first
      case Err(m) => Step(w1, Err(m))
      case Ok(v) =>
        var rest := ReadAll(d, w1, elements[1..], kind);
        match rest.outcome
        case Err(m) => Step(rest.world, Err(m))
        case Ok(vs) => Step(rest.world, Ok([v] + vs))
  }

  /** A value worth keeping: present, and not blank once trimmed. */
  predicate Meaningful(v: Option<string>) {
    v.Some? && v.value != "" && Trim(v.value) != ""
  }

  /** Non-empty, with no white space at either end. */
  predicate Trimmed(t: string) {
    t != "" && !IsSpace(t[0]) && !IsSpace(t[|t| - 1])
  }

  /** The trimmed non-blank values, in order. */
  function KeepTrimmed(values: seq<Option<string>>): (r: seq<string>)
    ensures |r| <= |values|
    decreases |values|
  {
    if |values| == 0 then []
    else
      var rest := KeepTrimmed(values[1..]);
      if Meaningful(values[0]) then [Trim(values[0].value)] + rest else rest
  }

  /** Every kept value is non-empty and trimmed at both ends. */
  lemma {:induction false} KeepTrimmedAreTrimmed(values: seq<Option<string>>)
    ensures forall i :: 0 <= i < |KeepTrimmed(values)| ==> Trimmed(KeepTrimmed(values)[i])
    decreases |values|
  {
    if |values| > 0 {
      var rest := KeepTrimmed(values[1..]);
      KeepTrimmedAreTrimmed(values[1..]);
      if Meaningful(values[0]) {
        var t := Trim(values[0].value);
        assert Trimmed(t);
        var r := [t] + rest;
        assert forall i :: 0 < i < |r| ==> r[i] == rest[i - 1];
      }
    }
  }

  /** Every value, trimmed. */
  function TrimEach(values: seq<Option<string>>): (r: seq<string>)
    requires forall i :: 0 <= i < |values| ==> values[i].Some?
    ensures |r| == |values|
    ensures forall i :: 0 <= i < |values| ==> r[i] == Trim(values[i].value)
    decreases |values|
  {
    if |values| == 0 then [] else [Trim(values[0].value)] + TrimEach(values[1..])
  }

  /** Nothing meaningful is dropped: when every value is meaningful, the
      results are all of them, trimmed, in order. */
  lemma {:induction false} KeepTrimmedKeepsMeaningful(values: seq<Option<string>>)
    requires forall i :: 0 <= i < |values| ==> values[i].Some? && Meaningful(values[i])
    ensures KeepTrimmed(values) == TrimEach(values)
    decreases |values|
  {
    if |values| > 0 {
      var tail := values[1..];
      assert forall i :: 0 <= i < |tail| ==> Meaningful(tail[i]) by {
        forall i | 0 <= i < |tail| ensures Meaningful(tail[i]) {
          assert tail[i] == values[i + 1];
        }
      }
      KeepTrimmedKeepsMeaningful(tail);
      assert Meaningful(values[0]);
    }
  }

  /** ... and nothing else is kept: blank and missing values leave no trace. */
  lemma {:induction false} KeepTrimmedDropsBlank(values: seq<Option<string>>)
    requires forall i :: 0 <= i < |values| ==> !Meaningful(values[i])
    ensures KeepTrimmed(values) == []
    decreases |values|
  {
    if |values| > 0 {
      assert forall i :: 0 <= i < |values[1..]| ==> !Meaningful(values[1..][i]) by {
        forall i | 0 <= i < |values[1..]| ensures !Meaningful(values[1..][i]) {
          assert values[1..][i] == values[i + 1];
        }
      }
      KeepTrimmedDropsBlank(values[1..]);
    }
  }

  /** Extraction over a concatenation is the concatenation of extractions. */
  lemma {:induction false} KeepTrimmedConcat(a: seq<Option<string>>, b: seq<Option<string>>)
    ensures KeepTrimmed(a + b) == KeepTrimmed(a) + KeepTrimmed(b)
    decreases |a|
  {
    if |a| > 0 {
      var head := KeptHead(a[0]);
      KeepTrimmedStep(a);
      KeepTrimmedStep(a + b);
      SplitFirst(a, b);
      KeepTrimmedConcat(a[1..], b);
      assert head + (KeepTrimmed(a[1..]) + KeepTrimmed(b)) == (head + KeepTrimmed(a[1..])) + KeepTrimmed(b);
    } else {
      assert a + b == b;
    }
  }

  /** What one value contributes to the results. */
  function KeptHead(v: Option<string>): seq<string> {
    if Meaningful(v) then [Trim(v.value)] else []
  }

  /** One step of `KeepTrimmed`: the first value's contribution, then the rest. */
  lemma KeepTrimmedStep(values: seq<Option<string>>)
    requires values != []
    ensures KeepTrimmed(values) == KeptHead(values[0]) + KeepTrimmed(values[1..])
  {
  }

  /** Reads `attribute` from every element `selector` matches and reports the
      trimmed non-blank values in element order; a failed query or read
      fails the extraction behind `ExtractPrefix`. */
  function ExtractFrom<S>(d: Driver<S>, w: S, page: nat, selector: JsValue, attribute: JsValue): (r: Step<S, ActionResult>)
    ensures r.outcome.Ok? ==>
      && r.outcome.value.Extracted?
      && r.outcome.value.target == selector
      && r.outcome.value.attribute == attribute
      && r.outcome.value.count == |r.outcome.value.results|
    ensures r.outcome.Err? ==> StartsWith(r.outcome.error, ExtractPrefix)
    ensures var (w1, found) := d.queryAll(w, page, selector);
      found.Err? ==> r == Step(w1, Err(Prefixed(ExtractPrefix, found.error)))
    ensures var (w1, found) := d.queryAll(w, page, selector);
      found.Ok? ==>
        var values := ReadAll(d, w1, found.value, ReadKindFor(attribute));
        && (values.outcome.Err? ==> r == Step(values.world, Err(Prefixed(ExtractPrefix, values.outcome.error))))
        && (values.outcome.Ok? ==>
              var kept := KeepTrimmed(values.outcome.value);
              r == Step(values.world, Ok(Extracted(selector, attribute, kept, |kept|))))
  {
    var (w1, found) := d.queryAll(w, page, selector);
    match found
    case Err(m) => Step(w1, Err(Prefixed(ExtractPrefix, m)))
    case Ok(elements) =>
      var values := ReadAll(d, w1, elements, ReadKindFor(attribute));
      match values.outcome
      case Err(m) => Step(values.world, Err(Prefixed(ExtractPrefix, m)))
      case Ok(vs) =>
        var kept := KeepTrimmed(vs);
        Step(values.world, Ok(Extracted(selector, attribute, kept, |kept|)))
  }

  /** Never more results than matched elements. */
  lemma ExtractBoundedByMatches<S>(d: Driver<S>, w: S, page: nat, selector: JsValue, attribute: JsValue)
    requires d.queryAll(w, page, selector).1.Ok?
    requires ExtractFrom(d, w, page, selector, attribute).outcome.Ok?
    ensures ExtractFrom(d, w, page, selector, attribute).outcome.value.count
         <= |d.queryAll(w, page, selector).1.value|
  {
  }

  // ---------------------------------------------------------------- dispatch

  const UnsupportedPrefix := "Ação não suportada: "

  /** One command: its action picks the browser operation and the fields it
      reads, with the defaults the runner applies. */
  function ExecuteCommand<S>(d: Driver<S>, w: S, page: nat, c: CommandObject): (r: Step<S, ActionResult>)
    ensures ActionOf(c.action).None? || ActionOf(c.action) == Some(Search) ==>
      r == Step(w, Err(Prefixed(UnsupportedPrefix, ToStr(c.action))))
    ensures c.action == Str("navigate") ==> r == NavigateTo(d, w, page, c.target)
    ensures c.action == Str("click") ==> r == ClickOn(d, w, page, c.target, Default(c.text, Null))
    ensures c.action == Str("type") ==> r == TypeInto(d, w, page, c.target, c.value)
    ensures c.action == Str("wait") ==> r == WaitFor(d, w, page, Or(c.duration, Num(2000)), Default(c.target, Null))
    ensures c.action == Str("scroll") ==>
      r == ScrollPage(d, w, page, Or(c.direction, Str("down")), Or(c.amount, Str("page")))
    ensures c.action == Str("screenshot") ==> r == TakeScreenshot(d, w, page, Default(c.target, Null))
    ensures c.action == Str("extract") ==>
      r == ExtractFrom(d, w, page, c.target, Default(c.attribute, Str("text")))
  {
    Perform(d, w, page, ActionOf(c.action), c)
  }

  /** The operation for action `a` (`None` for a name the runner does not
      know). */
  function Perform<S>(d: Driver<S>, w: S, page: nat, a: Option<Action>, c: CommandObject): (r: Step<S, ActionResult>)
    ensures a.None? || a == Some(Search) ==> r == Step(w, Err(Prefixed(UnsupportedPrefix, ToStr(c.action))))
    ensures a == Some(Navigate) ==> r == NavigateTo(d, w, page, c.target)
    ensures a == Some(Click) ==> r == ClickOn(d, w, page, c.target, Default(c.text, Null))
    ensures a == Some(Type) ==> r == TypeInto(d, w, page, c.target, c.value)
    ensures a == Some(Wait) ==> r == WaitFor(d, w, page, Or(c.duration, Num(2000)), Default(c.target, Null))
    ensures a == Some(Scroll) ==> r == ScrollPage(d, w, page, Or(c.direction, Str("down")), Or(c.amount, Str("page")))
    ensures a == Some(Screenshot) ==> r == TakeScreenshot(d, w, page, Default(c.target, Null))
    ensures a == Some(Extract) ==> r == ExtractFrom(d, w, page, c.target, Default(c.attribute, Str("text")))
  {
    match a
    case Some(Navigate) => NavigateTo(d, w, page, c.target)
    case Some(Click) => ClickOn(d, w, page, c.target, Default(c.text, Null))
    case Some(Type) => TypeInto(d, w, page, c.target, c.value)
    case Some(Wait) => WaitFor(d, w, page, Or(c.duration, Num(2000)), Default(c.target, Null))
    case Some(Scroll) => ScrollPage(d, w, page, Or(c.direction, Str("down")), Or(c.amount, Str("page")))
    case Some(Screenshot) => TakeScreenshot(d, w, page, Default(c.target, Null))
    case Some(Extract) => ExtractFrom(d, w, page, c.target, Default(c.attribute, Str("text")))
    case _ => Step(w, Err(Prefixed(UnsupportedPrefix, ToStr(c.action))))
  }

  /** An operation that succeeds reports the action it was picked for; one
      lemma per action keeps each proof to that action's operation. */
  lemma ReportsNavigate<S>(d: Driver<S>, w: S, page: nat, c: CommandObject)
    requires Perform(d, w, page, Some(Navigate), c).outcome.Ok?
    ensures Kind(Perform(d, w, page, Some(Navigate), c).outcome.value) == Navigate
  {
  }

  lemma ReportsClick<S>(d: Driver<S>, w: S, page: nat, c: CommandObject)
    requires Perform(d, w, page, Some(Click), c).outcome.Ok?
    ensures Kind(Perform(d, w, page, Some(Click), c).outcome.value) == Click
  {
  }

  lemma ReportsType<S>(d: Driver<S>, w: S, page: nat, c: CommandObject)
    requires Perform(d, w, page, Some(Type), c).outcome.Ok?
    ensures Kind(Perform(d, w, page, Some(Type), c).outcome.value) == Type
  {
  }

  lemma ReportsWait<S>(d: Driver<S>, w: S, page: nat, c: CommandObject)
    requires Perform(d, w, page, Some(Wait), c).outcome.Ok?
    ensures Kind(Perform(d, w, page, Some(Wait), c).outcome.value) == Wait
  {
  }

  lemma ReportsScroll<S>(d: Driver<S>, w: S, page: nat, c: CommandObject)
    requires Perform(d, w, page, Some(Scroll), c).outcome.Ok?
    ensures Kind(Perform(d, w, page, Some(Scroll), c).outcome.value) == Scroll
  {
  }

  lemma ReportsScreenshot<S>(d: Driver<S>, w: S, page: nat, c: CommandObject)
    requires Perform(d, w, page, Some(Screenshot), c).outcome.Ok?
    ensures Kind(Perform(d, w, page, Some(Screenshot), c).outcome.value) == Screenshot
  {
  }

  lemma ReportsExtract<S>(d: Driver<S>, w: S, page: nat, c: CommandObject)
    requires Perform(d, w, page, Some(Extract), c).outcome.Ok?
    ensures Kind(Perform(d, w, page, Some(Extract), c).outcome.value) == Extract
  {
    var r := ExtractFrom(d, w, page, c.target, Default(c.attribute, Str("text")));
    assert r.outcome.value.Extracted?;
  }

  /** A command that succeeds reports the action it was asked for. */
  lemma ExecutionReportsItsAction<S>(d: Driver<S>, w: S, page: nat, c: CommandObject)
    requires ExecuteCommand(d, w, page, c).outcome.Ok?
    ensures ActionOf(c.action) == Some(Kind(ExecuteCommand(d, w, page, c).outcome.value))
  {
    match ActionOf(c.action)
    case Some(Navigate) => ReportsNavigate(d, w, page, c);
    case Some(Click) => ReportsClick(d, w, page, c);
    case Some(Type) => ReportsType(d, w, page, c);
    case Some(Wait) => ReportsWait(d, w, page, c);
    case Some(Scroll) => ReportsScroll(d, w, page, c);
    case Some(Screenshot) => ReportsScreenshot(d, w, page, c);
    case Some(Extract) => ReportsExtract(d, w, page, c);
    case Some(Search) =>
    case None =>
  }

  /** The interpreter may emit `search`, but the runner has no operation for
      it: such a command fails without touching the browser. */
  lemma SearchIsNotExecutable<S>(d: Driver<S>, w: S, page: nat, c: CommandObject)
    requires c.action == Str("search")
    ensures ExecuteCommand(d, w, page, c) == Step(w, Err("Ação não suportada: search"))
  {
    assert ActionOf(c.action) == Some(Search);
    assert ToStr(c.action) == "search";
    assert Prefixed(UnsupportedPrefix, "search") == UnsupportedPrefix + "search";
    assert UnsupportedPrefix + "search" == "Ação não suportada: search";
  }

  /** A scroll without direction or amount scrolls one page down. */
  lemma BareScrollScrollsOnePageDown<S>(d: Driver<S>, w: S, page: nat)
    ensures ExecuteCommand(d, w, page, EmptyObject.(action := Str("scroll")))
         == ScrollPage(d, w, page, Str("down"), Str("page"))
  {
  }

  /** A wait without a target or duration waits two seconds and reports so. */
  lemma BareWaitWaitsTwoSeconds<S>(d: Driver<S>, w: S, page: nat)
    ensures ExecuteCommand(d, w, page, EmptyObject.(action := Str("wait")))
         == Step(w, Ok(Waited(Num(2000), Null)))
  {
    assert ActionOf(Str("wait")) == Some(Wait);
  }

  // ------------------------------------------------------------------- batch

  /** One entry of the report: which command, and what came of it. */
  datatype CommandResult = CommandResult(commandIndex: nat, command: CommandObject, outcome: Result<ActionResult>)

  /** How one command is run against the world: the batch loop only needs
      this, not which browser operation the command picks. */
  type Executor<!S> = (S, CommandObject) -> Step<S, ActionResult>

  /** The runner's own executor: `executeCommand` on the session's page. */
  function Executing<S>(d: Driver<S>, page: nat): Executor<S> {
    (w, c) => ExecuteCommand(d, w, page, c)
  }

  /** Runs `cmds` in order, numbering them from `offset`; with `stop` set,
      the first failure ends the run. */
  function RunAll<S>(exec: Executor<S>, w: S, cmds: seq<CommandObject>, offset: nat, stop: bool)
    : (r: (S, seq<CommandResult>))
    ensures |r.1| <= |cmds|
    ensures cmds != [] ==> r.1 != []
    decreases |cmds|
  {
    if |cmds| == 0 then (w, [])
    else
      var step := exec(w, cmds[0]);
      var entry := CommandResult(offset, cmds[0], step.outcome);
      if step.outcome.Err? && stop then (step.world, [entry])
      else
        var (w2, rest) := RunAll(exec, step.world, cmds[1..], offset + 1, stop);
        (w2, [entry] + rest)
  }

  /** Entry `j` reports command `j`, under its position in the batch. */
  lemma {:induction false} RunAllNumbersInOrder<S>(exec: Executor<S>, w: S, cmds: seq<CommandObject>,
                                                   offset: nat, stop: bool)
    ensures var rs := RunAll(exec, w, cmds, offset, stop).1;
      forall j :: 0 <= j < |rs| ==> rs[j].commandIndex == offset + j && rs[j].command == cmds[j]
    decreases |cmds|
  {
    if |cmds| > 0 {
      var step := exec(w, cmds[0]);
      var rs := RunAll(exec, w, cmds, offset, stop).1;
      if !(step.outcome.Err? && stop) {
        var rest := RunAll(exec, step.world, cmds[1..], offset + 1, stop).1;
        RunAllNumbersInOrder(exec, step.world, cmds[1..], offset + 1, stop);
        forall j | 1 <= j < |rs|
          ensures rs[j].commandIndex == offset + j && rs[j].command == cmds[j]
        {
          assert rs[j] == rest[j - 1];
          assert cmds[1..][j - 1] == cmds[j];
        }
      }
    }
  }

  /** Without `stop`, every command runs. */
  lemma {:induction false} RunAllRunsEverything<S>(exec: Executor<S>, w: S, cmds: seq<CommandObject>, offset: nat)
    ensures |RunAll(exec, w, cmds, offset, false).1| == |cmds|
    decreases |cmds|
  {
    if |cmds| > 0 {
      var step := exec(w, cmds[0]);
      RunAllRunsEverything(exec, step.world, cmds[1..], offset + 1);
    }
  }

  /** With `stop`, only the last entry can be a failure, and a run that ends
      early ends on one. */
  lemma {:induction false} RunAllStopsAtFirstFailure<S>(exec: Executor<S>, w: S, cmds: seq<CommandObject>, offset: nat)
    ensures var rs := RunAll(exec, w, cmds, offset, true).1;
      (forall j :: 0 <= j < |rs| - 1 ==> rs[j].outcome.Ok?)
      && (|rs| < |cmds| ==> rs[|rs| - 1].outcome.Err?)
    decreases |cmds|
  {
    if |cmds| > 0 {
      var step := exec(w, cmds[0]);
      if step.outcome.Ok? {
        RunAllStopsAtFirstFailure(exec, step.world, cmds[1..], offset + 1);
      }
    }
  }

  /** The first entry is the first command's own outcome, in the world the
      run started from. */
  lemma RunAllFirstEntry<S>(exec: Executor<S>, w: S, cmds: seq<CommandObject>, offset: nat, stop: bool)
    requires cmds != []
    ensures RunAll(exec, w, cmds, offset, stop).1[0] == CommandResult(offset, cmds[0], exec(w, cmds[0]).outcome)
  {
  }

  /** One step of a run: the first command, then the rest from the world it
      left behind, unless it failed under `stop`. */
  lemma RunAllStep<S>(exec: Executor<S>, w: S, cmds: seq<CommandObject>, offset: nat, stop: bool)
    requires cmds != []
    ensures var step := exec(w, cmds[0]);
      var entry := CommandResult(offset, cmds[0], step.outcome);
      var next := RunAll(exec, step.world, cmds[1..], offset + 1, stop);
      RunAll(exec, w, cmds, offset, stop)
        == if step.outcome.Err? && stop then (step.world, [entry]) else (next.0, [entry] + next.1)
  {
  }

  /** The same run as an explicit loop, the way the runner writes it. */
  method RunCommands<S>(exec: Executor<S>, w: S, cmds: seq<CommandObject>, stop: bool)
    returns (world: S, results: seq<CommandResult>)
    ensures (world, results) == RunAll(exec, w, cmds, 0, stop)
    ensures forall j :: 0 <= j < |results| ==> results[j].commandIndex == j
  {
    world := w;
    results := [];
    var i := 0;
    assert cmds[0..] == cmds;
    assert results + RunAll(exec, w, cmds, 0, stop).1 == RunAll(exec, w, cmds, 0, stop).1;
    while i < |cmds|
      invariant 0 <= i <= |cmds| && |results| == i
      invariant forall j :: 0 <= j < i ==> results[j].commandIndex == j
      invariant RunAll(exec, w, cmds, 0, stop)
             == (RunAll(exec, world, cmds[i..], i, stop).0, results + RunAll(exec, world, cmds[i..], i, stop).1)
      decreases |cmds| - i
    {
      var step := exec(world, cmds[i]);
      var entry := CommandResult(i, cmds[i], step.outcome);
      RunAllStep(exec, world, cmds[i..], i, stop);
      assert cmds[i..][0] == cmds[i];
      assert cmds[i..][1..] == cmds[i + 1..];
      if step.outcome.Err? && stop {
        results := results + [entry];
        world := step.world;
        return;
      }
      var next := RunAll(exec, step.world, cmds[i + 1..], i + 1, stop);
      assert results + ([entry] + next.1) == (results + [entry]) + next.1;
      results := results + [entry];
      world := step.world;
      i := i + 1;
    }
    assert results + [] == results;
  }

  /** How many entries succeeded: `results.filter(r => r.success).length`. */
  function CountSuccesses(rs: seq<CommandResult>): (n: nat)
    ensures n <= |rs|
    ensures n == |rs| <==> forall j :: 0 <= j < |rs| ==> rs[j].outcome.Ok?
    ensures n == 0 <==> forall j :: 0 <= j < |rs| ==> rs[j].outcome.Err?
    decreases |rs|
  {
    if |rs| == 0 then 0
    else (if rs[0].outcome.Ok? then 1 else 0) + CountSuccesses(rs[1..])
  }

  /** One entry counts once exactly when it succeeded. */
  lemma CountSuccessesOne(e: CommandResult)
    ensures CountSuccesses([e]) == if e.outcome.Ok? then 1 else 0
  {
    assert [e][1..] == [];
  }

  /** Counting is additive over concatenation, so together with the
      one-entry case the count is the number of successful entries. */
  lemma {:induction false} CountSuccessesConcat(a: seq<CommandResult>, b: seq<CommandResult>)
    ensures CountSuccesses(a + b) == CountSuccesses(a) + CountSuccesses(b)
    decreases |a|
  {
    if |a| == 0 {
      assert a + b == b;
    } else {
      assert (a + b)[0] == a[0];
      assert (a + b)[1..] == a[1..] + b;
      CountSuccessesConcat(a[1..], b);
    }
  }

  // ----------------------------------------------------------------- session

  /** Closes the browser if there is one. A failure to close is swallowed and
      leaves the session as it was. */
  function Close<S>(d: Driver<S>, s: Session, w: S): (r: (Session, S))
    ensures s.browser.None? ==> r == (s, w)
    ensures s.browser.Some? ==>
      r.0 == (if d.closeBrowser(w, s.browser.value).1.Ok? then Closed else s)
  {
    match s.browser
    case None => (s, w)
    case Some(b) =>
      var (w1, closed) := d.closeBrowser(w, b);
      if closed.Ok? then (Closed, w1) else (s, w1)
  }

  /** The session, the world and an outcome. */
  datatype Run<S, T> = Run(session: Session, world: S, outcome: Result<T>)

  /** The options a batch is run with. A key the caller did not send is
      `Undefined`. */
  datatype RunOptions = RunOptions(stopOnError: JsValue, headless: JsValue)

  const InitPrefix := "Falha na inicialização: "
  const ReadyMessage := "Browser pronto para automação"
  const UserAgent := "Mozilla/5.0 (Windows NT 10.0; Win64; x64) AppleWebKit/537.36 (KHTML, like Gecko) Chrome/120.0.0.0 Safari/537.36"

  /** Headless unless the `PUPPETEER_HEADLESS` variable is the text `false`;
      a `headless` option the caller sent wins. */
  function Headless(options: RunOptions, env: Option<string>): (h: JsValue)
    ensures options.headless != Undefined ==> h == options.headless
    ensures options.headless == Undefined ==> h == Bool(env != Some("false"))
  {
    if options.headless != Undefined then options.headless else Bool(env != Some("false"))
  }

  /** Closes any open browser, launches a new one, opens a page, sets the user
      agent and loads a blank page. The session counts as running only once
      all of that succeeded. */
  function Initialize<S>(d: Driver<S>, s: Session, w: S, options: RunOptions, env: Option<string>): (r: Run<S, string>)
    ensures r.outcome.Ok? ==>
      r.outcome.value == ReadyMessage && r.session.isRunning && r.session.browser.Some? && r.session.page.Some?
    ensures r.outcome.Err? ==>
      StartsWith(r.outcome.error, InitPrefix) && r.session.isRunning == Close(d, s, w).0.isRunning
  {
    var (s1, w1) := Close(d, s, w);
    var (w2, launched) := d.launch(w1, Headless(options, env));
    match launched
    case Err(m) => Run(s1, w2, Err(Prefixed(InitPrefix, m)))
    case Ok(b) =>
      var s2 := s1.(browser := Some(b));
      var (w3, newPage) := d.newPage(w2, b);
      match newPage
      case Err(m) => Run(s2, w3, Err(Prefixed(InitPrefix, m)))
      case Ok(p) =>
        var s3 := s2.(page := Some(p));
        var (w4, agent) := d.setUserAgent(w3, p, UserAgent);
        if agent.Err? then Run(s3, w4, Err(Prefixed(InitPrefix, agent.error)))
        else
          var (w5, blank) := d.goto(w4, p, "about:blank");
          if blank.Err? then Run(s3, w5, Err(Prefixed(InitPrefix, blank.error)))
          else Run(s3.(isRunning := true), w5, Ok(ReadyMessage))
  }

  /** Initialising an open session is closing it and initialising afresh,
      provided the old browser closes. */
  lemma ReinitializeIsCloseThenInitialize<S>(d: Driver<S>, s: Session, w: S, options: RunOptions, env: Option<string>)
    requires s.browser.Some? && d.closeBrowser(w, s.browser.value).1.Ok?
    ensures Initialize(d, s, w, options, env) == Initialize(d, Closed, Close(d, s, w).1, options, env)
  {
  }

  /** A failed initialisation of a closed session leaves it not running. */
  lemma FailedStartIsNotRunning<S>(d: Driver<S>, w: S, options: RunOptions, env: Option<string>)
    requires Initialize(d, Closed, w, options, env).outcome.Err?
    ensures !Initialize(d, Closed, w, options, env).session.isRunning
  {
  }

  /** The page information attached to a report. */
  datatype BrowserInfo = NoPage | Info(userAgent: string, currentUrl: string, pageTitle: string) | InfoError(error: string)

  function GetBrowserInfo<S>(d: Driver<S>, w: S, page: Option<nat>): (i: BrowserInfo)
    ensures page.None? <==> i == NoPage
  {
    match page
    case None => NoPage
    case Some(p) =>
      match d.pageFacts(w, p)
      case Ok(f) => Info(f.userAgent, f.url, f.title)
      case Err(m) => InfoError(m)
  }

  datatype ExecutionReport = ExecutionReport(
    executedCommands: nat,
    successfulCommands: nat,
    failedCommands: nat,
    results: seq<CommandResult>,
    browserInfo: BrowserInfo)

  const ExecutionPrefix := "Falha na execução: "
  const EmptyBatchMessage := "Lista de comandos vazia ou inválida"

  /** Whether the session must be (re)initialised before a batch. */
  predicate NeedsStart(s: Session) {
    !s.isRunning || s.browser.None? || s.page.None?
  }

  /** The session a batch runs in: the current one when it is fully up, a
      freshly initialised one otherwise. */
  function Start<S>(d: Driver<S>, s: Session, w: S, options: RunOptions, env: Option<string>): (r: Run<S, string>)
    ensures !NeedsStart(s) ==> r == Run(s, w, Ok(ReadyMessage))
    ensures r.outcome.Ok? ==> !NeedsStart(r.session)
  {
    if NeedsStart(s) then Initialize(d, s, w, options, env) else Run(s, w, Ok(ReadyMessage))
  }

  /** Runs a batch: starts the browser when the session is not fully up, then
      refuses a missing or empty list (`None` is a value that is not an
      array), then runs the commands and reports. */
  function ExecuteCommands<S>(d: Driver<S>, s: Session, w: S, commands: Option<seq<CommandObject>>,
                              options: RunOptions, env: Option<string>): (r: Run<S, ExecutionReport>)
    ensures r.outcome.Err? ==> StartsWith(r.outcome.error, ExecutionPrefix)
    ensures commands.None? || commands == Some([]) ==> r.outcome.Err?
    ensures commands.Some? && commands.value != [] && r.outcome.Err? ==>
      NeedsStart(s) && StartsWith(r.outcome.error[|ExecutionPrefix|..], InitPrefix)
    ensures r.outcome.Ok? ==>
      && commands.Some? && r.session.isRunning && r.session.page.Some?
      && var rep := r.outcome.value;
         1 <= rep.executedCommands == |rep.results| <= |commands.value|
         && rep.successfulCommands + rep.failedCommands == rep.executedCommands
         && rep.successfulCommands == CountSuccesses(rep.results)
         && rep.browserInfo != NoPage
    ensures r.outcome.Ok? ==>
      var started := Start(d, s, w, options, env);
      && started.outcome.Ok? && r.session == started.session
      && var run := RunAll(Executing(d, started.session.page.value), started.world, commands.value, 0,
                           Truthy(options.stopOnError));
         r.world == run.0 && r.outcome.value.results == run.1
  {
    var started := Start(d, s, w, options, env);
    if started.outcome.Err? then Run(started.session, started.world, Err(Prefixed(ExecutionPrefix, started.outcome.error)))
    else if commands.None? || |commands.value| == 0 then
      Run(started.session, started.world, Err(Prefixed(ExecutionPrefix, EmptyBatchMessage)))
    else
      var page := started.session.page.value;
      var (w1, results) := RunAll(Executing(d, page), started.world, commands.value, 0, Truthy(options.stopOnError));
      var ok := CountSuccesses(results);
      Run(started.session, w1,
          Ok(ExecutionReport(|results|, ok, |results| - ok, results, GetBrowserInfo(d, w1, Some(page)))))
  }

  /** The browser is started before the list is looked at: an empty batch on
      a stopped session still leaves a running browser behind. */
  lemma EmptyBatchStillStartsBrowser<S>(d: Driver<S>, w: S, options: RunOptions, env: Option<string>)
    requires Initialize(d, Closed, w, options, env).outcome.Ok?
    ensures ExecuteCommands(d, Closed, w, Some([]), options, env)
         == Run(Initialize(d, Closed, w, options, env).session, Initialize(d, Closed, w, options, env).world,
                Err(Prefixed(ExecutionPrefix, EmptyBatchMessage)))
    ensures ExecuteCommands(d, Closed, w, Some([]), options, env).session.isRunning
  {
  }

  /** On a running session, the batch's entries are the commands in order,
      each numbered by its position; without `stopOnError` all of them run,
      and with it only the last entry can be a failure. */
  lemma BatchReportsEveryCommandInOrder<S>(d: Driver<S>, s: Session, w: S, cmds: seq<CommandObject>,
                                           options: RunOptions, env: Option<string>)
    requires ExecuteCommands(d, s, w, Some(cmds), options, env).outcome.Ok?
    ensures var rep := ExecuteCommands(d, s, w, Some(cmds), options, env).outcome.value;
      (forall j :: 0 <= j < |rep.results| ==> rep.results[j].commandIndex == j && rep.results[j].command == cmds[j])
      && (!Truthy(options.stopOnError) ==> rep.executedCommands == |cmds|)
      && (Truthy(options.stopOnError) ==>
            (forall j :: 0 <= j < |rep.results| - 1 ==> rep.results[j].outcome.Ok?)
            && (rep.executedCommands < |cmds| ==> rep.failedCommands > 0))
  {
    var started := Start(d, s, w, options, env);
    var page := started.session.page.value;
    var stop := Truthy(options.stopOnError);
    var exec := Executing(d, page);
    RunAllNumbersInOrder(exec, started.world, cmds, 0, stop);
    if stop {
      RunAllStopsAtFirstFailure(exec, started.world, cmds, 0);
    } else {
      RunAllRunsEverything(exec, started.world, cmds, 0);
    }
  }
}

=== FILE: commands.dfy ===
/** The shape of a command as the services pass it around: a plain object with
    a closed vocabulary of actions. The interpreter produces such objects and
    the automation runner consumes them, but the runner also receives objects
    straight from a request body, so every field is a raw JSON value. */
module Commands {
  import opened Wrappers
  import opened JsValues

  /** The eight actions the interpreter accepts. */
  datatype Action = Navigate | Click | Type | Search | Wait | Scroll | Screenshot | Extract

  /** The name an action goes by in a command's `action` field. */
  function Name(a: Action): string {
    match a
    case Navigate => "navigate"
    case Click => "click"
    case Type => "type"
    case Search => "search"
    case Wait => "wait"
    case Scroll => "scroll"
    case Screenshot => "screenshot"
    case Extract => "extract"
  }

  /** The interpreter's `supportedCommands`, in its order. */
  const SupportedActions: seq<string> :=
    ["navigate", "click", "type", "search", "wait", "scroll", "screenshot", "extract"]

  /** The action a raw `action` field names, when it is one of the supported
      names (compared with `===`, so only a string can match). */
  function ActionOf(v: JsValue): (r: Option<Action>)
    ensures r.Some? <==> v.Str? && v.s in SupportedActions
    ensures r.Some? ==> v == Str(Name(r.value))
  {
    if !v.Str? then None
    else if v.s == "navigate" then Some(Navigate)
    else if v.s == "click" then Some(Click)
    else if v.s == "type" then Some(Type)
    else if v.s == "search" then Some(Search)
    else if v.s == "wait" then Some(Wait)
    else if v.s == "scroll" then Some(Scroll)
    else if v.s == "screenshot" then Some(Screenshot)
    else if v.s == "extract" then Some(Extract)
    else None
  }

  /** Names and actions are in one-to-one correspondence: every action is
      recognised under its own name, and the vocabulary lists each name once. */
  lemma NamesRoundTrip(a: Action)
    ensures ActionOf(Str(Name(a))) == Some(a)
    ensures Name(a) in SupportedActions
  {
  }

  /** A command object. A field the object does not have is `Undefined`. */
  datatype CommandObject = CommandObject(
    id: JsValue,
    action: JsValue,
    description: JsValue,
    priority: JsValue,
    target: JsValue,
    value: JsValue,
    text: JsValue,
    query: JsValue,
    duration: JsValue,
    direction: JsValue,
    amount: JsValue,
    attribute: JsValue)

  /** `{}`. */
  const EmptyObject: CommandObject :=
    CommandObject(Undefined, Undefined, Undefined, Undefined, Undefined, Undefined,
                  Undefined, Undefined, Undefined, Undefined, Undefined, Undefined)

  /** The keys a command object can carry. */
  datatype Field =
    | IdKey | ActionKey | DescriptionKey | PriorityKey | TargetKey | ValueKey
    | TextKey | QueryKey | DurationKey | DirectionKey | AmountKey | AttributeKey

  const AllFields: set<Field> :=
    {IdKey, ActionKey, DescriptionKey, PriorityKey, TargetKey, ValueKey,
     TextKey, QueryKey, DurationKey, DirectionKey, AmountKey, AttributeKey}

  /** `c[f]`. */
  function Get(c: CommandObject, f: Field): JsValue {
    match f
    case IdKey => c.id
    case ActionKey => c.action
    case DescriptionKey => c.description
    case PriorityKey => c.priority
    case TargetKey => c.target
    case ValueKey => c.value
    case TextKey => c.text
    case QueryKey => c.query
    case DurationKey => c.duration
    case DirectionKey => c.direction
    case AmountKey => c.amount
    case AttributeKey => c.attribute
  }

  /** The keys an object actually carries. */
  function Keys(c: CommandObject): (ks: set<Field>)
    ensures forall f: Field :: f in ks <==> Get(c, f) != Undefined
  {
    set f | f in AllFields && Get(c, f) != Undefined
  }
}

=== FILE: confidence_calculator.dfy ===
/** The heuristic confidence of a transcription (`calculateConfidence`): a
    baseline of 0.5 plus five additive terms computed on the trimmed text, the
    sum clamped to [0, 1]. Regular-expression classes are character predicates
    here; arithmetic is exact (`real`). */
module ConfidenceCalculator {
  import opened Wrappers
  import opened JsText
  import opened JsValues
  import opened Sequences

  // ---------------------------------------------------------------------------
  // Character classes
  // ---------------------------------------------------------------------------

  /** `\p{P}` on Basic Latin, Latin-1 and the General Punctuation block. */
  predicate IsPunct(c: char) {
    || c == '!' || c == '"' || c == '#' || c == '%' || c == '&' || c == '\''
    || c == '(' || c == ')' || c == '*' || c == ',' || c == '-' || c == '.' || c == '/'
    || c == ':' || c == ';' || c == '?' || c == '@' || c == '[' || c == '\\' || c == ']'
    || c == '_' || c == '{' || c == '}'
    || c == '\U{00A1}' || c == '\U{00A7}' || c == '\U{00AB}' || c == '\U{00B6}'
    || c == '\U{00B7}' || c == '\U{00BB}' || c == '\U{00BF}'
    || ('\U{2010}' <= c <= '\U{2027}') || ('\U{2030}' <= c <= '\U{2043}')
    || ('\U{2045}' <= c <= '\U{2051}') || ('\U{2053}' <= c <= '\U{205E}')
  }

  /** `\p{M}` on the Combining Diacritical Marks block. */
  predicate IsMark(c: char) {
    '\U{0300}' <= c <= '\U{036F}'
  }

  /** `[^\w\s\p{P}\p{M}]`. */
  predicate IsStrange(c: char) {
    !(IsWordChar(c) || IsSpace(c) || IsPunct(c) || IsMark(c))
  }

  /** `[a-zA-ZÀ-ÿ]`: the range U+00C0..U+00FF includes `×` and `÷`. */
  predicate IsLetterClass(c: char) {
    ('a' <= c <= 'z') || ('A' <= c <= 'Z') || ('\U{00C0}' <= c <= '\U{00FF}')
  }

  /** `[.!?]`. */
  predicate IsSentenceEnd(c: char) {
    c == '.' || c == '!' || c == '?'
  }

  /** `\b` at position `p`: exactly one of the characters around it is `\w`. */
  predicate WordBoundary(s: string, p: int) {
    var before := 0 < p <= |s| && IsWordChar(s[p - 1]);
    var after := 0 <= p < |s| && IsWordChar(s[p]);
    before != after
  }

  // ---------------------------------------------------------------------------
  // The score
  // ---------------------------------------------------------------------------

  /** `Math.max(0, Math.min(1, x))`. */
  function Clamp(x: real): (r: real)
    ensures 0.0 <= r <= 1.0
    ensures 0.0 <= x <= 1.0 ==> r == x
    ensures x < 0.0 ==> r == 0.0
    ensures x > 1.0 ==> r == 1.0
  {
    if x > 1.0 then 1.0 else if x < 0.0 then 0.0 else x
  }

  /** Blank: nothing but white space, so that `trim()` leaves nothing. */
  predicate IsBlank(s: string) {
    forall k :: 0 <= k < |s| ==> IsSpace(s[k])
  }

  /** `calculateConfidence`: 0 for anything that is not a string with some
      non-white-space content, the clamped score of the trimmed text
      otherwise. */
  function CalculateConfidence(text: JsValue): (r: real)
    ensures 0.0 <= r <= 1.0
    ensures !text.Str? || IsBlank(text.s) ==> r == 0.0
  {
    if !Truthy(text) || !text.Str? || |Trim(text.s)| == 0 then 0.0
    else Score(Trim(text.s))
  }

  /** The clamped score of an already trimmed, non-blank text. */
  function Score(t: string): (r: real)
    ensures 0.0 <= r <= 1.0
  {
    Clamp(0.5 + Terms(t))
  }

  /** The five terms added to the baseline. */
  function Terms(t: string): real {
    LengthTerm(|t|) + PunctuationTerm(t) + WordQuality(t) + CharacterDistribution(t) + LanguageConsistency(t)
  }

  /** Surrounding white space does not change the confidence. */
  lemma ConfidenceIgnoresSurroundingSpace(s: string)
    ensures CalculateConfidence(Str(s)) == CalculateConfidence(Str(Trim(s)))
  {
    var t := Trim(s);
    TrimIdempotent(s);
    assert Trim(t) == t;
    if t == [] {
      assert CalculateConfidence(Str(s)) == 0.0;
      assert CalculateConfidence(Str(t)) == 0.0;
    } else {
      ConfidenceOfText(s);
      ConfidenceOfText(t);
    }
  }

  lemma ConfidenceOfText(s: string)
    requires Trim(s) != []
    ensures CalculateConfidence(Str(s)) == Score(Trim(s))
  {
    assert Truthy(Str(s));
  }

  /** Without the clamp, the score lies in [-1.6, 1.55]: the clamp is
      reachable at both ends, so it is not a formality. */
  lemma UnclampedScoreRange(t: string)
    ensures -1.6 <= 0.5 + Terms(t) <= 1.55
  {
    SumOfTermsRange(LengthTerm(|t|), PunctuationTerm(t), WordQuality(t), CharacterDistribution(t), LanguageConsistency(t));
  }

  lemma SumOfTermsRange(a: real, b: real, c: real, d: real, e: real)
    requires -0.3 <= a <= 0.1 && 0.0 <= b <= 0.3 && -0.8 <= c <= 0.25 && -1.0 <= d <= 0.1 && 0.0 <= e <= 0.3
    ensures -1.6 <= 0.5 + a + b + c + d + e <= 1.55
  {
  }

  // ---------------------------------------------------------------------------
  // Length
  // ---------------------------------------------------------------------------

  /** `evaluateLength`, branches in the source's order. */
  function LengthTerm(length: nat): (r: real)
    ensures r == -0.3 || r == -0.1 || r == 0.0 || r == 0.1
  {
    if length < 10 then -0.3
    else if length < 30 then -0.1
    else if length > 50 then 0.1
    else if length > 200 then 0.2
    else 0.0
  }

  /** The `> 200` branch is dead: every length above 200 is above 50 and takes
      the earlier branch, so no text ever earns 0.2. Lengths from 30 to 50
      earn nothing and every longer text earns 0.1. */
  lemma LongTextBranchUnreachable(length: nat)
    ensures LengthTerm(length) != 0.2
    ensures length > 200 ==> LengthTerm(length) == 0.1
    ensures LengthTerm(length) == 0.0 <==> 30 <= length <= 50
  {
  }

  // ---------------------------------------------------------------------------
  // Punctuation
  // ---------------------------------------------------------------------------

  /** `evaluatePunctuation`. The comma ratio divides by the pieces of
      `split(' ')`, which is one more than the number of U+0020 spaces. */
  function PunctuationTerm(t: string): (r: real)
    ensures 0.0 <= r <= 0.3
  {
    var endsWell := |t| > 0 && IsSentenceEnd(t[|t| - 1]);
    var commaRatio := CountChar(t, ',') as real / (CountChar(t, ' ') + 1) as real;
    var hasColon := exists k | 0 <= k < |t| :: t[k] == ':' || t[k] == ';';
    (if endsWell then 0.15 else 0.0)
    + (if 0.0 < commaRatio < 0.3 then 0.1 else 0.0)
    + (if hasColon then 0.05 else 0.0)
  }

  // ---------------------------------------------------------------------------
  // Word quality
  // ---------------------------------------------------------------------------

  function SumLengths(words: seq<string>): (n: nat)
    ensures |words| > 0 && (forall k :: 0 <= k < |words| ==> words[k] != []) ==> n >= |words|
  {
    if |words| == 0 then 0 else SumLengths(words[..|words| - 1]) + |words[|words| - 1]|
  }

  /** `w.toLowerCase().replace(/[^\w]/g, '')`. */
  function CleanWord(w: string): (r: string)
    ensures forall i :: 0 <= i < |r| ==> IsWordChar(r[i])
  {
    KeepWhere(Lower(w), IsWordChar)
  }

  function Cleans(words: seq<string>): (r: seq<string>)
    ensures |r| == |words|
    ensures forall i :: 0 <= i < |words| ==> r[i] == CleanWord(words[i])
  {
    seq(|words|, i requires 0 <= i < |words| => CleanWord(words[i]))
  }

  /** The largest number of times any element of `keys` occurs in `pool`
      (`Math.max(...Object.values(counts))` with the counts kept in a
      multiset). */
  function MaxOccurrences(keys: seq<string>, pool: multiset<string>): (m: nat)
    ensures forall i :: 0 <= i < |keys| ==> pool[keys[i]] <= m
    ensures |keys| > 0 ==> exists i :: 0 <= i < |keys| && pool[keys[i]] == m
    ensures |keys| == 0 ==> m == 0
  {
    if |keys| == 0 then 0
    else
      var init := MaxOccurrences(keys[..|keys| - 1], pool);
      var last := pool[keys[|keys| - 1]];
      assert forall i :: 0 <= i < |keys| - 1 ==> keys[..|keys| - 1][i] == keys[i];
      if last > init then last else init
  }

  /** The repetition rule: some cleaned word accounts for more than half of
      all words. */
  function RepetitionPenalty(words: seq<string>): (r: bool)
    ensures |words| == 0 ==> !r
    ensures r ==> exists i :: 0 <= i < |words| && 2 * multiset(Cleans(words))[CleanWord(words[i])] > |words|
  {
    var cs := Cleans(words);
    MaxOccurrences(cs, multiset(cs)) as real > |words| as real * 0.5
  }

  /** The penalty applies exactly when one cleaned word occurs in more than
      half of the positions. */
  lemma RepetitionPenaltyMeansMajority(words: seq<string>)
    ensures RepetitionPenalty(words) <==>
              exists i :: 0 <= i < |words| && 2 * multiset(Cleans(words))[CleanWord(words[i])] > |words|
  {
    var cs := Cleans(words);
    var m := MaxOccurrences(cs, multiset(cs));
    if RepetitionPenalty(words) {
      var i :| 0 <= i < |cs| && multiset(cs)[cs[i]] == m;
      assert 2 * multiset(cs)[CleanWord(words[i])] > |words|;
    }
  }

  /** A single word is always "repeated": it is one word out of one. */
  lemma SingleWordIsRepetitive(w: string)
    ensures RepetitionPenalty([w])
  {
    RepetitionPenaltyMeansMajority([w]);
    assert Cleans([w]) == [CleanWord(w)];
    assert multiset([CleanWord(w)])[CleanWord(w)] == 1;
  }

  /** The repetition rule as the source writes it, counting in a plain object
      (`wordCounts = {}`). Two cleaned words name members that every object
      inherits: for `constructor` the count becomes the text of
      `Object + 1`, so `Math.max` yields `NaN` and the rule never fires; for
      `__proto__` the assignment of a non-object is ignored, so that word is
      never counted. */
  function RepetitionPenaltyAsWritten(words: seq<string>): (r: bool)
    ensures r ==> RepetitionPenalty(words)
  {
    var cs := Cleans(words);
    if "constructor" in cs then false
    else
      var counted := WithoutProto(cs);
      MaxOccurrencesOfPart(counted, cs);
      |counted| > 0 && MaxOccurrences(counted, multiset(counted)) as real > |words| as real * 0.5
  }

  /** The cleaned words other than `__proto__`, in order. */
  function WithoutProto(cs: seq<string>): (r: seq<string>)
    ensures "__proto__" !in cs ==> r == cs
    ensures multiset(r) <= multiset(cs)
  {
    if |cs| == 0 then []
    else
      var init := WithoutProto(cs[..|cs| - 1]);
      assert "__proto__" !in cs ==> "__proto__" !in cs[..|cs| - 1];
      assert cs[..|cs| - 1] + [cs[|cs| - 1]] == cs;
      if cs[|cs| - 1] == "__proto__" then init
      else init + [cs[|cs| - 1]]
  }

  /** Counting a part of the words never finds a larger repetition. */
  lemma MaxOccurrencesOfPart(part: seq<string>, whole: seq<string>)
    requires multiset(part) <= multiset(whole)
    ensures MaxOccurrences(part, multiset(part)) <= MaxOccurrences(whole, multiset(whole))
  {
    if |part| > 0 {
      var i :| 0 <= i < |part| && multiset(part)[part[i]] == MaxOccurrences(part, multiset(part));
      assert part[i] in multiset(whole);
      var j :| 0 <= j < |whole| && whole[j] == part[i];
    }
  }

  /** Away from those two words the source's count is the intended one. */
  lemma RepetitionAsWrittenAgreesElsewhere(words: seq<string>)
    requires "constructor" !in Cleans(words) && "__proto__" !in Cleans(words)
    ensures RepetitionPenaltyAsWritten(words) == RepetitionPenalty(words)
  {
  }

  /** A word made only of lower-case ASCII letters and underscores is its own
      cleaned form. */
  lemma CleanPlainWord(w: string)
    requires forall i :: 0 <= i < |w| ==> ('a' <= w[i] <= 'z' || w[i] == '_')
    ensures CleanWord(w) == w
  {
    assert Lower(w) == w;
    KeepWhereAll(w, IsWordChar);
  }

  /** The text "constructor" (or "__proto__") is a single word, one out of
      one, yet the source gives it no repetition penalty. */
  lemma PrototypeWordsEscapePenalty()
    ensures RepetitionPenalty(["constructor"]) && !RepetitionPenaltyAsWritten(["constructor"])
    ensures RepetitionPenalty(["__proto__"]) && !RepetitionPenaltyAsWritten(["__proto__"])
  {
    CleanPlainWord("constructor");
    CleanPlainWord("__proto__");
    assert Cleans(["constructor"]) == ["constructor"];
    assert Cleans(["__proto__"]) == ["__proto__"];
    SingleWordIsRepetitive("constructor");
    SingleWordIsRepetitive("__proto__");
    assert WithoutProto(["__proto__"]) == [] by {
      assert ["__proto__"][..0] == [];
    }
  }

  /** The lower-cased words, as a set. */
  function DistinctLowered(words: seq<string>): set<string> {
    set i | 0 <= i < |words| :: Lower(words[i])
  }

  /** `evaluateWordQuality` once the word list is known to be non-empty. */
  function WordScore(words: seq<string>): (r: real)
    requires |words| > 0
    ensures -0.8 <= r <= 0.25
  {
    var n := |words| as real;
    var avg := SumLengths(words) as real / n;
    var diversity := |DistinctLowered(words)| as real / n;
    (if avg < 2.0 then -0.3 else 0.0)
    + (if 3.0 <= avg <= 8.0 then 0.1 else 0.0)
    + (if diversity > 0.7 then 0.15 else 0.0)
    + (if diversity < 0.3 then -0.2 else 0.0)
    + (if RepetitionPenalty(words) then -0.3 else 0.0)
  }

  /** `evaluateWordQuality`. */
  function WordQuality(t: string): (r: real)
    ensures -0.8 <= r <= 0.25
  {
    var words := Words(t);
    if |words| == 0 then -0.5 else WordScore(words)
  }

  /** The empty-word-list branch (`-0.5`) never fires from
      `calculateConfidence`: the text it passes is trimmed and non-blank, so
      it has at least one word. */
  lemma EmptyWordsBranchUnreachable(s: string)
    requires !IsBlank(s)
    ensures |Words(Trim(s))| >= 1
    ensures WordQuality(Trim(s)) == WordScore(Words(Trim(s)))
  {
    var t := Trim(s);
    TrimmedWords(t);
  }

  /** A one-word text always takes the repetition penalty. */
  lemma OneWordTextPenalised(t: string)
    requires |Words(t)| == 1
    ensures WordQuality(t) == WordScore(Words(t))
    ensures RepetitionPenalty(Words(t))
  {
    assert Words(t) == [Words(t)[0]];
    SingleWordIsRepetitive(Words(t)[0]);
  }

  // ---------------------------------------------------------------------------
  // Character distribution
  // ---------------------------------------------------------------------------

  /** `/(.)\1{3,}/`: one character other than a line terminator, four or more
      times in a row. */
  predicate HasRunOfFour(t: string) {
    exists i | 0 <= i && i + 3 < |t| ::
      !IsLineTerminator(t[i]) && t[i + 1] == t[i] && t[i + 2] == t[i] && t[i + 3] == t[i]
  }

  /** `evaluateCharacterDistribution`. On empty text the strange-character
      ratio is `0 / 0`, which compares false both ways. */
  function CharacterDistribution(t: string): (r: real)
    ensures -1.0 <= r <= 0.1
  {
    var strange :=
      if |t| == 0 then 0.0
      else
        var ratio := CountWhere(t, IsStrange) as real / |t| as real;
        (if ratio > 0.1 then -0.3 else 0.0) + (if ratio > 0.2 then -0.5 else 0.0);
    var digits := CountWhere(t, IsDigit);
    var letters := CountWhere(t, IsLetterClass);
    var numeric :=
      if letters > 0 && (digits as real / (digits + letters) as real) < 0.3 then 0.1 else 0.0;
    strange + (if HasRunOfFour(t) then -0.2 else 0.0) + numeric
  }

  // ---------------------------------------------------------------------------
  // Language consistency
  // ---------------------------------------------------------------------------

  const CommonWords: seq<string> :=
    ["o", "a", "e", "de", "da", "do", "em", "um", "uma", "para", "com", "não", "que", "se", "eu", "você"]

  const Connectors: seq<string> := ["que", "para", "com", "não", "muito", "bem", "então"]

  const Suffixes: seq<string> := ["ção", "são", "mente", "ando", "endo", "ido", "ada"]

  function CountCommon(words: seq<string>): (n: nat)
    ensures n <= |words|
  {
    if |words| == 0 then 0
    else CountCommon(words[..|words| - 1]) + (if words[|words| - 1] in CommonWords then 1 else 0)
  }

  /** `/\b(que|para|…)\b/i`: a connector standing as a whole word. */
  predicate HasConnector(s: string) {
    exists i | 0 <= i <= |s| ::
      exists w | w in Connectors :: OccursAt(s, w, i) && WordBoundary(s, i) && WordBoundary(s, i + |w|)
  }

  /** `/\b\w+(ção|…|ada)\b/i`: a suffix that ends a word and follows at least
      one `\w` character. The `\b\w+` prefix holds exactly when the character
      before the suffix is `\w`, since the run of `\w` it ends starts at a
      boundary. */
  predicate HasSuffixedWord(s: string) {
    exists j, w | 1 <= j <= |s| && w in Suffixes ::
      IsWordChar(s[j - 1]) && OccursAt(s, w, j) && WordBoundary(s, j + |w|)
  }

  /** `evaluateLanguageConsistency`; case-insensitive matching is matching on
      the lower-cased text. */
  function LanguageConsistency(t: string): (r: real)
    ensures 0.0 <= r <= 0.3
  {
    var lowered := Lower(t);
    var words := SplitRuns(lowered, IsSpace);
    var ratio := CountCommon(words) as real / |words| as real;
    (if ratio > 0.1 then 0.1 else 0.0)
    + (if ratio > 0.2 then 0.1 else 0.0)
    + (if HasConnector(lowered) then 0.05 else 0.0)
    + (if HasSuffixedWord(lowered) then 0.05 else 0.0)
  }

  // ---------------------------------------------------------------------------
  // Statistics
  // ---------------------------------------------------------------------------

  /** `getTextStatistics` without the two `toFixed` averages. `confidence`
      is absent on the early return. */
  datatype TextStatistics = TextStatistics(
    wordCount: nat,
    charCount: nat,
    sentenceCount: nat,
    confidence: Option<real>)

  /** `cleanText.split(/[.!?]+/).filter(s => s.trim().length > 0)`. */
  function Sentences(t: string): (r: seq<string>)
    ensures forall k :: 0 <= k < |r| ==> !IsBlank(r[k])
  {
    var pieces := SplitRuns(t, IsSentenceEnd);
    NonBlank(pieces)
  }

  function NonBlank(pieces: seq<string>): (r: seq<string>)
    ensures |r| <= |pieces|
    ensures forall k :: 0 <= k < |r| ==> !IsBlank(r[k]) && r[k] in pieces
  {
    if |pieces| == 0 then []
    else
      var init := NonBlank(pieces[..|pieces| - 1]);
      var last := pieces[|pieces| - 1];
      assert forall w :: w in pieces[..|pieces| - 1] ==> w in pieces;
      if Trim(last) == [] then init else init + [last]
  }

  /** The filter distributes over concatenation. */
  lemma {:induction false} NonBlankConcat(a: seq<string>, b: seq<string>)
    ensures NonBlank(a + b) == NonBlank(a) + NonBlank(b)
    decreases |b|
  {
    if |b| == 0 {
      assert a + b == a;
    } else {
      var b0, last := b[..|b| - 1], b[|b| - 1];
      NonBlankConcat(a, b0);
      SplitLast(a, b);
      NonBlankStep(a + b, a + b0, last);
      NonBlankStep(b, b0, last);
    }
  }


  /** One step of the filter, from the back. */
  lemma NonBlankStep(pieces: seq<string>, init: seq<string>, last: string)
    requires pieces == init + [last]
    ensures NonBlank(pieces) == NonBlank(init) + (if Trim(last) == [] then [] else [last])
  {
    assert pieces[..|pieces| - 1] == init;
  }

  /** The filter keeps exactly the pieces holding a non-blank character. */
  lemma {:induction false} NonBlankCountsMarked(pieces: seq<string>)
    ensures |NonBlank(pieces)| == PiecesWithMark(pieces, NotSpace)
    decreases |pieces|
  {
    if |pieces| > 0 {
      var p := pieces[0];
      assert pieces == [p] + pieces[1..];
      NonBlankConcat([p], pieces[1..]);
      assert NonBlank([p]) == (if Trim(p) == [] then [] else [p]) by {
        assert [p][..0] == [];
      }
      assert Trim(p) != [] <==> HasMarked(p, NotSpace);
      NonBlankCountsMarked(pieces[1..]);
    }
  }

  /** Sentences, counted without splitting: one for every stretch between
      runs of `.`, `!` and `?` that holds a non-blank character. */
  lemma SentencesCounted(t: string)
    ensures |Sentences(t)| == ScanCount(t, IsSentenceEnd, NotSpace, false)
  {
    NonBlankCountsMarked(SplitRuns(t, IsSentenceEnd));
    ScanCountsPieces(t, IsSentenceEnd, NotSpace);
  }

  function GetTextStatistics(text: JsValue): (r: TextStatistics)
    ensures !Truthy(text) || !text.Str? ==> r == TextStatistics(0, 0, 0, None)
    ensures text.Str? && Truthy(text) ==>
              && r.charCount == |Trim(text.s)|
              && r.wordCount <= r.charCount
              && (r.wordCount == 0 <==> IsBlank(text.s))
              && r.wordCount == ScanCount(Trim(text.s), IsSpace, NotSpace, false)
              && r.sentenceCount == ScanCount(Trim(text.s), IsSentenceEnd, NotSpace, false)
              && r.confidence == Some(CalculateConfidence(text))
  {
    if !Truthy(text) || !text.Str? then TextStatistics(0, 0, 0, None)
    else
      var t := Trim(text.s);
      WordCountBounds(t);
      WordsCharacterised(t);
      SentencesCounted(t);
      TextStatistics(|Words(t)|, |t|, |Sentences(t)|, Some(CalculateConfidence(text)))
  }
}

=== FILE: file_validator.dfy ===
/** The upload validator (`FileValidator`): an ordered chain of checks on an
    uploaded audio file (exists, size, extension, first ten bytes), each
    returning the first failure. The file system is replaced by what it would
    report about the path: a `FileFacts` record. */
module FileValidator {
  import opened Wrappers
  import opened JsText
  import opened JsValues

  newtype byte = x: int | 0 <= x < 256

  /** What the file system reports about a path: whether it exists, its size
      in bytes (or the error `statSync` throws), and the bytes a read of the
      first ten yields (or the error opening or reading throws). */
  datatype FileFacts = FileFacts(
    path: string,
    present: bool,
    size: Result<nat>,
    head: Result<seq<byte>>)

  /** A validated file: path, size in megabytes to two decimals, lower-cased
      extension (the validation timestamp is not modelled). */
  datatype ValidFile = ValidFile(path: string, sizeInMB: real, extension: string)

  /** `{valid: false, error}` or `{valid: true, file}`. */
  datatype Validation = Invalid(error: string) | Valid(file: ValidFile)

  const MaxSizeMB: real := 25.0

  const BytesPerMB: nat := 1024 * 1024

  const AllowedExtensions: seq<string> := [".mp3", ".wav", ".m4a", ".mp4", ".mpeg", ".mpga", ".webm"]

  /** `allowedExtensions.join(', ')`. */
  const AllowedExtensionList: string := ".mp3, .wav, .m4a, .mp4, .mpeg, .mpga, .webm"

  const AllowedMimeTypes: seq<string> :=
    ["audio/mpeg", "audio/wav", "audio/mp3", "audio/m4a", "audio/mp4", "audio/webm"]

  // ---------------------------------------------------------------------------
  // Size
  // ---------------------------------------------------------------------------

  function SizeInMB(bytes: nat): real {
    bytes as real / BytesPerMB as real
  }

  /** `_validateSize`: the size in megabytes, or the message rejecting it. */
  function CheckSize(bytes: nat): (r: Result<real>)
    ensures r.Ok? <==> 1049 <= bytes <= 26214400
    ensures r.Ok? ==> r.value == SizeInMB(bytes) && 0.001 <= r.value <= MaxSizeMB
  {
    var mb := SizeInMB(bytes);
    if mb > MaxSizeMB then Err("Arquivo muito grande: " + Fixed2(mb) + "MB. Máximo: 25MB")
    else if mb < 0.001 then Err("Arquivo muito pequeno ou vazio")
    else Ok(mb)
  }

  // ---------------------------------------------------------------------------
  // Extension
  // ---------------------------------------------------------------------------

  /** `s.lastIndexOf(c)`, `None` for -1. */
  function LastIndexOf(s: string, c: char): (r: Option<nat>)
    ensures r.Some? ==> r.value < |s| && s[r.value] == c && forall k :: r.value < k < |s| ==> s[k] != c
    ensures r.None? ==> forall k :: 0 <= k < |s| ==> s[k] != c
  {
    if |s| == 0 then None
    else if s[|s| - 1] == c then Some(|s| - 1)
    else LastIndexOf(s[..|s| - 1], c)
  }

  /** The path without its trailing slashes. */
  function StripTrailingSlashes(p: string): (r: string)
    ensures |r| <= |p| && r == p[..|r|]
    ensures r == [] || r[|r| - 1] != '/'
  {
    if |p| > 0 && p[|p| - 1] == '/' then StripTrailingSlashes(p[..|p| - 1]) else p
  }

  /** The last path segment, trailing slashes ignored. */
  function LastSegment(p: string): (r: string)
    ensures '/' !in r
  {
    var q := StripTrailingSlashes(p);
    match LastIndexOf(q, '/')
    case None => q
    case Some(i) => q[i + 1..]
  }

  /** `path.extname` (POSIX): from the last `.` of the last segment to its end,
      or empty when the segment has no `.`, starts with its only relevant `.`
      (a dot-file such as `.mp3`), or is `..`. */
  function ExtName(p: string): (r: string)
    ensures r == [] || (r[0] == '.' && '/' !in r)
  {
    var seg := LastSegment(p);
    match LastIndexOf(seg, '.')
    case None => []
    case Some(dot) =>
      if dot == 0 || seg == ".." then [] else seg[dot..]
  }

  /** The last occurrence is the one with none after it. */
  lemma LastIndexOfIs(s: string, c: char, i: nat)
    requires i < |s| && s[i] == c
    requires forall k :: i < k < |s| ==> s[k] != c
    ensures LastIndexOf(s, c) == Some(i)
  {
  }

  /** The segment after a final slash-free name is that name. */
  lemma LastSegmentOfName(dir: string, name: string)
    requires name != [] && '/' !in name
    ensures LastSegment(dir + "/" + name) == name
  {
    var p := dir + "/" + name;
    assert p[|p| - 1] == name[|name| - 1];
    assert StripTrailingSlashes(p) == p;
    var i := |dir|;
    forall k | i < k < |p| ensures p[k] != '/' {
      assert p[k] == name[k - i - 1];
    }
    LastIndexOfIs(p, '/', i);
    assert p[i + 1..] == name;
  }

  /** A file name with a non-empty stem and a dotted suffix yields that suffix,
      whatever directory it sits in. */
  lemma ExtNameOfFileName(dir: string, stem: string, ext: string)
    requires stem != [] && forall k :: 0 <= k < |stem| ==> stem[k] != '.' && stem[k] != '/'
    requires ext != [] && ext[0] == '.' && forall k :: 1 <= k < |ext| ==> ext[k] != '.' && ext[k] != '/'
    ensures ExtName(dir + "/" + stem + ext) == ext
  {
    var seg := stem + ext;
    assert dir + "/" + stem + ext == dir + "/" + seg;
    forall k | 0 <= k < |seg| ensures seg[k] != '/' {
      if k >= |stem| {
        assert seg[k] == ext[k - |stem|];
      }
    }
    LastSegmentOfName(dir, seg);
    forall k | |stem| < k < |seg| ensures seg[k] != '.' {
      assert seg[k] == ext[k - |stem|];
    }
    LastIndexOfIs(seg, '.', |stem|);
    assert seg[0] == stem[0];
    assert seg[|stem|..] == ext;
  }

  /** A dot-file has no extension: `/uploads/.mp3` is not an `.mp3` file. */
  lemma DotFileHasNoExtension(dir: string, name: string)
    requires '.' !in name && '/' !in name
    ensures ExtName(dir + "/." + name) == []
  {
    var seg := "." + name;
    assert dir + "/." + name == dir + "/" + seg;
    LastSegmentOfName(dir, seg);
    forall k | 0 < k < |seg| ensures seg[k] != '.' {
      assert seg[k] == name[k - 1];
    }
    LastIndexOfIs(seg, '.', 0);
  }

  /** `_validateExtension`: the lower-cased extension, or the message rejecting
      it. */
  function CheckExtension(p: string): (r: Result<string>)
    ensures r.Ok? <==> Lower(ExtName(p)) in AllowedExtensions
    ensures r.Ok? ==> r.value == Lower(ExtName(p))
  {
    var extension := Lower(ExtName(p));
    if extension in AllowedExtensions then Ok(extension)
    else Err("Extensão não suportada: " + extension + ". Permitidas: " + AllowedExtensionList)
  }

  /** Extensions are compared case-insensitively: paths whose extensions
      lower-case alike get the same verdict. */
  lemma ExtensionCheckIgnoresCase(p: string, q: string)
    requires Lower(ExtName(p)) == Lower(ExtName(q))
    ensures CheckExtension(p).Ok? <==> CheckExtension(q).Ok?
  {
  }

  // ---------------------------------------------------------------------------
  // Integrity
  // ---------------------------------------------------------------------------

  /** `Buffer.alloc(10)` after `readSync` of up to ten bytes: what was read,
      then zeros. */
  function HeaderBuffer(read: seq<byte>): (buf: seq<byte>)
    ensures |buf| == 10
    ensures forall k :: 0 <= k < 10 ==> buf[k] == (if k < |read| then read[k] else 0)
  {
    var n := if |read| < 10 then |read| else 10;
    read[..n] + seq(10 - n, _ => 0)
  }

  predicate AllZero(buf: seq<byte>) {
    forall k :: 0 <= k < |buf| ==> buf[k] == 0
  }

  /** `_validateIntegrity`. */
  function CheckIntegrity(head: Result<seq<byte>>): (r: Result<()>)
    ensures r.Ok? <==> head.Ok? && exists k :: 0 <= k < |head.value| && k < 10 && head.value[k] != 0
  {
    match head
    case Err(_) => Err("Não foi possível ler o arquivo - pode estar corrompido")
    case Ok(read) =>
      var buf := HeaderBuffer(read);
      if AllZero(buf) then
        Err("Arquivo parece estar corrompido ou vazio")
      else
        var k :| 0 <= k < 10 && buf[k] != 0;
        Ok(())
  }

  // ---------------------------------------------------------------------------
  // Results
  // ---------------------------------------------------------------------------

  /** `parseFloat` of the text `toFixed(2)` prints: integer part, point, two
      decimals. */
  function ParseFixed2(s: string): real
    requires |s| >= 4 && s[|s| - 3] == '.'
    requires forall i :: 0 <= i < |s| && i != |s| - 3 ==> IsDigit(s[i])
  {
    var whole := s[..|s| - 3];
    assert forall i :: 0 <= i < |whole| ==> IsRadixDigit(whole[i], 10) by {
      forall i | 0 <= i < |whole| ensures IsRadixDigit(whole[i], 10) {
        assert IsDigit(s[i]);
      }
    }
    DigitsValue(whole, 10) as real
      + (s[|s| - 2] as int - '0' as int) as real / 10.0
      + (s[|s| - 1] as int - '0' as int) as real / 100.0
  }

  /** `parseFloat(x.toFixed(2))` is `x` rounded to the nearest hundredth. */
  lemma ParseFixed2RoundTrip(x: real)
    requires x >= 0.0
    ensures ParseFixed2(Fixed2(x)) == RoundHundredths(x)
  {
    var n: nat := Hundredths(x);
    var q, a, b := n / 100, n % 100 / 10, n % 10;
    assert Fixed2(x) == NatToString(q) + "." + [DigitChar(a), DigitChar(b)];
    ParseFixed2Digits(q, a, b);
    assert n == 100 * q + 10 * a + b;
  }

  lemma ParseFixed2Digits(q: nat, a: nat, b: nat)
    requires a < 10 && b < 10
    ensures var s := NatToString(q) + "." + [DigitChar(a), DigitChar(b)];
      ParseFixed2(s) == q as real + a as real / 10.0 + b as real / 100.0
  {
    var s := NatToString(q) + "." + [DigitChar(a), DigitChar(b)];
    DecimalDigitsValue(q);
    assert s[..|s| - 3] == NatToString(q);
    assert s[|s| - 2] == DigitChar(a);
    assert s[|s| - 1] == DigitChar(b);
  }

  /** `_createSuccessResult`. */
  function SuccessResult(p: string, sizeInMB: real, extension: string): (r: Validation)
    requires sizeInMB >= 0.0
    ensures r.Valid?
    ensures r.file.path == p && r.file.extension == extension
    ensures r.file.sizeInMB == RoundHundredths(sizeInMB)
  {
    ParseFixed2RoundTrip(sizeInMB);
    Valid(ValidFile(p, ParseFixed2(Fixed2(sizeInMB)), extension))
  }

  /** `validate`: the checks in order, the first failure returned; a failing
      `statSync` is caught and reported with "Erro na validação: ". */
  function Validate(f: FileFacts): (r: Validation)
    ensures r.Valid? <==>
              && f.present
              && f.size.Ok? && 1049 <= f.size.value <= 26214400
              && Lower(ExtName(f.path)) in AllowedExtensions
              && f.head.Ok? && !AllZero(HeaderBuffer(f.head.value))
    ensures !f.present ==> r == Invalid("Arquivo não encontrado")
    ensures r.Valid? ==>
              && r.file.path == f.path
              && r.file.extension == Lower(ExtName(f.path))
              && r.file.sizeInMB == RoundHundredths(SizeInMB(f.size.value))
  {
    if !f.present then Invalid("Arquivo não encontrado")
    else
      match f.size
      case Err(m) => Invalid("Erro na validação: " + m)
      case Ok(bytes) =>
        match CheckSize(bytes)
        case Err(m) => Invalid(m)
        case Ok(mb) =>
          match CheckExtension(f.path)
          case Err(m) => Invalid(m)
          case Ok(extension) =>
            match CheckIntegrity(f.head)
            case Err(m) => Invalid(m)
            case Ok(_) =>
              SuccessResult(f.path, mb, extension)
  }

  /** The checks run in order and the first failure wins: a size failure is
      reported even when the extension and content are also bad, and an
      extension failure even when the content is bad. */
  lemma FirstFailureReported(f: FileFacts)
    requires f.present && f.size.Ok?
    ensures CheckSize(f.size.value).Err? ==> Validate(f) == Invalid(CheckSize(f.size.value).error)
    ensures CheckSize(f.size.value).Ok? && CheckExtension(f.path).Err? ==>
              Validate(f) == Invalid(CheckExtension(f.path).error)
    ensures CheckSize(f.size.value).Ok? && CheckExtension(f.path).Ok? && CheckIntegrity(f.head).Err? ==>
              Validate(f) == Invalid(CheckIntegrity(f.head).error)
  {
  }

  /** Every rejection carries a non-empty message. */
  lemma RejectionsExplained(f: FileFacts)
    ensures Validate(f).Invalid? ==> Validate(f).error != []
  {
  }

  // ---------------------------------------------------------------------------
  // MIME types
  // ---------------------------------------------------------------------------

  /** `isValidMimeType`: exact membership, so case matters. */
  function IsValidMimeType(mime: string): (r: bool)
    ensures r ==> StartsWith(mime, "audio/") && Lower(mime) == mime
  {
    mime in AllowedMimeTypes
  }

  /** The check is exact: "audio/mpeg" is accepted, "Audio/MPEG" and
      "audio/mpeg; codecs=mp3" are not. */
  lemma MimeTypeMatchIsExact()
    ensures IsValidMimeType("audio/mpeg")
    ensures !IsValidMimeType("Audio/MPEG")
    ensures !IsValidMimeType("audio/mpeg; codecs=mp3")
  {
    assert "Audio/MPEG"[0] != 'a';
  }
}

=== FILE: http.dfy ===
/** What an Express handler produces once `res.status(...).json(...)` is read as
    an output value. */
module Http {
  /** A status code and a JSON body. */
  datatype Response<B> = Response(status: nat, body: B)

  /** The message a failure body carries: the error's own message in
      development, a fixed text otherwise (`NODE_ENV === 'development'`). */
  function Shown(development: bool, message: string, generic: string): (r: string)
    ensures development ==> r == message
    ensures !development ==> r == generic
  {
    if development then message else generic
  }
}

=== FILE: js_text.dfy ===
/** The handful of JavaScript string operations the services rely on, stated on
    `seq<char>`: white space as `trim()` and `\s` see it, `toLowerCase()`,
    `startsWith`/`includes`, `split` on a run of separators, and the decimal
    rendering of integers used by template literals. */
module JsText {

  /** WhiteSpace and LineTerminator of ECMAScript: exactly the characters
      `String.prototype.trim` strips and the regular-expression class `\s`
      matches. */
  predicate IsSpace(c: char) {
    || c == '\t' || c == '\n' || c == '\U{000B}' || c == '\U{000C}' || c == '\r'
    || c == ' ' || c == '\U{00A0}' || c == '\U{1680}'
    || ('\U{2000}' <= c <= '\U{200A}')
    || c == '\U{2028}' || c == '\U{2029}' || c == '\U{202F}' || c == '\U{205F}'
    || c == '\U{3000}' || c == '\U{FEFF}'
  }

  /** The characters the regular-expression `.` does not match. */
  predicate IsLineTerminator(c: char) {
    c == '\n' || c == '\r' || c == '\U{2028}' || c == '\U{2029}'
  }

  /** `\w`: ASCII letters, digits and the underscore. */
  predicate IsWordChar(c: char) {
    ('a' <= c <= 'z') || ('A' <= c <= 'Z') || ('0' <= c <= '9') || c == '_'
  }

  /** `\d`: an ASCII digit. */
  predicate IsDigit(c: char) {
    '0' <= c <= '9'
  }

  /** `toLowerCase()` on one character, for Basic Latin and Latin-1. */
  function LowerChar(c: char): char {
    if ('A' <= c <= 'Z') || ('\U{00C0}' <= c <= '\U{00DE}' && c != '\U{00D7}') then
      (c as int + 32) as char
    else
      c
  }

  /** `toLowerCase()`. */
  function Lower(s: string): (r: string)
    ensures |r| == |s|
    ensures forall i :: 0 <= i < |s| ==> r[i] == LowerChar(s[i])
  {
    seq(|s|, i requires 0 <= i < |s| => LowerChar(s[i]))
  }

  lemma LowerIdempotent(s: string)
    ensures Lower(Lower(s)) == Lower(s)
  {
  }

  /** Removes leading white space. */
  function TrimStart(s: string): (r: string)
    ensures |r| <= |s| && r == s[|s| - |r|..]
    ensures forall i :: 0 <= i < |s| - |r| ==> IsSpace(s[i])
    ensures r == [] || !IsSpace(r[0])
    decreases |s|
  {
    if |s| > 0 && IsSpace(s[0]) then TrimStart(s[1..]) else s
  }

  /** Removes trailing white space. */
  function TrimEnd(s: string): (r: string)
    ensures |r| <= |s| && r == s[..|r|]
    ensures forall i :: |r| <= i < |s| ==> IsSpace(s[i])
    ensures r == [] || !IsSpace(r[|r| - 1])
    decreases |s|
  {
    if |s| > 0 && IsSpace(s[|s| - 1]) then TrimEnd(s[..|s| - 1]) else s
  }

  /** `String.prototype.trim`: the text between the first and the last
      non-white-space character. */
  function Trim(s: string): (r: string)
    ensures |r| <= |s|
    ensures r == [] <==> forall i :: 0 <= i < |s| ==> IsSpace(s[i])
    ensures r != [] ==> !IsSpace(r[0]) && !IsSpace(r[|r| - 1])
    ensures r == TrimEnd(TrimStart(s))
  {
    TrimBlank(s);
    var t := TrimStart(s);
    var r := TrimEnd(t);
    assert r != [] ==> r[0] == t[0];
    r
  }

  /** Nothing but white space. */
  predicate AllSpace(t: string) {
    forall k :: 0 <= k < |t| ==> IsSpace(t[k])
  }

  /** `r` is a slice of `s` with only white space before and after it. */
  predicate InnerSlice(s: string, r: string) {
    exists i, j :: 0 <= i <= j <= |s| && r == s[i..j] && AllSpace(s[..i]) && AllSpace(s[j..])
  }

  /** The trimmed text is the slice of `s` between its leading and its
      trailing white space. */
  lemma TrimIsInnerSlice(s: string)
    ensures InnerSlice(s, Trim(s))
  {
    var t := TrimStart(s);
    var r := TrimEnd(t);
    var i := |s| - |t|;
    var j := i + |r|;
    assert s[..i] == s[..|s| - |t|];
    assert s[j..] == t[|r|..];
    assert r == t[..|r|] == s[i..j];
    assert AllSpace(s[..i]) && AllSpace(s[j..]);
  }

  lemma TrimBlank(s: string)
    ensures TrimEnd(TrimStart(s)) == [] ==> forall i :: 0 <= i < |s| ==> IsSpace(s[i])
  {
    var t := TrimStart(s);
    assert t != [] ==> TrimEnd(t) != [];
  }

  /** Trimming twice is trimming once. */
  lemma TrimIdempotent(s: string)
    ensures Trim(Trim(s)) == Trim(s)
  {
    var r := Trim(s);
    if r != [] {
      assert TrimStart(r) == r;
      assert TrimEnd(r) == r;
    }
  }

  /** `s.startsWith(p)`. */
  predicate StartsWith(s: string, p: string) {
    |p| <= |s| && s[..|p|] == p
  }

  /** Texts whose first characters differ do not start with one another. */
  lemma FirstCharRulesOutPrefix(s: string, p: string)
    requires |s| > 0 && |p| > 0 && s[0] != p[0]
    ensures !StartsWith(s, p)
  {
    if |p| <= |s| {
      assert s[..|p|][0] == s[0];
    }
  }

  /** `p + m`: a message `m` wrapped behind the prefix `p`, as
      `new Error(`${p}${error.message}`)` does. */
  function Prefixed(p: string, m: string): (r: string)
    ensures StartsWith(r, p) && r[|p|..] == m
  {
    assert (p + m)[..|p|] == p;
    assert (p + m)[|p|..] == m;
    p + m
  }

  /** `p` occurs in `s` starting at index `i`. */
  predicate OccursAt(s: string, p: string, i: int) {
    0 <= i && i + |p| <= |s| && s[i..i + |p|] == p
  }

  /** `s.includes(p)`. */
  predicate Contains(s: string, p: string) {
    exists i | 0 <= i <= |s| :: OccursAt(s, p, i)
  }

  /** A pattern that does not cross the seam of `a + b` is found in `a + b`
      only if it is found in `a` or in `b`. */
  lemma ContainsConcat(a: string, b: string, p: string)
    requires |p| > 0
    requires forall i :: |a| - |p| < i < |a| ==> !OccursAt(a + b, p, i)
    ensures Contains(a + b, p) <==> Contains(a, p) || Contains(b, p)
  {
    if Contains(a + b, p) {
      var i :| 0 <= i <= |a + b| && OccursAt(a + b, p, i);
      if i + |p| <= |a| {
        assert (a + b)[i..i + |p|] == a[i..i + |p|];
        assert OccursAt(a, p, i);
      } else {
        assert i >= |a|;
        assert (a + b)[i..i + |p|] == b[i - |a|..i - |a| + |p|];
        assert OccursAt(b, p, i - |a|);
      }
    }
    if Contains(a, p) {
      var i :| 0 <= i <= |a| && OccursAt(a, p, i);
      assert (a + b)[i..i + |p|] == a[i..i + |p|];
      assert OccursAt(a + b, p, i);
    }
    if Contains(b, p) {
      var i :| 0 <= i <= |b| && OccursAt(b, p, i);
      assert (a + b)[|a| + i..|a| + i + |p|] == b[i..i + |p|];
      assert OccursAt(a + b, p, |a| + i);
    }
  }

  /** A pattern holding a character that `s` lacks is not found in `s`. */
  lemma MissingCharNotContained(s: string, p: string, k: nat)
    requires k < |p| && p[k] !in s
    ensures !Contains(s, p)
  {
  }

  /** Number of characters of `s` satisfying `f`. */
  function CountWhere(s: string, f: char -> bool): (n: nat)
    ensures n <= |s|
  {
    if |s| == 0 then 0 else CountWhere(s[..|s| - 1], f) + (if f(s[|s| - 1]) then 1 else 0)
  }

  /** The characters of `s` satisfying `f`, in order: `s.replace(/[^…]/g, '')`
      for the class `f`. */
  function KeepWhere(s: string, f: char -> bool): (r: string)
    ensures |r| == CountWhere(s, f)
    ensures forall i :: 0 <= i < |r| ==> f(r[i])
  {
    if |s| == 0 then []
    else
      var init := KeepWhere(s[..|s| - 1], f);
      if f(s[|s| - 1]) then init + [s[|s| - 1]] else init
  }

  /** Keeping the characters of a class changes nothing when every character
      is in it. */
  lemma {:induction false} KeepWhereAll(s: string, f: char -> bool)
    requires forall i :: 0 <= i < |s| ==> f(s[i])
    ensures KeepWhere(s, f) == s
  {
    if |s| > 0 {
      KeepWhereAll(s[..|s| - 1], f);
      assert s[..|s| - 1] + [s[|s| - 1]] == s;
    }
  }

  /** Number of occurrences of `c` in `s`. */
  function CountChar(s: string, c: char): (n: nat)
    ensures n <= |s|
  {
    CountWhere(s, x => x == c)
  }

  /** Index of the first character of `s` satisfying `sep`, or `|s|`. */
  function FirstWhere(s: string, sep: char -> bool): (i: nat)
    ensures i <= |s|
    ensures i < |s| ==> sep(s[i])
    ensures forall k :: 0 <= k < i ==> !sep(s[k])
    decreases |s|
  {
    if |s| == 0 then 0 else if sep(s[0]) then 0 else 1 + FirstWhere(s[1..], sep)
  }

  /** Index just past the run of `sep` characters that starts at `i`. */
  function RunEnd(s: string, sep: char -> bool, i: nat): (j: nat)
    requires i <= |s|
    ensures i <= j <= |s|
    ensures forall k :: i <= k < j ==> sep(s[k])
    ensures j < |s| ==> !sep(s[j])
    decreases |s| - i
  {
    if i < |s| && sep(s[i]) then RunEnd(s, sep, i + 1) else i
  }

  /** `s.split(re)` where `re` matches one or more `sep` characters: the pieces
      between maximal runs of separators, empty pieces included. */
  function SplitRuns(s: string, sep: char -> bool): (pieces: seq<string>)
    ensures |pieces| >= 1
    ensures forall k, i :: 0 <= k < |pieces| && 0 <= i < |pieces[k]| ==> !sep(pieces[k][i])
    decreases |s|
  {
    var i := FirstWhere(s, sep);
    if i == |s| then
      [s]
    else
      var j := RunEnd(s, sep, i);
      var rest := SplitRuns(s[j..], sep);
      assert forall k :: 1 <= k < |[s[..i]] + rest| ==> ([s[..i]] + rest)[k] == rest[k - 1];
      [s[..i]] + rest
  }

  /** `pieces.filter(p => p.length > 0)`. */
  function NonEmpty(pieces: seq<string>): (r: seq<string>)
    ensures |r| <= |pieces|
    ensures forall k :: 0 <= k < |r| ==> r[k] != [] && r[k] in pieces
  {
    if |pieces| == 0 then []
    else
      var init := NonEmpty(pieces[..|pieces| - 1]);
      var last := pieces[|pieces| - 1];
      assert forall w :: w in pieces[..|pieces| - 1] ==> w in pieces;
      if last == [] then init else init + [last]
  }

  /** `s.split(/\s+/).filter(w => w.length > 0)`: the maximal runs of
      non-white-space characters. */
  function Words(s: string): seq<string> {
    NonEmpty(SplitRuns(s, IsSpace))
  }

  /** On a trimmed, non-empty text, splitting on white space yields no empty
      piece, so the filter above changes nothing. */
  lemma {:induction false} SplitTrimmedHasNoEmptyPiece(s: string, sep: char -> bool)
    requires s != [] && !sep(s[0]) && !sep(s[|s| - 1])
    ensures forall k :: 0 <= k < |SplitRuns(s, sep)| ==> SplitRuns(s, sep)[k] != []
    decreases |s|
  {
    var i := FirstWhere(s, sep);
    if i < |s| {
      var j := RunEnd(s, sep, i);
      assert i > 0;
      assert j < |s|;
      SplitTrimmedHasNoEmptyPiece(s[j..], sep);
    }
  }

  lemma {:induction false} NonEmptyKeepsAll(pieces: seq<string>)
    requires forall k :: 0 <= k < |pieces| ==> pieces[k] != []
    ensures NonEmpty(pieces) == pieces
  {
    if |pieces| > 0 {
      NonEmptyKeepsAll(pieces[..|pieces| - 1]);
      assert pieces[..|pieces| - 1] + [pieces[|pieces| - 1]] == pieces;
    }
  }

  /** The filter distributes over concatenation. */
  lemma {:induction false} NonEmptyConcat(a: seq<string>, b: seq<string>)
    ensures NonEmpty(a + b) == NonEmpty(a) + NonEmpty(b)
    decreases |b|
  {
    if |b| == 0 {
      assert a + b == a;
    } else {
      var b0 := b[..|b| - 1];
      NonEmptyConcat(a, b0);
      assert (a + b)[..|a + b| - 1] == a + b0;
      assert (a + b)[|a + b| - 1] == b[|b| - 1];
    }
  }

  /** Every non-empty piece holds at least one character of its own, so there
      are never more non-empty pieces than characters, and none at all only
      when every character is a separator. */
  lemma {:induction false} NonEmptyPiecesBound(s: string, sep: char -> bool)
    ensures |NonEmpty(SplitRuns(s, sep))| <= |s|
    ensures |NonEmpty(SplitRuns(s, sep))| == 0 <==> forall k :: 0 <= k < |s| ==> sep(s[k])
    decreases |s|
  {
    var i := FirstWhere(s, sep);
    if i == |s| {
      assert SplitRuns(s, sep) == [s];
      assert NonEmpty([s]) == (if s == [] then [] else [s]) by {
        assert [s][..0] == [];
      }
    } else {
      var j := RunEnd(s, sep, i);
      var rest := SplitRuns(s[j..], sep);
      assert SplitRuns(s, sep) == [s[..i]] + rest;
      NonEmptyConcat([s[..i]], rest);
      assert NonEmpty([s[..i]]) == (if i == 0 then [] else [s[..i]]) by {
        assert [s[..i]][..0] == [];
      }
      NonEmptyPiecesBound(s[j..], sep);
      if i == 0 && |NonEmpty(rest)| == 0 {
        assert j == |s|;
      }
    }
  }

  /** A text has words exactly when it is not blank, and never more words than
      characters. */
  lemma WordCountBounds(s: string)
    ensures |Words(s)| <= |s|
    ensures |Words(s)| == 0 <==> forall k :: 0 <= k < |s| ==> IsSpace(s[k])
  {
    NonEmptyPiecesBound(s, IsSpace);
  }

  /** A trimmed, non-empty text has at least one word, and its white-space split
      is already free of empty pieces. */
  lemma TrimmedWords(s: string)
    requires s != [] && !IsSpace(s[0]) && !IsSpace(s[|s| - 1])
    ensures Words(s) == SplitRuns(s, IsSpace)
    ensures |Words(s)| >= 1
  {
    SplitTrimmedHasNoEmptyPiece(s, IsSpace);
    NonEmptyKeepsAll(SplitRuns(s, IsSpace));
  }

  // The split, described without splitting: the characters it keeps, and how
  // many of its pieces a one-pass scan would count.

  /** The pieces laid end to end. */
  function Flatten(pieces: seq<string>): string
    decreases |pieces|
  {
    if |pieces| == 0 then [] else pieces[0] + Flatten(pieces[1..])
  }

  predicate NotSpace(c: char) {
    !IsSpace(c)
  }

  /** Whether some character of `p` satisfies `mark`. */
  predicate HasMarked(p: string, mark: char -> bool) {
    exists i :: 0 <= i < |p| && mark(p[i])
  }

  /** How many of `pieces` hold a character satisfying `mark`. */
  function PiecesWithMark(pieces: seq<string>, mark: char -> bool): (n: nat)
    ensures n <= |pieces|
    decreases |pieces|
  {
    if |pieces| == 0 then 0
    else (if HasMarked(pieces[0], mark) then 1 else 0) + PiecesWithMark(pieces[1..], mark)
  }

  /** A left-to-right scan that counts pieces without building them: a
      separator closes the current piece, and the first `mark` character of a
      piece counts that piece. `counted` says whether the current piece has
      already been counted. */
  function ScanCount(s: string, sep: char -> bool, mark: char -> bool, counted: bool): (n: nat)
    ensures n <= |s|
    decreases |s|
  {
    if |s| == 0 then 0
    else if sep(s[0]) then ScanCount(s[1..], sep, mark, false)
    else if mark(s[0]) && !counted then 1 + ScanCount(s[1..], sep, mark, true)
    else ScanCount(s[1..], sep, mark, counted)
  }

  /** Scanning a stretch with no separator counts it at most once and
      carries whether it was counted into what follows. */
  lemma {:induction false} ScanAcrossPiece(s: string, sep: char -> bool, mark: char -> bool, counted: bool, i: nat)
    requires i <= |s|
    requires forall k :: 0 <= k < i ==> !sep(s[k])
    ensures ScanCount(s, sep, mark, counted)
         == (if !counted && HasMarked(s[..i], mark) then 1 else 0)
            + ScanCount(s[i..], sep, mark, counted || HasMarked(s[..i], mark))
    decreases i
  {
    if i == 0 {
      assert s[..0] == [];
      assert s[0..] == s;
    } else {
      var now := counted || mark(s[0]);
      ScanAcrossPiece(s[1..], sep, mark, now, i - 1);
      assert s[1..][i - 1..] == s[i..];
      assert s[1..][..i - 1] == s[1..i];
      assert HasMarked(s[..i], mark) <==> mark(s[0]) || HasMarked(s[1..i], mark) by {
        if HasMarked(s[1..i], mark) {
          var k :| 0 <= k < i - 1 && mark(s[1..i][k]);
          assert s[..i][k + 1] == s[1..i][k];
        }
        if HasMarked(s[..i], mark) && !mark(s[0]) {
          var k :| 0 <= k < i && mark(s[..i][k]);
          assert k > 0;
          assert s[1..i][k - 1] == s[..i][k];
        }
      }
    }
  }

  /** A run of separators closes the piece, whatever the scan had counted. */
  lemma {:induction false} ScanAcrossSeparators(s: string, sep: char -> bool, mark: char -> bool, counted: bool, i: nat, j: nat)
    requires i < j <= |s|
    requires forall k :: i <= k < j ==> sep(s[k])
    ensures ScanCount(s[i..], sep, mark, counted) == ScanCount(s[j..], sep, mark, false)
    decreases j - i
  {
    assert s[i..][1..] == s[i + 1..];
    if i + 1 < j {
      ScanAcrossSeparators(s, sep, mark, false, i + 1, j);
    }
  }

  /** The scan counts exactly the split's pieces that hold a marked character. */
  lemma {:induction false} ScanCountsPieces(s: string, sep: char -> bool, mark: char -> bool)
    ensures ScanCount(s, sep, mark, false) == PiecesWithMark(SplitRuns(s, sep), mark)
    decreases |s|
  {
    var i := FirstWhere(s, sep);
    ScanAcrossPiece(s, sep, mark, false, i);
    var h := HasMarked(s[..i], mark);
    if i == |s| {
      assert s[..i] == s;
      assert SplitRuns(s, sep) == [s];
      assert [s][1..] == [];
    } else {
      var j := RunEnd(s, sep, i);
      var rest := SplitRuns(s[j..], sep);
      assert SplitRuns(s, sep) == [s[..i]] + rest;
      assert ([s[..i]] + rest)[1..] == rest;
      ScanAcrossSeparators(s, sep, mark, h, i, j);
      ScanCountsPieces(s[j..], sep, mark);
    }
  }

  /** Dropping empty pieces keeps every piece that holds a character. */
  lemma {:induction false} NonEmptyCountsMarked(pieces: seq<string>, mark: char -> bool)
    requires forall k, i :: 0 <= k < |pieces| && 0 <= i < |pieces[k]| ==> mark(pieces[k][i])
    ensures |NonEmpty(pieces)| == PiecesWithMark(pieces, mark)
    ensures Flatten(NonEmpty(pieces)) == Flatten(pieces)
    decreases |pieces|
  {
    if |pieces| > 0 {
      var p := pieces[0];
      assert pieces == [p] + pieces[1..];
      NonEmptyConcat([p], pieces[1..]);
      assert NonEmpty([p]) == (if p == [] then [] else [p]) by {
        assert [p][..0] == [];
      }
      assert p != [] ==> mark(p[0]);
      NonEmptyCountsMarked(pieces[1..], mark);
      FlattenConcat(NonEmpty([p]), NonEmpty(pieces[1..]));
      assert [p][1..] == [];
      assert p + [] == p;
    }
  }

  lemma {:induction false} FlattenConcat(a: seq<string>, b: seq<string>)
    ensures Flatten(a + b) == Flatten(a) + Flatten(b)
    decreases |a|
  {
    if |a| == 0 {
      assert a + b == b;
    } else {
      assert (a + b)[0] == a[0];
      assert (a + b)[1..] == a[1..] + b;
      FlattenConcat(a[1..], b);
    }
  }

  lemma {:induction false} KeepWhereConcat(a: string, b: string, f: char -> bool)
    ensures KeepWhere(a + b, f) == KeepWhere(a, f) + KeepWhere(b, f)
    decreases |b|
  {
    if |b| == 0 {
      assert a + b == a;
    } else {
      KeepWhereConcat(a, b[..|b| - 1], f);
      assert (a + b)[..|a + b| - 1] == a + b[..|b| - 1];
      assert (a + b)[|a + b| - 1] == b[|b| - 1];
    }
  }

  lemma {:induction false} KeepWhereNone(s: string, f: char -> bool)
    requires forall i :: 0 <= i < |s| ==> !f(s[i])
    ensures KeepWhere(s, f) == []
    decreases |s|
  {
    if |s| > 0 {
      KeepWhereNone(s[..|s| - 1], f);
    }
  }

  /** Keeping non-separators across a piece and the separator run after it. */
  lemma KeepAcrossRun(s: string, sep: char -> bool, keep: char -> bool, i: nat, j: nat)
    requires forall c :: keep(c) == !sep(c)
    requires i <= j <= |s|
    requires forall k :: 0 <= k < i ==> !sep(s[k])
    requires forall k :: i <= k < j ==> sep(s[k])
    ensures KeepWhere(s, keep) == s[..i] + KeepWhere(s[j..], keep)
  {
    KeepAllOf(s, sep, keep, i);
    KeepNoneOf(s, sep, keep, i, j);
    KeepThrough(s, keep, i, j);
  }

  lemma KeepAllOf(s: string, sep: char -> bool, keep: char -> bool, i: nat)
    requires forall c :: keep(c) == !sep(c)
    requires i <= |s|
    requires forall k :: 0 <= k < i ==> !sep(s[k])
    ensures KeepWhere(s[..i], keep) == s[..i]
  {
    KeepWhereAll(s[..i], keep);
  }

  lemma KeepNoneOf(s: string, sep: char -> bool, keep: char -> bool, i: nat, j: nat)
    requires forall c :: keep(c) == !sep(c)
    requires i <= j <= |s|
    requires forall k :: i <= k < j ==> sep(s[k])
    ensures KeepWhere(s[i..j], keep) == []
  {
    KeepWhereNone(s[i..j], keep);
  }

  lemma SliceThree(s: string, i: nat, j: nat)
    requires i <= j <= |s|
    ensures s == s[..i] + s[i..j] + s[j..]
  {
  }

  lemma KeepThrough(s: string, f: char -> bool, i: nat, j: nat)
    requires i <= j <= |s|
    requires KeepWhere(s[..i], f) == s[..i] && KeepWhere(s[i..j], f) == []
    ensures KeepWhere(s, f) == s[..i] + KeepWhere(s[j..], f)
  {
    SliceThree(s, i, j);
    KeepWhereConcat(s[..i], s[i..j], f);
    assert s[..i] + [] == s[..i];
    KeepWhereConcat(s[..i] + s[i..j], s[j..], f);
  }

  /** Nothing but separators is lost: laid end to end, the pieces are the
      non-separator characters of `s` in their order. */
  lemma {:induction false} SplitRunsJoin(s: string, sep: char -> bool, keep: char -> bool)
    requires forall c :: keep(c) == !sep(c)
    ensures Flatten(SplitRuns(s, sep)) == KeepWhere(s, keep)
    decreases |s|
  {
    var i := FirstWhere(s, sep);
    if i == |s| {
      assert SplitRuns(s, sep) == [s];
      assert [s][1..] == [];
      assert s + [] == s;
      KeepAcrossRun(s, sep, keep, i, i);
      assert s[i..] == [];
    } else {
      var j := RunEnd(s, sep, i);
      var rest := SplitRuns(s[j..], sep);
      assert SplitRuns(s, sep) == [s[..i]] + rest;
      assert ([s[..i]] + rest)[1..] == rest;
      SplitRunsJoin(s[j..], sep, keep);
      KeepAcrossRun(s, sep, keep, i, j);
    }
  }

  /** Words, described without splitting: they are the text's non-blank
      characters in order, and there are as many of them as places where a
      non-blank character follows a blank one or the start of the text. */
  lemma WordsCharacterised(s: string)
    ensures |Words(s)| == ScanCount(s, IsSpace, NotSpace, false)
    ensures Flatten(Words(s)) == KeepWhere(s, NotSpace)
  {
    NonEmptyCountsMarked(SplitRuns(s, IsSpace), NotSpace);
    ScanCountsPieces(s, IsSpace, NotSpace);
    SplitRunsJoin(s, IsSpace, NotSpace);
  }

  /** The character of a decimal digit. */
  function DigitChar(d: nat): (c: char)
    requires d < 10
    ensures '0' <= c <= '9'
  {
    ('0' as int + d) as char
  }

  /** The decimal rendering of a natural number, as `String(n)` and template
      literals produce it. */
  function NatToString(n: nat): (r: string)
    ensures |r| >= 1
    ensures forall i :: 0 <= i < |r| ==> IsDigit(r[i])
    ensures |r| == 1 <==> n < 10
  {
    if n < 10 then [DigitChar(n)] else NatToString(n / 10) + [DigitChar(n % 10)]
  }

  /** The decimal rendering of an integer. */
  function IntToString(n: int): string {
    if n < 0 then "-" + NatToString(-n) else NatToString(n)
  }

  /** Distinct numbers have distinct renderings. */
  lemma {:induction false} NatToStringInjective(m: nat, n: nat)
    requires NatToString(m) == NatToString(n)
    ensures m == n
  {
    if m >= 10 && n >= 10 {
      var a, b := NatToString(m), NatToString(n);
      assert a[..|a| - 1] == NatToString(m / 10);
      assert b[..|b| - 1] == NatToString(n / 10);
      NatToStringInjective(m / 10, n / 10);
      assert DigitChar(m % 10) == a[|a| - 1] == b[|b| - 1] == DigitChar(n % 10);
    }
  }
}

=== FILE: js_values.dfy ===
/** The JSON/JavaScript values that reach the services from a request body or
    from the language model's reply, with the three coercions the source leans
    on: truthiness (and so `a || b`), `String(v)` in template literals, and
    `parseInt`. Numbers are integers here; see README "Left out". */
module JsValues {
  import opened Wrappers
  import opened JsText

  /** A field value. `Undefined` is a missing key; `Obj` is any object or array. */
  datatype JsValue =
    | Undefined
    | Null
    | Bool(b: bool)
    | Num(n: int)
    | NaN
    | Str(s: string)
    | Obj

  /** JavaScript truthiness: everything except `undefined`, `null`, `false`,
      `0`, `NaN` and the empty string. */
  predicate Truthy(v: JsValue) {
    match v
    case Undefined => false
    case Null => false
    case Bool(b) => b
    case Num(n) => n != 0
    case NaN => false
    case Str(s) => s != ""
    case Obj => true
  }

  /** `a || b`: the first operand when it is truthy, the second otherwise. */
  function Or(a: JsValue, b: JsValue): (r: JsValue)
    ensures Truthy(a) ==> r == a
    ensures !Truthy(a) ==> r == b
    ensures Truthy(b) ==> Truthy(r)
  {
    if Truthy(a) then a else b
  }

  /** `||` is idempotent on its own default: a value already defaulted with `d`
      is left alone by defaulting again with `d`. */
  lemma OrAbsorbs(a: JsValue, d: JsValue)
    ensures Or(Or(a, d), d) == Or(a, d)
  {
  }

  /** `String(v)`, as a template literal renders `v`. */
  function ToStr(v: JsValue): string {
    match v
    case Undefined => "undefined"
    case Null => "null"
    case Bool(b) => if b then "true" else "false"
    case Num(n) => IntToString(n)
    case NaN => "NaN"
    case Str(s) => s
    case Obj => "[object Object]"
  }

  /** The whole number of hundredths nearest to `x`, halves rounded up: both
      `Math.round(x * 100)` and the digits `x.toFixed(2)` prints (for
      `x >= 0`). */
  function Hundredths(x: real): (h: int)
    ensures h as real <= x * 100.0 + 0.5 < h as real + 1.0
  {
    (x * 100.0 + 0.5).Floor
  }

  /** `Math.round(x * 100) / 100`, and equally `parseFloat(x.toFixed(2))` for
      `x >= 0`. */
  function RoundHundredths(x: real): (r: real)
    ensures x - 0.005 < r <= x + 0.005
    ensures (r * 100.0).Floor as real == r * 100.0
  {
    var h := Hundredths(x) as real;
    assert (h / 100.0) * 100.0 == h;
    h / 100.0
  }

  /** Rounding keeps the unit interval. */
  lemma RoundHundredthsInUnit(x: real)
    requires 0.0 <= x <= 1.0
    ensures 0.0 <= RoundHundredths(x) <= 1.0
  {
    var f := Hundredths(x);
    assert 0 <= f <= 100;
  }

  /** Rounding is monotone. */
  lemma RoundHundredthsMonotone(x: real, y: real)
    requires x <= y
    ensures RoundHundredths(x) <= RoundHundredths(y)
  {
    assert Hundredths(x) <= Hundredths(y);
  }

  /** `x.toFixed(2)` for `x >= 0`: the integer part, a point and exactly two
      decimals of the rounded value. */
  function Fixed2(x: real): (r: string)
    requires x >= 0.0
    ensures |r| >= 4 && r[|r| - 3] == '.'
    ensures forall i :: 0 <= i < |r| && i != |r| - 3 ==> IsDigit(r[i])
  {
    var n: nat := Hundredths(x);
    NatToString(n / 100) + "." + [DigitChar(n % 100 / 10), DigitChar(n % 10)]
  }

  /** The value of a digit in radixes up to 36. */
  function DigitValue(c: char): Option<nat> {
    if '0' <= c <= '9' then Some(c as int - '0' as int)
    else if 'a' <= c <= 'z' then Some(c as int - 'a' as int + 10)
    else if 'A' <= c <= 'Z' then Some(c as int - 'A' as int + 10)
    else None
  }

  predicate IsRadixDigit(c: char, radix: nat) {
    DigitValue(c).Some? && DigitValue(c).value < radix
  }

  /** Length of the longest prefix of `s` made of `radix` digits. */
  function DigitRun(s: string, radix: nat): (n: nat)
    ensures n <= |s|
    ensures forall i :: 0 <= i < n ==> IsRadixDigit(s[i], radix)
    ensures n < |s| ==> !IsRadixDigit(s[n], radix)
    decreases |s|
  {
    if |s| > 0 && IsRadixDigit(s[0], radix) then 1 + DigitRun(s[1..], radix) else 0
  }

  lemma MulNatNonNegative(a: nat, b: nat)
    ensures a * b >= 0
  {
  }

  /** The number a string of `radix` digits denotes. */
  function DigitsValue(ds: string, radix: nat): nat
    requires forall i :: 0 <= i < |ds| ==> IsRadixDigit(ds[i], radix)
  {
    if |ds| == 0 then 0
    else
      var init := ds[..|ds| - 1];
      assert forall i :: 0 <= i < |init| ==> init[i] == ds[i];
      assert IsRadixDigit(ds[|ds| - 1], radix);
      var last := DigitValue(ds[|ds| - 1]);
      var high: nat := DigitsValue(init, radix);
      MulNatNonNegative(high, radix);
      high * radix + last.value
  }

  /** `parseInt(v)`: the value is first converted with `String(v)`, then
      read as text. `ParseInt` and `ParseIntString` call each other, so a
      proof unfolds them only as far as it asks to. */
  function ParseInt(v: JsValue): Option<int>
    decreases if v.Str? then 0 else 1, if v.Str? then |v.s| else 0, 1
  {
    if v.Str? then ParseIntString(v.s) else ParseInt(Str(ToStr(v)))
  }

  /** `parseInt(s)` with no radix: leading white space is skipped, one
      character at a time, and the rest is read by `ReadSigned`. */
  function ParseIntString(s: string): Option<int>
    decreases 0, |s|, 0
  {
    if |s| > 0 && IsSpace(s[0]) then ParseInt(Str(s[1..])) else ReadSigned(s)
  }

  /** An optional sign, then the magnitude; no digits at all gives `NaN`
      (`None`). */
  function ReadSigned(t: string): Option<int> {
    var sign := if |t| > 0 && t[0] == '-' then -1 else 1;
    var u := if |t| > 0 && (t[0] == '-' || t[0] == '+') then t[1..] else t;
    match ReadMagnitude(u)
    case None => None
    case Some(m) => Some(sign * m)
  }

  /** The unsigned part of `parseInt`: a `0x`/`0X` prefix selects radix 16,
      otherwise radix 10, and the longest run of digits is read. */
  function ReadMagnitude(u: string): Option<nat> {
    if |u| >= 2 && u[0] == '0' && (u[1] == 'x' || u[1] == 'X') then
      var n := DigitRun(u[2..], 16);
      if n == 0 then None else Some(DigitsValue(u[2..][..n], 16))
    else
      var n := DigitRun(u, 10);
      if n == 0 then None else Some(DigitsValue(u[..n], 10))
  }

  /** Skipping white space one character at a time is reading what is left
      once all leading white space is trimmed. */
  lemma {:induction false} ParseIntStringTrimsStart(s: string)
    ensures ParseIntString(s) == ReadSigned(TrimStart(s))
    decreases |s|
  {
    if |s| > 0 && IsSpace(s[0]) {
      ParseIntStringTrimsStart(s[1..]);
      assert ParseInt(Str(s[1..])) == ParseIntString(s[1..]);
    }
  }

  /** `parseInt(v)` reads `String(v)`. */
  lemma ParseIntReadsString(v: JsValue)
    ensures ParseInt(v) == ParseIntString(ToStr(v))
  {
    if !v.Str? {
      assert ParseInt(Str(ToStr(v))) == ParseIntString(ToStr(v));
    }
  }

  lemma {:induction false} DecimalDigitsValue(n: nat)
    ensures forall i :: 0 <= i < |NatToString(n)| ==> IsRadixDigit(NatToString(n)[i], 10)
    ensures DigitRun(NatToString(n), 10) == |NatToString(n)|
    ensures DigitsValue(NatToString(n), 10) == n
  {
    var s := NatToString(n);
    assert forall i :: 0 <= i < |s| ==> IsRadixDigit(s[i], 10) by {
      forall i | 0 <= i < |s| ensures IsRadixDigit(s[i], 10) {
        assert IsDigit(s[i]);
      }
    }
    if n >= 10 {
      DecimalDigitsValue(n / 10);
      assert s[..|s| - 1] == NatToString(n / 10);
    }
  }

  /** Reading an unsigned decimal rendering back. */
  lemma ReadMagnitudeOfDecimal(k: nat)
    ensures ReadMagnitude(NatToString(k)) == Some(k)
  {
    var d := NatToString(k);
    DecimalDigitsValue(k);
    if |d| >= 2 {
      assert IsDigit(d[1]);
    }
    assert !(|d| >= 2 && d[0] == '0' && (d[1] == 'x' || d[1] == 'X'));
    assert d[..|d|] == d;
    assert DigitRun(d, 10) == |d| > 0;
  }

  /** `parseInt(String(n)) == n`: rendering an integer in decimal and reading
      it back gives the integer. */
  lemma ParseIntRoundTrip(n: int)
    ensures ParseIntString(IntToString(n)) == Some(n)
  {
    if n < 0 {
      var k: nat := -n;
      var d := NatToString(k);
      assert IntToString(n) == "-" + d;
      ParseNegative(k);
      assert ParseIntString("-" + d) == Some(n);
    } else {
      ParseNonNegative(n);
    }
  }

  lemma ParseNonNegative(k: nat)
    ensures ParseIntString(NatToString(k)) == Some(k)
  {
    ReadMagnitudeOfDecimal(k);
    ParseUnsignedText(NatToString(k), k);
  }

  lemma ParseNegative(k: nat)
    ensures ParseIntString("-" + NatToString(k)) == Some(-(k as int))
  {
    ReadMagnitudeOfDecimal(k);
    ParseNegativeText(NatToString(k), k);
  }

  lemma ParseUnsignedText(d: string, m: nat)
    requires |d| > 0 && IsDigit(d[0]) && ReadMagnitude(d) == Some(m)
    ensures ParseIntString(d) == Some(m)
  {
    assert !IsSpace(d[0]);
    assert ParseIntString(d) == ReadSigned(d);
  }

  lemma ParseNegativeText(d: string, m: nat)
    requires ReadMagnitude(d) == Some(m)
    ensures ParseIntString("-" + d) == Some(-(m as int))
  {
    var t := "-" + d;
    assert t[0] == '-';
    assert !IsSpace(t[0]);
    assert ParseIntString(t) == ReadSigned(t);
    assert t[1..] == d;
    var sign := if |t| > 0 && t[0] == '-' then -1 else 1;
    assert sign == -1;
  }

  /** Text that starts with a letter other than a radix-10 digit reads as
      `NaN`. */
  lemma ParseIntOfWord(s: string)
    requires |s| > 0 && 'a' <= s[0] <= 'z'
    ensures ParseIntString(s) == None
  {
    assert !IsSpace(s[0]);
    assert ParseIntString(s) == ReadSigned(s);
    assert !IsRadixDigit(s[0], 10);
  }

  /** `parseInt(undefined)` is `NaN`. */
  lemma ParseIntUndefined()
    ensures ParseInt(Undefined) == None
  {
    ParseIntReadsString(Undefined);
    ParseIntOfWord("undefined");
  }

  /** `parseInt` of a number is that number. */
  lemma ParseIntOfNumber(n: int)
    ensures ParseInt(Num(n)) == Some(n)
  {
    ParseIntReadsString(Num(n));
    ParseIntRoundTrip(n);
  }
}

=== FILE: nlp_controller.dfy ===
/** The text-interpretation endpoints: the request guard, the defaults for
    `context` and `domain`, the mapping from an interpreter error to an HTTP
    status, and the list of actions the service advertises. */
module NlpController {
  import opened Wrappers
  import opened JsText
  import opened JsValues
  import opened Commands
  import opened NlpCommandParser
  import opened Http

  /** The response bodies. `Failure` is every `success: false` body. */
  datatype Reply =
    | Failure(error: string, message: string)
    | Parsed(message: string, parsing: ParsingResult, text: string, context: JsValue, domain: JsValue)
    | Examples(examples: seq<Example>, supportedActions: seq<string>)
    | Pending(message: string)

  /** One documented example: a sentence and the commands it should give. */
  datatype Example = Example(input: string, expected: seq<CommandObject>)

  const MaxTextLength := 1000
  const MissingText := Failure("Texto obrigatório", "Por favor, forneça um texto para análise")
  const TextTooLong := Failure("Texto muito longo", "O texto deve ter no máximo 1000 caracteres")
  const DefaultContext := "automação web geral"
  const DefaultDomain := "qualquer site"
  const GenericParseMessage := "Erro ao processar comando de texto"

  /** A text worth sending: a string with something other than white space. */
  predicate Meaningful(text: JsValue) {
    Truthy(text) && text.Str? && |Trim(text.s)| != 0
  }

  /** The status and error kind for an interpreter failure: the first rule
      that matches wins, and matching is case-sensitive. */
  function ParseFailureStatus(message: string): (r: (nat, string))
    ensures Contains(message, "API Key") ==> r == (401, "Erro de autenticação")
    ensures !Contains(message, "API Key") && Contains(message, "rate") ==> r == (429, "Limite excedido")
    ensures !Contains(message, "API Key") && !Contains(message, "rate") ==> r == (500, "Erro interno")
  {
    if Contains(message, "API Key") then (401, "Erro de autenticação")
    else if Contains(message, "rate") then (429, "Limite excedido")
    else (500, "Erro interno")
  }

  /** `POST` of a text: refused when it is not a meaningful string, or when
      its raw length (white space included) is over 1000; otherwise
      interpreted with the default context and domain. */
  function ParseTextCommands(p: ParserState, apiKeyConfigured: bool, service: Completion,
                             text: JsValue, context: JsValue, domain: JsValue, development: bool)
    : (r: (ParserState, Response<Reply>))
    ensures !Meaningful(text) ==> r == (p, Response(400, MissingText))
    ensures Meaningful(text) && |text.s| > MaxTextLength ==> r == (p, Response(400, TextTooLong))
    ensures r.1.status == 200 ==>
      && Meaningful(text) && |text.s| <= MaxTextLength
      && r.1.body.Parsed?
      && r.1.body.text == text.s
      && r.1.body.parsing.metadata.originalText == text.s
      && r.1.body.context == Or(context, Str(DefaultContext))
      && r.1.body.domain == Or(domain, Str(DefaultDomain))
    ensures r.1.status in {200, 400, 401, 429, 500}
    ensures Meaningful(text) && |text.s| <= MaxTextLength ==>
      var (p1, outcome) := ParseCommands(p, apiKeyConfigured, service, text.s, context, domain);
      && r.0 == p1
      && (r.1.status == 200 <==> outcome.Ok?)
      && (outcome.Ok? ==> r.1.body.parsing == outcome.value)
      && (outcome.Err? ==>
            && r.1.status == ParseFailureStatus(outcome.error).0
            && r.1.body == Failure(ParseFailureStatus(outcome.error).1,
                                   Shown(development, outcome.error, GenericParseMessage)))
  {
    if !Meaningful(text) then (p, Response(400, MissingText))
    else if |text.s| > MaxTextLength then (p, Response(400, TextTooLong))
    else
      DefaultsAgreeWithInterpreter(p, apiKeyConfigured, service, text.s, context, domain);
      var ctx := Or(context, Str(DefaultContext));
      var dom := Or(domain, Str(DefaultDomain));
      var (p1, outcome) := ParseCommands(p, apiKeyConfigured, service, text.s, ctx, dom);
      match outcome
      case Err(m) =>
        var (code, kind) := ParseFailureStatus(m);
        (p1, Response(code, Failure(kind, Shown(development, m, GenericParseMessage))))
      case Ok(parsing) =>
        (p1, Response(200, Parsed("Comandos extraídos com sucesso", parsing, text.s, ctx, dom)))
  }

  /** The interpreter applies the same defaults again; defaulting twice is
      defaulting once, so the service sees exactly the controller's values. */
  lemma DefaultsAgreeWithInterpreter(p: ParserState, apiKeyConfigured: bool, service: Completion,
                                     text: string, context: JsValue, domain: JsValue)
    ensures ParseCommands(p, apiKeyConfigured, service, text, Or(context, Str(DefaultContext)), Or(domain, Str(DefaultDomain)))
         == ParseCommands(p, apiKeyConfigured, service, text, context, domain)
  {
    OrAbsorbs(context, Str(DefaultContext));
    OrAbsorbs(domain, Str(DefaultDomain));
  }

  /** `Falha na interpretação do texto: ` contains neither trigger word. */
  lemma InterpretationPrefixIsNeutral()
    ensures !Contains(InterpretationPrefix, "API Key")
    ensures !Contains(InterpretationPrefix, "rate")
  {
    assert InterpretationPrefix == "Falha na in" + "terp" + "re" + "tação do t" + "exto: ";
    MissingCharNotContained(InterpretationPrefix, "API Key", 4);
    PrefixChunksLackRate("Falha na in", "terp", "re", "tação do t", "exto: ");
  }

  /** The five pieces of the prefix, and each seam between them, are free of
      `rate`. */
  lemma PrefixChunksLackRate(c1: string, c2: string, c3: string, c4: string, c5: string)
    requires c1 == "Falha na in" && c2 == "terp" && c3 == "re" && c4 == "tação do t" && c5 == "exto: "
    ensures !Contains(c1 + c2 + c3 + c4 + c5, "rate")
  {
    var p := "rate";
    MissingCharNotContained(c1, p, 0);
    MissingCharNotContained(c2, p, 1);
    MissingCharNotContained(c4, p, 0);
    MissingCharNotContained(c5, p, 0);
    ContainsConcat(c1, c2, p);
    ContainsConcat(c1 + c2, c3, p);
    ContainsConcat(c1 + c2 + c3, c4, p);
    ContainsConcat(c1 + c2 + c3 + c4, c5, p);
  }

  /** Every interpreter error carries the same prefix, and the prefix never
      decides the status: only the underlying message does. */
  lemma StatusIgnoresInterpretationPrefix(m: string)
    ensures ParseFailureStatus(InterpretationPrefix + m) == ParseFailureStatus(m)
  {
    var a := InterpretationPrefix;
    InterpretationPrefixIsNeutral();
    assert a[|a| - 6..] == "exto: ";
    forall i | |a| - 7 < i < |a| ensures !OccursAt(a + m, "API Key", i) {
      assert (a + m)[i] == a[i];
    }
    forall i | |a| - 4 < i < |a| ensures !OccursAt(a + m, "rate", i) {
      assert (a + m)[i] == a[i];
    }
    ContainsConcat(a, m, "API Key");
    ContainsConcat(a, m, "rate");
  }

  /** `OPENAI_API_KEY não encontrada` contains neither trigger word. */
  lemma MissingKeyMessageIsNeutral()
    ensures !Contains(MissingKeyMessage, "API Key")
    ensures !Contains(MissingKeyMessage, "rate")
  {
    assert MissingKeyMessage == "OPENAI_API" + "_KEY não e" + "ncontrada";
    MissingCharNotContained(MissingKeyMessage, "API Key", 6);
    KeyChunksLackRate("OPENAI_API", "_KEY não e", "ncontrada");
  }

  /** The three pieces of the message, and the seams between them, are free of
      `rate`. */
  lemma KeyChunksLackRate(c1: string, c2: string, c3: string)
    requires c1 == "OPENAI_API" && c2 == "_KEY não e" && c3 == "ncontrada"
    ensures !Contains(c1 + c2 + c3, "rate")
  {
    var r := "rate";
    MissingCharNotContained(c1, r, 0);
    MissingCharNotContained(c2, r, 0);
    MissingCharNotContained(c3, r, 3);
    ContainsConcat(c1, c2, r);
    ContainsConcat(c1 + c2, c3, r);
  }

  /** When the interpreter fails, the status is chosen from its error message
      alone. */
  lemma FailureStatusFollowsMessage(p: ParserState, apiKeyConfigured: bool, service: Completion, text: JsValue,
                                    context: JsValue, domain: JsValue, development: bool)
    requires Meaningful(text) && |text.s| <= MaxTextLength
    ensures var out := ParseCommands(p, apiKeyConfigured, service, text.s,
                                     Or(context, Str(DefaultContext)), Or(domain, Str(DefaultDomain))).1;
      out.Err? ==>
        && ParseTextCommands(p, apiKeyConfigured, service, text, context, domain, development).1.status
             == ParseFailureStatus(out.error).0
        && ParseTextCommands(p, apiKeyConfigured, service, text, context, domain, development).1.body
             == Failure(ParseFailureStatus(out.error).1, Shown(development, out.error, GenericParseMessage))
  {
  }

  /** A missing API key is reported as an internal error (500), not as an
      authentication error: `OPENAI_API_KEY` does not contain `API Key`. */
  lemma MissingKeyIsInternalError(p: ParserState, service: Completion, text: JsValue, context: JsValue,
                                  domain: JsValue, development: bool)
    requires Meaningful(text) && |text.s| <= MaxTextLength && !p.clientReady
    ensures ParseTextCommands(p, false, service, text, context, domain, development).1.status == 500
  {
    FailureStatusFollowsMessage(p, false, service, text, context, domain, development);
    StatusIgnoresInterpretationPrefix(MissingKeyMessage);
    MissingKeyMessageIsNeutral();
  }

  /** The combined transcribe-and-interpret endpoint is a stub. */
  function TranscribeAndParse(): (r: Response<Reply>)
    ensures r.status == 501 && r.body.Pending?
  {
    Response(501, Pending("Endpoint em desenvolvimento - será implementado na próxima etapa"))
  }

  /** The action list the examples endpoint advertises. */
  const AdvertisedActions: seq<string> :=
    ["navigate", "click", "type", "search", "wait", "scroll", "screenshot", "extract"]

  /** The interpreter's documented examples. */
  const DocumentedExamples: seq<Example> := [
    Example("Abrir o Google e buscar por inteligência artificial",
            [EmptyObject.(action := Str("navigate"), target := Str("https://google.com")),
             EmptyObject.(action := Str("type"), target := Str("input[name='q']"), value := Str("inteligência artificial")),
             EmptyObject.(action := Str("click"), target := Str("input[type='submit']"))]),
    Example("Clicar no botão enviar",
            [EmptyObject.(action := Str("click"), target := Str("button"), text := Str("enviar"))]),
    Example("Digitar meu email no campo de login",
            [EmptyObject.(action := Str("type"), target := Str("input[type='email']"), value := Str("{email}"))])
  ]

  function GetExamples(): (r: Response<Reply>)
    ensures r.status == 200 && r.body.Examples?
    ensures r.body.supportedActions == SupportedActions
    ensures forall e, c :: e in r.body.examples && c in e.expected ==> ActionOf(c.action).Some?
  {
    var r := Response(200, Examples(DocumentedExamples, AdvertisedActions));
    assert forall e, c :: e in DocumentedExamples && c in e.expected ==> c.action in {Str("navigate"), Str("type"), Str("click")};
    r
  }

  /** Every advertised action is one the interpreter accepts, and the other
      way round. */
  lemma AdvertisedActionsAreTheVocabulary()
    ensures forall a: Action :: Name(a) in AdvertisedActions
    ensures forall n :: n in AdvertisedActions <==> ActionOf(Str(n)).Some?
  {
  }
}

=== FILE: nlp_parser.dfy ===
/** The command interpreter (`NLPCommandParser`): everything that happens to the
    language model's reply after it arrives. The completion service and
    `JSON.parse` are one oracle that yields a `JsonReply`; from there on the
    pipeline is deterministic: validate each raw command against the closed
    vocabulary, default its fields per action, normalise navigation targets,
    drop what does not validate, and adjust the reported confidence. */
module NlpCommandParser {
  import opened Wrappers
  import opened JsText
  import opened JsValues
  import opened Commands

  // ---------------------------------------------------------------------------
  // Navigation targets
  // ---------------------------------------------------------------------------

  /** `commonSites`: bare names that resolve to a known destination. */
  const CommonSites: map<string, string> := map[
    "google" := "https://google.com",
    "youtube" := "https://youtube.com",
    "facebook" := "https://facebook.com",
    "gmail" := "https://gmail.com",
    "github" := "https://github.com"
  ]

  /** A URL with an explicit `http://` or `https://` scheme. */
  predicate IsHttpUrl(u: string) {
    StartsWith(u, "http://") || StartsWith(u, "https://")
  }

  lemma HttpsPrefixed(s: string)
    ensures IsHttpUrl("https://" + s)
  {
    assert ("https://" + s)[..8] == "https://";
  }

  /** `_validateURL`, reading the alias table by its own keys only (the source
      also reaches inherited members; see `ValidateUrlAsWritten`). `None` is the
      `TypeError` a truthy non-string target raises, which makes the whole
      command invalid. */
  function ValidateUrl(url: JsValue): (r: Option<string>)
    ensures !Truthy(url) ==> r == Some("about:blank")
    ensures Truthy(url) && !url.Str? ==> r == None
    ensures url.Str? && url.s != "" ==> r.Some? && IsHttpUrl(r.value)
    ensures url.Str? && IsHttpUrl(url.s) ==> r == Some(url.s)
    ensures url.Str? && url.s != "" && !IsHttpUrl(url.s) && Lower(url.s) in CommonSites ==>
      r == Some(CommonSites[Lower(url.s)])
    ensures url.Str? && url.s != "" && !IsHttpUrl(url.s) && Lower(url.s) !in CommonSites ==>
      r == Some("https://" + url.s)
  {
    if !Truthy(url) then Some("about:blank")
    else if !url.Str? then None
    else if IsHttpUrl(url.s) then Some(url.s)
    else
      var key := Lower(url.s);
      if key in CommonSites then
        assert IsHttpUrl(CommonSites[key]) by {
          assert forall k | k in CommonSites :: CommonSites[k][..8] == "https://";
        }
        Some(CommonSites[key])
      else
        HttpsPrefixed(url.s);
        Some("https://" + url.s)
  }

  /** The alias lookup is case-insensitive: names that lower-case alike resolve
      alike, whether or not they are aliases. */
  lemma AliasLookupIgnoresCase(a: string, b: string)
    requires a != "" && b != "" && Lower(a) == Lower(b) && Lower(a) in CommonSites
    requires !IsHttpUrl(a) && !IsHttpUrl(b)
    ensures ValidateUrl(Str(a)) == ValidateUrl(Str(b)) == Some(CommonSites[Lower(a)])
  {
  }

  // ---------------------------------------------------------------------------
  // The same lookup as the source writes it (see README, Findings)
  // ---------------------------------------------------------------------------

  /** What `commonSites[key]` reads on an object literal: one of its own
      entries, a member every object inherits from `Object.prototype`, or
      `undefined`. */
  datatype Lookup = OwnEntry(url: string) | Inherited(name: string) | Missing

  /** The members of `Object.prototype` whose names are entirely lower case,
      the only ones a lower-cased key can name. Both are truthy. */
  const InheritedLowerCaseKeys: set<string> := {"constructor", "__proto__"}

  function LookupAsWritten(key: string): Lookup {
    if key in CommonSites then OwnEntry(CommonSites[key])
    else if key in InheritedLowerCaseKeys then Inherited(key)
    else Missing
  }

  /** A navigation target as the source computes it: a string, or the
      inherited member the alias lookup returned. */
  datatype UrlTarget = UrlString(url: string) | PrototypeValue(name: string)

  /** `_validateURL` exactly as written: `commonSites[url.toLowerCase()] || ...`
      also returns inherited members, which are truthy, so `https://` is not
      prefixed. */
  function ValidateUrlAsWritten(url: JsValue): (r: Option<UrlTarget>)
    ensures url.Str? && Lower(url.s) !in InheritedLowerCaseKeys ==>
              r == (match ValidateUrl(url) case Some(u) => Some(UrlString(u)) case None => None)
  {
    if !Truthy(url) then Some(UrlString("about:blank"))
    else if !url.Str? then None
    else if IsHttpUrl(url.s) then Some(UrlString(url.s))
    else
      match LookupAsWritten(Lower(url.s))
      case OwnEntry(u) => Some(UrlString(u))
      case Inherited(name) => Some(PrototypeValue(name))
      case Missing => Some(UrlString("https://" + url.s))
  }

  /** The text "Constructor" lower-cases to an inherited member's name: the
      source hands the `Object` constructor on as the navigation target, where
      the evident intent is the URL `https://Constructor`. */
  lemma ConstructorReachesPrototype()
    ensures ValidateUrlAsWritten(Str("Constructor")) == Some(PrototypeValue("constructor"))
    ensures ValidateUrl(Str("Constructor")) == Some("https://Constructor")
  {
    assert Lower("Constructor") == "constructor";
    FirstCharRulesOutPrefix("Constructor", "http://");
    FirstCharRulesOutPrefix("Constructor", "https://");
    assert "constructor" !in CommonSites;
    assert "https://" + "Constructor" == "https://Constructor";
  }

  // ---------------------------------------------------------------------------
  // Validating one command
  // ---------------------------------------------------------------------------

  /** The id a command at position `index` of the raw list receives. */
  function CommandId(index: nat): string {
    "cmd_" + NatToString(index + 1)
  }

  /** Raw-list positions determine ids one-to-one. */
  lemma CommandIdInjective(i: nat, j: nat)
    requires CommandId(i) == CommandId(j)
    ensures i == j
  {
    var p := "cmd_";
    assert NatToString(i + 1) == CommandId(i)[|p|..];
    assert NatToString(j + 1) == CommandId(j)[|p|..];
    NatToStringInjective(i + 1, j + 1);
  }

  /** `parseInt(v)` as a value: `NaN` when nothing can be read. */
  function ParseIntValue(v: JsValue): JsValue {
    match ParseInt(v)
    case Some(n) => Num(n)
    case None => NaN
  }

  /** `parseInt(duration) || 2000`: a non-zero whole number of milliseconds. */
  function WaitDuration(v: JsValue): (r: JsValue)
    ensures r.Num? && r.n != 0
    ensures ParseInt(v).Some? && ParseInt(v).value != 0 ==> r == Num(ParseInt(v).value)
    ensures ParseInt(v).None? || ParseInt(v).value == 0 ==> r == Num(2000)
  {
    Or(ParseIntValue(v), Num(2000))
  }

  /** `_validateCommand` with `_validateCommandFields`: `None` is the `null` the
      source returns for a missing or unsupported action, or for the exception
      a truthy non-string navigation target raises. */
  function ValidateCommand(c: CommandObject, index: nat): (r: Option<CommandObject>)
    ensures r.Some? <==>
              && ActionOf(c.action).Some?
              && !(ActionOf(c.action) == Some(Navigate) && Truthy(c.target) && !c.target.Str?)
    ensures r.Some? ==> r.value.action == c.action && ActionOf(r.value.action).Some?
    ensures r.Some? ==> r.value.id == Str(CommandId(index))
    ensures r.Some? ==>
      && r.value.description == Or(c.description, Str("Comando " + c.action.s))
      && r.value.priority == Or(c.priority, Num(index + 1))
    ensures r.Some? && c.action == Str("navigate") ==> r.value.target == Str(ValidateUrl(c.target).value)
    ensures r.Some? && c.action == Str("click") ==>
      r.value.target == Or(c.target, Str("button")) && r.value.text == Or(c.text, Null)
    ensures r.Some? && c.action == Str("type") ==>
      r.value.target == Or(c.target, Str("input")) && r.value.value == Or(c.value, Or(c.text, Str("")))
    ensures r.Some? && c.action == Str("search") ==>
      r.value.query == Or(c.query, Or(c.value, Or(c.text, Str(""))))
    ensures r.Some? && c.action == Str("wait") ==>
      r.value.duration == WaitDuration(c.duration) && r.value.target == Or(c.target, Null)
    ensures r.Some? && c.action == Str("scroll") ==>
      r.value.direction == Or(c.direction, Str("down")) && r.value.amount == Or(c.amount, Str("page"))
    ensures r.Some? && c.action == Str("extract") ==>
      r.value.target == Or(c.target, Str("body")) && r.value.attribute == Or(c.attribute, Str("text"))
  {
    match ActionOf(c.action)
    case None => None
    case Some(a) => WithFields(Header(c, a, index), c, a)
  }

  /** The fields every validated command starts from: id, action, and the
      description and priority, defaulted. */
  function Header(c: CommandObject, a: Action, index: nat): CommandObject {
    EmptyObject.(
      id := Str(CommandId(index)),
      action := c.action,
      description := Or(c.description, Str("Comando " + Name(a))),
      priority := Or(c.priority, Num(index + 1)))
  }

  /** `_validateCommandFields`: the action's payload fields, defaulted, on top
      of `head`. */
  function WithFields(head: CommandObject, c: CommandObject, a: Action): Option<CommandObject> {
    match a
    case Navigate =>
      (match ValidateUrl(c.target)
       case None => None
       case Some(u) => Some(head.(target := Str(u))))
    case Click =>
      Some(head.(target := Or(c.target, Str("button")), text := Or(c.text, Null)))
    case Type =>
      Some(head.(target := Or(c.target, Str("input")), value := Or(c.value, Or(c.text, Str("")))))
    case Search =>
      Some(head.(query := Or(c.query, Or(c.value, Or(c.text, Str(""))))))
    case Wait =>
      Some(head.(duration := WaitDuration(c.duration), target := Or(c.target, Null)))
    case Scroll =>
      Some(head.(direction := Or(c.direction, Str("down")), amount := Or(c.amount, Str("page"))))
    case Screenshot =>
      Some(head)
    case Extract =>
      Some(head.(target := Or(c.target, Str("body")), attribute := Or(c.attribute, Str("text"))))
  }

  /** The payload step sets exactly its action's payload keys, each to a
      defined value, and leaves every other key as it was. */
  lemma WithFieldsShape(head: CommandObject, c: CommandObject, a: Action)
    requires WithFields(head, c, a).Some?
    ensures forall f: Field :: f in PayloadKeys(a) ==> Get(WithFields(head, c, a).value, f) != Undefined
    ensures forall f: Field :: f !in PayloadKeys(a) ==> Get(WithFields(head, c, a).value, f) == Get(head, f)
  {
    var r := WithFields(head, c, a).value;
    match a {
      case Navigate =>
        assert r == head.(target := Str(ValidateUrl(c.target).value));
      case Click =>
        assert r == head.(target := Or(c.target, Str("button")), text := Or(c.text, Null));
      case Type =>
        assert r == head.(target := Or(c.target, Str("input")), value := Or(c.value, Or(c.text, Str(""))));
      case Search =>
        assert r == head.(query := Or(c.query, Or(c.value, Or(c.text, Str("")))));
      case Wait =>
        assert r == head.(duration := WaitDuration(c.duration), target := Or(c.target, Null));
      case Scroll =>
        assert r == head.(direction := Or(c.direction, Str("down")), amount := Or(c.amount, Str("page")));
      case Screenshot =>
      case Extract =>
        assert r == head.(target := Or(c.target, Str("body")), attribute := Or(c.attribute, Str("text")));
    }
  }

  /** The keys every validated command carries. */
  const HeadKeys: set<Field> := {IdKey, ActionKey, DescriptionKey, PriorityKey}

  /** The payload keys each action's validation fills in. */
  function PayloadKeys(a: Action): set<Field> {
    match a
    case Navigate => {TargetKey}
    case Click => {TargetKey, TextKey}
    case Type => {TargetKey, ValueKey}
    case Search => {QueryKey}
    case Wait => {DurationKey, TargetKey}
    case Scroll => {DirectionKey, AmountKey}
    case Screenshot => {}
    case Extract => {TargetKey, AttributeKey}
  }

  /** A validated command carries exactly the common keys and the payload keys
      of its action, each with a value (a default where the raw one was falsy),
      and its description and priority are never falsy. */
  lemma ValidatedShape(c: CommandObject, index: nat)
    requires ValidateCommand(c, index).Some?
    ensures var v := ValidateCommand(c, index).value;
      && Keys(v) == HeadKeys + PayloadKeys(ActionOf(c.action).value)
      && Truthy(v.description) && Truthy(v.priority)
  {
    FilledShape(c, ActionOf(c.action).value, index);
  }

  /** `ValidatedShape` for a known action. */
  lemma FilledShape(c: CommandObject, a: Action, index: nat)
    requires c.action == Str(Name(a)) && WithFields(Header(c, a, index), c, a).Some?
    ensures var v := WithFields(Header(c, a, index), c, a).value;
      && Keys(v) == HeadKeys + PayloadKeys(a)
      && Truthy(v.description) && Truthy(v.priority)
  {
    HeaderShape(c, a, index);
    WithFieldsKeys(Header(c, a, index), c, a);
  }

  /** The header defines exactly the common keys, none of them falsy where
      the source defaults them. */
  lemma HeaderShape(c: CommandObject, a: Action, index: nat)
    requires c.action == Str(Name(a))
    ensures var h := Header(c, a, index);
      Keys(h) == HeadKeys && Truthy(h.description) && Truthy(h.priority)
  {
  }

  /** The payload step adds its action's keys and keeps the header's
      description and priority. */
  lemma WithFieldsKeys(head: CommandObject, c: CommandObject, a: Action)
    requires WithFields(head, c, a).Some?
    ensures var v := WithFields(head, c, a).value;
      && Keys(v) == Keys(head) + PayloadKeys(a)
      && v.description == head.description && v.priority == head.priority
  {
    var v := WithFields(head, c, a).value;
    WithFieldsShape(head, c, a);
    assert Get(v, DescriptionKey) == Get(head, DescriptionKey);
    assert Get(v, PriorityKey) == Get(head, PriorityKey);
  }

  /** What validating `{action}` alone produces: every default of the source,
      listed independently of how validation computes it. */
  function Defaults(a: Action, index: nat): CommandObject {
    var head := EmptyObject.(
      id := Str(CommandId(index)),
      action := Str(Name(a)),
      description := Str("Comando " + Name(a)),
      priority := Num(index + 1));
    match a
    case Navigate => head.(target := Str("about:blank"))
    case Click => head.(target := Str("button"), text := Null)
    case Type => head.(target := Str("input"), value := Str(""))
    case Search => head.(query := Str(""))
    case Wait => head.(duration := Num(2000), target := Null)
    case Scroll => head.(direction := Str("down"), amount := Str("page"))
    case Screenshot => head
    case Extract => head.(target := Str("body"), attribute := Str("text"))
  }

  /** Every supported action, given with nothing but its name, is accepted and
      receives the source's defaults. */
  lemma DefaultsForBareAction(a: Action, index: nat)
    ensures ValidateCommand(EmptyObject.(action := Str(Name(a))), index) == Some(Defaults(a, index))
  {
    var c := EmptyObject.(action := Str(Name(a)));
    NamesRoundTrip(a);
    var head := Header(c, a, index);
    assert head == Defaults(Screenshot, index).(action := Str(Name(a)), description := Str("Comando " + Name(a)));
    match a {
      case Navigate =>
        assert ValidateUrl(Undefined) == Some("about:blank");
      case Wait =>
        ParseIntUndefined();
        assert WaitDuration(Undefined) == Num(2000);
      case _ =>
    }
  }

  /** Validating an already validated command at the same position changes
      nothing, except for a navigation whose raw target was empty (see
      `RevalidationRewritesBlankNavigation`). */
  lemma RevalidationIsStable(c: CommandObject, index: nat)
    requires ValidateCommand(c, index).Some?
    requires !(c.action == Str("navigate") && !Truthy(c.target))
    ensures ValidateCommand(ValidateCommand(c, index).value, index) == ValidateCommand(c, index)
  {
    var a := ActionOf(c.action).value;
    var v := ValidateCommand(c, index).value;
    assert ActionOf(v.action) == Some(a);
    assert Truthy(v.description) && Truthy(v.priority);
    match a
    case Navigate =>
      NavigationTargetStable(c.target);
    case Wait =>
      ParseIntValueOfNumber(v.duration.n);
    case _ =>
      assert ValidateCommand(v, index) == Some(v);
  }

  /** A non-empty string target, once normalised, normalises to itself. */
  lemma NavigationTargetStable(t: JsValue)
    requires t.Str? && t.s != ""
    ensures ValidateUrl(t).Some? && ValidateUrl(Str(ValidateUrl(t).value)) == ValidateUrl(t)
  {
  }

  lemma ParseIntValueOfNumber(n: int)
    ensures ParseIntValue(Num(n)) == Num(n)
  {
    ParseIntOfNumber(n);
  }

  /** The one change re-validation makes: the placeholder `about:blank` given to
      a navigation without a target is not a scheme URL, so the second pass
      prefixes it to `https://about:blank`. */
  lemma RevalidationRewritesBlankNavigation(c: CommandObject, index: nat)
    requires c.action == Str("navigate") && !Truthy(c.target)
    ensures ValidateCommand(c, index).Some?
    ensures ValidateCommand(c, index).value.target == Str("about:blank")
    ensures ValidateCommand(ValidateCommand(c, index).value, index)
              == Some(ValidateCommand(c, index).value.(target := Str("https://about:blank")))
  {
    var blank := "about:blank";
    FirstCharRulesOutPrefix(blank, "http://");
    FirstCharRulesOutPrefix(blank, "https://");
    assert Lower(blank) == blank;
    assert blank !in CommonSites;
    assert "https://" + blank == "https://about:blank";
  }

  // ---------------------------------------------------------------------------
  // Validating the list
  // ---------------------------------------------------------------------------

  /** A check of one raw command at its position; `None` rejects it. */
  type Validator = (CommandObject, nat) -> Option<CommandObject>

  /** `commands.map((cmd, index) => check(cmd, index)).filter(c => c !== null)`. */
  function KeepValid(check: Validator, raws: seq<CommandObject>): (r: seq<CommandObject>)
    ensures |r| <= |raws|
  {
    if |raws| == 0 then []
    else
      var init := KeepValid(check, raws[..|raws| - 1]);
      match check(raws[|raws| - 1], |raws| - 1)
      case None => init
      case Some(v) => init + [v]
  }

  /** The raw positions `KeepValid` keeps, in order. */
  function KeptBy(check: Validator, raws: seq<CommandObject>): seq<nat> {
    if |raws| == 0 then []
    else
      var init := KeptBy(check, raws[..|raws| - 1]);
      if check(raws[|raws| - 1], |raws| - 1).Some? then init + [|raws| - 1] else init
  }

  /** The interpreter's filter, with `_validateCommand` as the check. */
  function ValidateAll(raws: seq<CommandObject>): (r: seq<CommandObject>)
    ensures |r| <= |raws|
  {
    KeepValid(ValidateCommand, raws)
  }

  function KeptPositions(raws: seq<CommandObject>): seq<nat> {
    KeptBy(ValidateCommand, raws)
  }

  /** The kept list is exactly the commands that validate, in raw order: the
      j-th result is the validation of raw command `KeptPositions[j]`, those
      positions increase, and a raw position is kept iff its command validates. */
  lemma ValidateAllKeepsExactlyTheValid(raws: seq<CommandObject>)
    ensures var r, k := ValidateAll(raws), KeptPositions(raws);
      && |k| == |r|
      && (forall j :: 0 <= j < |k| ==> k[j] < |raws| && ValidateCommand(raws[k[j]], k[j]) == Some(r[j]))
      && (forall j, l :: 0 <= j < l < |k| ==> k[j] < k[l])
      && (forall i :: 0 <= i < |raws| ==> (ValidateCommand(raws[i], i).Some? <==> i in k))
  {
    KeptMatchResults(ValidateCommand, raws);
    KeptAreTheValid(ValidateCommand, raws);
  }

  lemma {:induction false} KeptMatchResults(check: Validator, raws: seq<CommandObject>)
    ensures var r, k := KeepValid(check, raws), KeptBy(check, raws);
      && |k| == |r|
      && (forall j :: 0 <= j < |k| ==> k[j] < |raws| && check(raws[k[j]], k[j]) == Some(r[j]))
      && (forall j, l :: 0 <= j < l < |k| ==> k[j] < k[l])
  {
    if |raws| > 0 {
      var n := |raws| - 1;
      var pre := raws[..n];
      KeptMatchResults(check, pre);
      assert forall i :: 0 <= i < n ==> raws[i] == pre[i];
    }
  }

  lemma {:induction false} KeptAreTheValid(check: Validator, raws: seq<CommandObject>)
    ensures forall i :: 0 <= i < |raws| ==> (check(raws[i], i).Some? <==> i in KeptBy(check, raws))
  {
    if |raws| > 0 {
      var n := |raws| - 1;
      var pre := raws[..n];
      KeptAreTheValid(check, pre);
      KeptBelow(check, pre);
      assert forall i :: 0 <= i < n ==> raws[i] == pre[i];
    }
  }

  lemma {:induction false} KeptBelow(check: Validator, raws: seq<CommandObject>)
    ensures forall j :: 0 <= j < |KeptBy(check, raws)| ==> KeptBy(check, raws)[j] < |raws|
  {
    if |raws| > 0 {
      KeptBelow(check, raws[..|raws| - 1]);
    }
  }

  /** Every command the interpreter returns names a supported action. */
  lemma ValidatedActionsSupported(raws: seq<CommandObject>)
    ensures forall j :: 0 <= j < |ValidateAll(raws)| ==> ActionOf(ValidateAll(raws)[j].action).Some?
  {
    ValidateAllKeepsExactlyTheValid(raws);
  }

  /** Ids within one result are pairwise distinct. */
  lemma ValidatedIdsDistinct(raws: seq<CommandObject>)
    ensures forall j, l :: 0 <= j < l < |ValidateAll(raws)| ==>
              ValidateAll(raws)[j].id != ValidateAll(raws)[l].id
  {
    var r, k := ValidateAll(raws), KeptPositions(raws);
    ValidateAllKeepsExactlyTheValid(raws);
    forall j, l | 0 <= j < l < |r| ensures r[j].id != r[l].id {
      if r[j].id == r[l].id {
        CommandIdInjective(k[j], k[l]);
      }
    }
  }

  // ---------------------------------------------------------------------------
  // Confidence adjustment
  // ---------------------------------------------------------------------------

  function Min(a: real, b: real): real {
    if a <= b then a else b
  }

  /** The action keywords, in Portuguese, that raise confidence. */
  const Keywords: seq<string> := ["abrir", "clicar", "digitar", "buscar", "navegar", "ir para"]

  /** `keywords.some(w => text.toLowerCase().includes(w))`. */
  predicate HasKeyword(text: string) {
    exists k | k in Keywords :: Contains(Lower(text), k)
  }

  /** `parsed.confidence || 0.5`: `None` is an absent or falsy confidence. */
  function BaseConfidence(reported: Option<real>): (r: real)
    ensures r != 0.0
    ensures reported.Some? && reported.value != 0.0 ==> r == reported.value
    ensures reported.None? || 0.0 <= reported.value <= 1.0 ==> 0.0 < r <= 1.0
  {
    if reported.None? || reported.value == 0.0 then 0.5 else reported.value
  }

  /** `_calculateAdjustedConfidence`: a base in [0, 1] stays there, and the
      result is rounded to a whole number of hundredths. */
  function AdjustedConfidence(base: real, commandCount: nat, text: string): (r: real)
    ensures 0.0 <= base <= 1.0 ==> 0.0 <= r <= 1.0
    ensures (r * 100.0).Floor as real == r * 100.0
  {
    var short, keyword := |text| < 10, HasKeyword(text);
    if 0.0 <= base <= 1.0 then
      UnroundedInUnit(base, commandCount, short, keyword);
      RoundHundredthsInUnit(Unrounded(base, commandCount, short, keyword));
      Adjust(base, commandCount, short, keyword)
    else
      Adjust(base, commandCount, short, keyword)
  }

  /** The adjustment once the text is reduced to the two facts it depends on:
      whether it is short, and whether it names an action keyword. */
  function Adjust(base: real, commandCount: nat, short: bool, keyword: bool): real {
    RoundHundredths(Unrounded(base, commandCount, short, keyword))
  }

  /** The adjusted confidence before rounding: 70% off for no commands, 0.1
      more for several, 30% off for a short text, 0.15 more for a keyword,
      each raise capped at 1. */
  function Unrounded(base: real, commandCount: nat, short: bool, keyword: bool): real {
    var a := if commandCount == 0 then base * 0.3 else base;
    var b := if commandCount > 1 then Min(1.0, a + 0.1) else a;
    var c := if short then b * 0.7 else b;
    if keyword then Min(1.0, c + 0.15) else c
  }

  lemma UnroundedInUnit(base: real, commandCount: nat, short: bool, keyword: bool)
    requires 0.0 <= base <= 1.0
    ensures 0.0 <= Unrounded(base, commandCount, short, keyword) <= 1.0
  {
  }

  /** A higher reported confidence never yields a lower adjusted one. */
  lemma AdjustedConfidenceMonotone(x: real, y: real, commandCount: nat, text: string)
    requires 0.0 <= x <= y
    ensures AdjustedConfidence(x, commandCount, text) <= AdjustedConfidence(y, commandCount, text)
  {
    var short, keyword := |text| < 10, HasKeyword(text);
    UnroundedMonotone(x, y, commandCount, short, keyword);
    RoundHundredthsMonotone(Unrounded(x, commandCount, short, keyword), Unrounded(y, commandCount, short, keyword));
  }

  lemma UnroundedMonotone(x: real, y: real, commandCount: nat, short: bool, keyword: bool)
    requires x <= y
    ensures Unrounded(x, commandCount, short, keyword) <= Unrounded(y, commandCount, short, keyword)
  {
  }

  /** An empty command list costs 70% of the confidence before rounding: with
      no keyword and a text of ten characters or more, the result is the
      rounded 30% of the base. */
  lemma EmptyResultDistrusted(base: real, text: string)
    requires |text| >= 10 && !HasKeyword(text)
    ensures AdjustedConfidence(base, 0, text) == RoundHundredths(base * 0.3)
  {
  }

  // ---------------------------------------------------------------------------
  // Processing the reply
  // ---------------------------------------------------------------------------

  /** The completion service's reply after `JSON.parse`. `Unparsable` carries
      the message of whatever was thrown reading it (not JSON, or `null`);
      `commands` is `None` when the field is missing or not an array. */
  datatype JsonReply =
    | Unparsable(error: string)
    | Reply(commands: Option<seq<CommandObject>>, confidence: Option<real>, intent: JsValue)

  /** The metadata the interpreter adds (the reply's own metadata, timestamps
      and timings are not modelled). */
  datatype Metadata = Metadata(originalText: string, commandCount: Option<nat>, error: Option<string>)

  datatype ParsingResult = ParsingResult(
    success: bool,
    intent: JsValue,
    confidence: real,
    commands: seq<CommandObject>,
    metadata: Metadata)

  /** The result `_processGPTResponse` returns from its `catch`. */
  function FailedParse(error: string, text: string): ParsingResult {
    ParsingResult(false, Str("Falha na interpretação"), 0.1, [], Metadata(text, None, Some(error)))
  }

  /** `_processGPTResponse`. */
  function ProcessReply(reply: JsonReply, text: string): (r: ParsingResult)
    ensures r.success <==> reply.Reply? && reply.commands.Some?
    ensures !r.success ==> r.confidence == 0.1 && r.commands == [] && r.metadata.error.Some?
    ensures r.success ==> r.metadata.commandCount == Some(|r.commands|) && r.metadata.error.None?
    ensures r.success ==> |r.commands| <= |reply.commands.value|
    ensures r.metadata.originalText == text
    ensures r.success ==>
      && r.commands == ValidateAll(reply.commands.value)
      && r.intent == Or(reply.intent, Str("Comando não especificado"))
      && r.confidence == AdjustedConfidence(BaseConfidence(reply.confidence), |r.commands|, text)
  {
    match reply
    case Unparsable(e) => FailedParse(e, text)
    case Reply(commands, confidence, intent) =>
      if commands.None? then FailedParse("Estrutura de comandos inválida", text)
      else
        var validated := ValidateAll(commands.value);
        ParsingResult(
          true,
          Or(intent, Str("Comando não especificado")),
          AdjustedConfidence(BaseConfidence(confidence), |validated|, text),
          validated,
          Metadata(text, Some(|validated|), None))
  }

  /** On the parse path every returned command is supported, ids are distinct,
      and a reported confidence in [0, 1] (or none) leaves the result in [0, 1]. */
  lemma ProcessedReplyWellFormed(reply: JsonReply, text: string)
    requires reply.Reply? && reply.commands.Some?
    requires reply.confidence.Some? ==> 0.0 <= reply.confidence.value <= 1.0
    ensures var r := ProcessReply(reply, text);
      && (forall j :: 0 <= j < |r.commands| ==> ActionOf(r.commands[j].action).Some?)
      && (forall j, l :: 0 <= j < l < |r.commands| ==> r.commands[j].id != r.commands[l].id)
      && 0.0 <= r.confidence <= 1.0
  {
    ValidatedActionsSupported(reply.commands.value);
    ValidatedIdsDistinct(reply.commands.value);
  }

  // ---------------------------------------------------------------------------
  // parseCommands
  // ---------------------------------------------------------------------------

  /** Whether the completion client has been built; it is built once and
      reused. */
  datatype ParserState = ParserState(clientReady: bool)

  const MissingKeyMessage: string := "OPENAI_API_KEY não encontrada"

  /** The prefix `parseCommands` puts on every error it rethrows. */
  const InterpretationPrefix: string := "Falha na interpretação do texto: "

  /** The completion service and `JSON.parse` together: text, context and
      domain in, a parsed reply or a transport/authentication error out. */
  type Completion = (string, JsValue, JsValue) -> Result<JsonReply>

  /** `parseCommands`: lazily build the client (failing without an API key),
      ask the service, and process the reply. Errors are rethrown with
      `InterpretationPrefix`; a malformed reply is not an error. */
  function ParseCommands(p: ParserState, apiKeyConfigured: bool, service: Completion,
                         text: string, context: JsValue, domain: JsValue)
    : (r: (ParserState, Result<ParsingResult>))
    ensures r.1.Err? ==> StartsWith(r.1.error, InterpretationPrefix)
    ensures !p.clientReady && !apiKeyConfigured ==> r == (p, Err(InterpretationPrefix + MissingKeyMessage))
    ensures p.clientReady || apiKeyConfigured ==> r.0.clientReady
    ensures r.1.Ok? ==> r.1.value.metadata.originalText == text
    ensures p.clientReady || apiKeyConfigured ==>
      var reply := service(text, Or(context, Str("automação web geral")), Or(domain, Str("qualquer site")));
      && (reply.Ok? ==> r.1 == Ok(ProcessReply(reply.value, text)))
      && (reply.Err? ==> r.1 == Err(InterpretationPrefix + reply.error))
  {
    if !p.clientReady && !apiKeyConfigured then
      (p, Err(InterpretationPrefix + MissingKeyMessage))
    else
      var ready := ParserState(true);
      match service(text, Or(context, Str("automação web geral")), Or(domain, Str("qualquer site")))
      case Err(m) =>
        (ready, Err(InterpretationPrefix + m))
      case Ok(reply) =>
        (ready, Ok(ProcessReply(reply, text)))
  }
}

=== FILE: sequences.dfy ===
/** Two facts about splitting a concatenation at its first or last element.
    Proved on their own, they keep sequence extensionality out of the larger
    proofs that use them. */
module Sequences {

  lemma SplitFirst<T>(a: seq<T>, b: seq<T>)
    requires |a| > 0
    ensures (a + b)[0] == a[0]
    ensures (a + b)[1..] == a[1..] + b
  {
  }

  lemma SplitLast<T>(a: seq<T>, b: seq<T>)
    requires |b| > 0
    ensures b == b[..|b| - 1] + [b[|b| - 1]]
    ensures a + b == (a + b[..|b| - 1]) + [b[|b| - 1]]
  {
  }
}

=== FILE: wrappers.dfy ===
/** Optional values and success/failure results, used wherever the JavaScript
    source returns `null` or throws. */
module Wrappers {

  /** A value that may be absent: JavaScript's `null` / "no such key". */
  datatype Option<+T> = None | Some(value: T) {

    /** The carried value, or `default` when absent. */
    function GetOr(default: T): T {
      match this
      case Some(v) => v
      case None => default
    }
  }

  /** The outcome of a call that either returns a value or throws an `Error`
      whose message is `error`. */
  datatype Result<+T> = Ok(value: T) | Err(error: string)
}
